=== FILE: README.md ===
# locomeds core, modelled in Dafny

locomeds is the backend of an online pharmacy. It is an Express application over
MongoDB (Mongoose). This project models its route handlers and its schemas:

- the cart, coupon, zone, category and product routers;
- the register, login, profile-update, change-password and logout routes of
  general users, vendors and admins;
- the Firebase storage helpers that name, upload and delete product images;
- the order, user, vendor, admin, product, zone and category schemas, with
  their setters (`trim`, `lowercase`), `required` validators, defaults,
  enumerations and unique indexes.

Every handler is a pure function from the store it reads, the request fields and
the values of the foreign calls it makes, to a reply and the new store.

- A collection is a `seq` when order matters, because `findOne` returns the
  first match. It is a `map` from id to document when documents are reached
  by id.
- `Result` replies leave the store as it was. `Reply` replies carry the store,
  for the error paths that still change it. Two examples: a product upload
  before a 404, and a category list saved partly before a 500.
- Foreign calls are parameters:
  - bcrypt's `hash` and `compare`;
  - `validator.isEmail`;
  - `jwt.sign`, whose `None` stands for a throw;
  - `Date.now`.
- JavaScript truthiness of an optional string or number is spelled out as
  `Given` and `GivenNum`. The empty string and 0 count as missing.
- A route that throws from inside its own catch block answers nothing. The
  model writes this as status `NoResponse` (0).

Module layout:

- Shared modules:
  - `Wrappers`: `Option`, `Result`, `Outcome`, `Reply`, truthiness, `findOne`.
  - `Text`: trim, ASCII lower-case, split and join, decimal digits.
  - `Sessions`: the token list.
  - `Credentials`: hash-on-modify and the change-password rules.
  - `Accounts`: the registration and sign-in checks.
  - `Profiles`: the update whitelist.
  - `Addresses`: the address sub-schema.
  - `Directory`: uniqueness across the admin and vendor collections.
- One module per schema: `OrderModel`, `UserModel`, `VendorModel`,
  `AdminModel`, `ProductModel`, `ZoneModel`, and `CategoryRoutes` (which holds
  the category schema).
- One module per router: `CartRoutes`, `CouponRoutes`, `ZoneRoutes`,
  `CategoryRoutes`, `ProductRoutes`, `UserRoutes`, `VendorRoutes`,
  `AdminRoutes`, plus `Storage` for the Firebase helpers.

## Model

| member | source | states |
|---|---|---|
| Wrappers.FindFirst | routes/vendor.js:135 | `findOne` over a collection in insertion order: the first document the filter matches, and None exactly when no document matches |
| Text.Lower | models/zoneModel.js:4-7 | the `lowercase` setter keeps the length and maps every ASCII upper-case letter to its lower-case form, every other character to itself |
| Text.LowerIdempotent | models/zoneModel.js:4-7 | a lower-cased value has no upper-case letter, and lower-casing it again changes nothing |
| Text.Trim | models/userModel.js:67-72 | the `trim` setter yields the empty string exactly when the input is all whitespace, whitespace being ECMAScript's WhiteSpace and LineTerminator characters (vertical tab and form feed included) |
| Text.ControlSpacesTrimmed | models/userModel.js:67-72 | the setter strips a leading vertical tab ("\vabc" is stored as "abc") and treats a lone form feed as blank |
| Text.TrimShape | models/userModel.js:67-72 | the trimmed value is the slice of the input after its leading whitespace; only whitespace follows it; it neither starts nor ends with whitespace |
| Text.TrimIdempotent | models/userModel.js:67-72 | trimming a trimmed value changes nothing |
| Text.TrimLowerCommute | models/userModel.js:60-66 | `trim` and `lowercase` commute, so the order in which Mongoose runs the two setters does not matter |
| Text.TrimLower | models/categoryModel.js:3-10 | a path with both setters stores a canonical value (trimmed, no upper case), empty exactly when the input is blank |
| Text.TrimLowerFixes | models/categoryModel.js:3-10 | the setters leave a canonical value unchanged, so a stored value matches a filter built from itself |
| Text.Split | utils/firebase.utils.js:44 | `split("/")` yields at least one part, and no part contains the separator |
| Text.JoinSplit | utils/firebase.utils.js:44 | joining the parts of a split with the same separator gives back the string |
| Text.SplitJoin | utils/firebase.utils.js:44 | splitting a join of separator-free parts gives back the parts |
| Text.Decimal | utils/firebase.utils.js:6 | the decimal rendering of the timestamp in an object name is a non-empty run of digits |
| Text.ValueDecimal | utils/firebase.utils.js:6 | the decimal rendering reads back to the number |
| Accounts.CheckNames | routes/vendor.js:21-39 | first name before last name, presence before length: "First name is required", "First name must be at least 3 characters", "Last name is required" and "Last name must be at least 3 characters" are each the reply exactly when the earlier checks pass and this one fails; passes exactly when both names are given and at least 3 characters long |
| Accounts.CheckPhone | routes/user.js:40-46 | "Phone number is required" exactly when the number is missing; "Invalid phone number" exactly when its length is not 10 (digits are not checked) |
| Accounts.CheckEmailGiven | routes/admin.js:33-35 | passes exactly when an email is given, else 400 "Email is required" |
| Accounts.CheckEmailFormat | routes/admin.js:45-47 | passes exactly when `isEmail` accepts the email, else 400 "Invalid email address" |
| Accounts.CheckPassword | routes/vendor.js:94-102 | "Password is required" exactly when it is missing; the length message exactly when it is given but outside 6..18 |
| Accounts.CheckSignIn | routes/vendor.js:126-133 | the sign-in body passes exactly when email and password are given; the email is reported first |
| Sessions.Issue | models/userModel.js:107-116 | a signed token is appended after the existing ones, which are kept in order; afterwards exactly the old tokens and the new one authenticate |
| Sessions.Revoke | routes/user.js:223-225 | after the logout filter the presented token no longer authenticates, and every other token authenticates exactly as before |
| Sessions.RevokeCounts | routes/vendor.js:238-240 | the filter removes every copy of the presented token and keeps every other token as often as it occurred |
| Sessions.RevokeConcat | routes/admin.js:203-205 | the filter distributes over concatenation, so it keeps the other tokens in order |
| Sessions.RevokeAbsent | routes/user.js:223-225 | logging out with a token the list does not hold leaves the list as it was |
| Sessions.RevokeIdempotent | routes/user.js:223-225 | a second logout with the same token changes nothing |
| Sessions.RevokeIssued | routes/admin.js:203-205 | logging out with the token a login just issued returns the list to what the same logout would have left before the login |
| Credentials.OnSave | models/userModel.js:98-104 | the pre-save hook hashes the password exactly when it was modified; afterwards the path is no longer marked modified |
| Credentials.HashedOnce | models/adminModel.js:57-66 | however many saves follow an assignment, the stored value is the hash of the plain password, hashed once |
| Credentials.CheckChange | routes/user.js:178-205 | each of "Current password is required", "New password is required", "New password must be different from the current password", "Invalid current password" and the length message is the reply exactly when the checks before it pass and it fails; passes exactly when all five pass |
| Credentials.ChangePassword | routes/vendor.js:198-228 | a change succeeds exactly when the rules accept it, and the stored value becomes the hash of the new password; a refusal answers the first failing rule's message with 400 |
| Profiles.CheckKeys | routes/user.js:142-149 | the update passes exactly when every body key is whitelisted; otherwise "Invalid updates" with status 200 |
| Addresses.Cast | models/userModel.js:6-43 | the address sub-document is stored exactly when every required path is present; addressLine, zone, district, city and state are each the lower-cased input, the pincode is the input, and the country is the lower-cased input or "india" when absent |
| Addresses.CompleteIsStorable | routes/vendor.js:61-70 | an address the vendor route calls complete is accepted by the schema, unless the body sends an empty country |
| Addresses.StorableButIncomplete | routes/vendor.js:61-70 | the converse fails: the schema stores a zero pincode, and the route calls such an address incomplete |
| UserModel.UserType | models/userModel.js:77-81 | the discriminator is one of "Admin", "Vendor", "GeneralUser", and it names the document's variant |
| UserModel.NewUser | models/userModel.js:46-95 | a new user document stores each name and the email trimmed and lower-cased and the phone trimmed, with no tokens and a password still to be hashed |
| UserModel.NewAdmin | models/userModel.js:126-135 | the Admin variant gets userType "Admin" and role "admin" by default |
| UserModel.NewVendor | models/userModel.js:138-153 | the Vendor variant gets userType "Vendor", verification status "pending" by default, and a trimmed business name |
| UserModel.GenerateAuthToken | models/userModel.js:107-120 | a signed token is appended and the document saved with its password hashed if modified; if signing or saving fails the document is unchanged and no token is returned |
| UserModel.IssuedTokenAuthenticates | models/userModel.js:107-120 | after a successful token generation the new token authenticates, and so does every token that did before |
| UserModel.FindGeneral | routes/user.js:113 | the general-user lookup finds the first general user with the email, and None exactly when there is none |
| VendorModel.New | models/vendorModel.js:44-99 | first name, last name, business name and phone are each the trimmed input (names not lower-cased); the email is trimmed and lower-cased; userType defaults to "vendor"; the document is valid exactly when no required text is blank |
| VendorModel.GenerateAuthToken | models/vendorModel.js:113-126 | one token appended after the existing ones and the document saved; on a signing or save failure nothing changes and no token is returned |
| VendorModel.FindByEmail | routes/vendor.js:135 | the first vendor with the email, None exactly when there is none |
| AdminModel.New | models/adminModel.js:5-54 | names and phone trimmed, email trimmed and lower-cased, userType defaults to lower-case "admin"; valid exactly when no required text is blank |
| AdminModel.GenerateAuthToken | models/adminModel.js:68-81 | one token appended after the existing ones and the document saved; on failure nothing changes and no token is returned |
| AdminModel.FindByEmail | routes/admin.js:106 | the first admin with the email, None exactly when there is none |
| Directory.AddAdmin | routes/admin.js:49-65 | adding an admin whose email and phone are free in both collections keeps contacts unique across admins and vendors |
| Directory.AddVendor | routes/vendor.js:76-92 | adding a vendor whose email and phone are free in both collections keeps contacts unique across admins and vendors |
| AdminRoutes.CheckRegistration | routes/admin.js:13-47 | passes exactly on an eligible body; the first failure is the reply, in order: the name messages, "Email is required", the phone messages, then "Invalid email address" |
| AdminRoutes.Register | routes/admin.js:9-92 | succeeds exactly on an eligible body whose email and phone no admin or vendor holds, with an acceptable password and no text blank after trimming; a failing body check answers its own message; an email or phone held by any admin or vendor is refused with its message before the password is looked at, whose failure answers its own message; on success exactly one normalised admin is appended, with the trimmed names, the hashed password and the issued token |
| AdminRoutes.Enrol | routes/admin.js:77-88 | succeeds exactly when no name, email or phone is blank after trimming, appending exactly one sound admin with the trimmed names, normalised email and phone, hashed password and issued token; otherwise validation fails with 500 |
| AdminRoutes.RegisterKeepsContactsUnique | routes/admin.js:49-65 | a successful registration keeps emails and phone numbers unique across the admin and vendor collections |
| AdminRoutes.Login | routes/admin.js:95-122 | succeeds exactly when email and password are given, an admin holds the normalised email and the password verifies against it; the presence messages, "Invalid email" and "Invalid password" answer the other cases; on success every other document is unchanged; when signing works and the found admin passes validation, that admin is stored with the new token appended and the password through the save hook, every other field kept, and the token is returned; when signing or validation fails the reply is 200 with no token and nothing stored |
| AdminRoutes.SignInAs | models/adminModel.js:68-81 | the found admin alone is stored with the signed token appended and the password through the save hook; when signing fails or the document does not pass validation, no token is returned and nothing is stored |
| AdminRoutes.Assigned | routes/admin.js:138-140 | exactly the whitelisted keys the body names are overwritten through their setters; email, password and tokens are untouched |
| AdminRoutes.UpdateProfile | routes/admin.js:125-155 | a key outside {firstName, lastName, phoneNumber} changes nothing and answers 200 "Invalid updates"; otherwise the update succeeds exactly when the assigned document is valid and no other admin holds its phone, fails with 400 "Phone number already exists" exactly when it is valid and another admin holds that phone, and answers nothing when it is invalid; a success changes only the caller's document |
| AdminRoutes.UpdateProfileKeepsStored | routes/admin.js:138-144 | a successful profile update keeps the collection valid, normalised and free of duplicate contacts |
| AdminRoutes.EmptyUpdateChangesNothing | routes/admin.js:130-145 | an empty body reports success and leaves the collection as it was |
| AdminRoutes.ChangePassword | routes/admin.js:158-198 | succeeds exactly when the change rules accept the body; a refused body answers the first failing rule's message; the caller's stored password becomes the new hash and nothing else changes |
| AdminRoutes.Logout | routes/admin.js:201-211 | the caller's tokens become the logout filter of the old list (every copy of the presented token gone, the others kept in order), the caller's other fields and every other admin are unchanged |
| VendorRoutes.CheckContacts | routes/vendor.js:21-55 | passes exactly when the names, email, phone number and business name pass; the first failure is the reply, in order: the name messages, "Email is required", the phone messages, "Bussiness name is required" |
| VendorRoutes.CheckAddress | routes/vendor.js:57-70 | passes exactly when an address is given and complete; "Address is required" exactly when it is missing, "Address is incomplete" exactly when a field is missing or falsy |
| VendorRoutes.CheckRegistration | routes/vendor.js:21-74 | passes exactly on an eligible body; the contact checks' failure comes first, then the address checks' failure, then "Invalid email address", so the format is checked only after a complete address |
| VendorRoutes.Register | routes/vendor.js:9-121 | succeeds exactly on an eligible body whose email and phone no admin or vendor holds, with an acceptable password and a document the schema accepts; a failing body check answers its own message; emails and phones are looked up in both collections, email first, before the password, whose failure answers its own message; on success exactly one sound vendor is appended, with the trimmed names and business name, the cast address, hashed password and issued token |
| VendorRoutes.Enrol | routes/vendor.js:104-117 | succeeds exactly when no required text is blank after trimming and the address sub-schema accepts the address, appending exactly one sound vendor with the trimmed names and business name; otherwise validation fails with 500 |
| VendorRoutes.RegisterKeepsContactsUnique | routes/vendor.js:76-92 | a successful registration keeps contacts unique across admins and vendors |
| VendorRoutes.RegisterKeepsStored | routes/vendor.js:104-116 | a successful registration keeps the vendor collection valid, normalised and duplicate-free |
| VendorRoutes.Login | routes/vendor.js:124-151 | succeeds exactly when email and password are given, a vendor holds the normalised email and the password verifies against it; the presence messages, "Invalid email" and "Invalid password" answer the other cases; on success every other document is unchanged; when signing works and the found vendor passes validation, that vendor is stored with the new token appended and the password through the save hook, every other field kept, and the token is returned; when signing or validation fails the reply is 200 with no token and nothing stored |
| VendorRoutes.Assigned | routes/vendor.js:173-175 | the whitelisted keys the body names are assigned through their setters; an address is replaced without the route's completeness check |
| VendorRoutes.AppliedNormalised | routes/vendor.js:173-175 | assigning through the setters keeps a normalised vendor normalised |
| VendorRoutes.UpdateProfile | routes/vendor.js:154-190 | a key outside the five-key whitelist changes nothing and answers 200 "Invalid updates"; otherwise the update succeeds exactly when the assigned document exists, is valid and no other vendor holds its phone, fails with 400 "Phone number already exists" exactly when another vendor does, and answers nothing when the document is refused; a success changes only the caller |
| VendorRoutes.UpdateProfileKeepsStored | routes/vendor.js:173-179 | a successful profile update keeps the vendor collection valid, normalised and duplicate-free |
| VendorRoutes.EmptyUpdateChangesNothing | routes/vendor.js:165-180 | an empty body reports success and changes nothing |
| VendorRoutes.UpdateCanShareAdminPhone | routes/vendor.js:173-188 | the update checks the phone only against the vendor index, so a vendor can take an admin's phone number and break uniqueness across the two collections |
| VendorRoutes.UpdateTakesFreePhone | routes/vendor.js:173-180 | a phone number no other vendor holds is taken, and nothing else changes |
| VendorRoutes.ChangePassword | routes/vendor.js:193-233 | succeeds exactly when the change rules accept the body; a refused body answers the first failing rule's message; the new password is stored hashed and the tokens are kept |
| VendorRoutes.Logout | routes/vendor.js:236-246 | the caller's tokens become the logout filter of the old list (every copy of the presented token gone, the others kept in order), the caller's other fields and every other vendor are unchanged |
| VendorRoutes.LoginThenLogout | routes/vendor.js:238-240 | logging out with the token a login just issued leaves the vendor's list as the same logout would have before the login |
| UserRoutes.CheckRegistration | routes/user.js:12-56 | passes exactly on an eligible body; the first failure is the reply, in order: the name messages, "Email is required", "Invalid email address", the phone messages, the password messages |
| UserRoutes.RegisterAsWritten | routes/user.js:2-99 | as written: every eligible body reaches the missing model and gets no response; an ineligible one gets its 400 |
| UserRoutes.Register | routes/user.js:8-99 | with the model the route evidently means: succeeds exactly on an eligible body with no blank text whose email and phone no document holds; a failing body check answers its own message; a general user holding the email, then one holding the phone, is refused with its message; a blank text answers nothing; on success exactly one general user is appended, with the trimmed, lower-cased names, the hashed password and the issued token |
| UserRoutes.Enrol | routes/user.js:72-96 | a blank text fails validation and answers nothing; otherwise "Email already exists" exactly when some document holds the email, "Phone number already exists" exactly when none holds the email and some holds the phone; otherwise one sound general user is appended, with the trimmed, lower-cased names, normalised email and phone, hashed password and issued token |
| UserRoutes.RegisterKeepsStored | routes/user.js:72-83 | a successful registration keeps the user collection valid, normalised and duplicate-free |
| UserRoutes.RegisterAsWrittenLosesEveryUser | routes/user.js:58-97 | every registration the intended route accepts is lost as written |
| UserRoutes.RegisterExample | routes/user.js:8-99 | a concrete body registers on an empty collection with the intended model and gets no response as written |
| UserRoutes.LoginAsWritten | routes/user.js:102-129 | as written: a body with email and password reaches the missing model and answers 500 |
| UserRoutes.Login | routes/user.js:102-129 | succeeds exactly when email and password are given, a general user holds the normalised email and the password verifies against it; the presence messages, "Invalid email" and "Invalid password" answer the other cases; on success every other document is unchanged; when signing works and the found user passes validation, that user is stored with the new token appended and the password through the save hook, every other field kept, and the token is returned; when signing or validation fails the reply is 200 with no token and nothing stored |
| UserRoutes.LoginAsWrittenLosesEveryUser | routes/user.js:113-128 | every login the intended route accepts fails with 500 as written |
| UserRoutes.Gate | routes/user.js:134-138 | only a "GeneralUser" passes; anyone else gets 401 |
| UserRoutes.Assigned | routes/user.js:150-152 | the whitelisted keys the body names are assigned through their setters; an address the schema refuses fails the assignment |
| UserRoutes.UpdateProfile | routes/user.js:132-165 | other variants get 401; a key outside the four-key whitelist changes nothing and answers 200; otherwise the update succeeds exactly when the assigned document exists, is valid and no other document holds its phone, fails with 400 "Phone number already exists" exactly when another does, and answers nothing when the document is refused; a success changes only the caller |
| UserRoutes.UpdateProfileKeepsStored | routes/user.js:150-154 | a successful profile update keeps the user collection valid, normalised and duplicate-free |
| UserRoutes.ChangePassword | routes/user.js:168-213 | 401 for other variants; otherwise succeeds exactly when the change rules accept, storing the hash of the new password, and a refused body answers the first failing rule's message |
| UserRoutes.Logout | routes/user.js:216-231 | 401 for other variants; otherwise the presented token stops authenticating and no other user changes |
| UserRoutes.GateRefusesOtherVariants | routes/user.js:132-231 | an admin or vendor document is refused with 401 by profile update, password change and logout alike |
| CartRoutes.Requested | routes/cart.js:13-15 | a missing or zero quantity becomes 1; any other value, negative ones included, is used as given |
| CartRoutes.LineOf | routes/cart.js:24-26 | `findIndex`: the first line for the product, None exactly when there is none |
| CartRoutes.Merge | routes/cart.js:28-34 | an existing line is bumped and the count kept; otherwise one line is appended at the end; lines of other products are unchanged |
| CartRoutes.Without | routes/cart.js:67-69 | the filter keeps exactly the lines of other products, and no line of the removed product remains |
| CartRoutes.AddToCart | routes/cart.js:6-44 | a missing product id is 400 with no change; otherwise the caller's cart (created empty if missing) gains the requested quantity of the product, its time is bumped, and every other cart is untouched; an existing line of the product grows in place and the line count stays the same, otherwise exactly one line is appended; a cart with one line per product keeps that shape |
| CartRoutes.UserCart | routes/cart.js:47-59 | the caller's cart, or 404 "Cart not found" |
| CartRoutes.RemoveFromCart | routes/cart.js:62-79 | no cart is 404 and creates none; otherwise the product's quantity drops to 0, every other product's is kept, and the time is bumped; the lines are exactly the old lines without the product's, in their order, and a cart with one line per product keeps that shape |
| CartRoutes.ClearCart | routes/cart.js:83-96 | no cart is 404; otherwise the cart record stays with no lines and a bumped time |
| CartRoutes.MergeQuantity | routes/cart.js:24-34 | adding changes the product's total quantity by exactly the requested amount and no other product's |
| CartRoutes.WithoutQuantity | routes/cart.js:67-69 | removing zeroes the product's total quantity and keeps every other product's |
| CartRoutes.MergeKeepsOneLine | routes/cart.js:24-34 | adding keeps at most one line per product |
| CartRoutes.WithoutConcat | routes/cart.js:67-69 | the filter distributes over concatenation, so it keeps the other lines in their order |
| CartRoutes.WithoutKeepsOneLine | routes/cart.js:67-69 | removing a product keeps at most one line per product |
| CartRoutes.WithoutAbsent | routes/cart.js:67-69 | removing a product without a line is a no-op |
| CartRoutes.WithoutIdempotent | routes/cart.js:67-69 | removing twice is removing once |
| CartRoutes.RemoveUndoesAdd | routes/cart.js:24-69 | removing a product after adding it leaves the same lines as removing it without the add |
| CartRoutes.AddCreatesLine | routes/cart.js:18-34 | an add with a product id always leaves the caller with a cart that has a line for the product |
| CouponRoutes.Gate | routes/coupon.js:8-12 | only the exact userType "Admin" passes; anyone else gets 403 |
| CouponRoutes.CheckAmounts | routes/coupon.js:20-34 | percentage presence, its range 0..100, then the maximum's presence, each failure with its message; passes exactly on acceptable amounts |
| CouponRoutes.AddCoupon | routes/coupon.js:6-50 | non-admins get 403, a missing code 400, then the first failing amount check's message with 400; on success one coupon with the body's code, the body's percentage (which lies in 1..100) and the body's maximum is added, and no other coupon changes |
| CouponRoutes.GetCoupon | routes/coupon.js:64-75 | the coupon under the id, or 404 |
| CouponRoutes.UpdateCoupon | routes/coupon.js:78-121 | gate, then the first failing amount check's message with 400, then the lookup (404); a success changes only the coupon's percentage, maximum and active flag, never its code or any other coupon |
| CouponRoutes.DeleteCoupon | routes/coupon.js:124-135 | no role check; the coupon is removed, or 404 when the id is unknown |
| CouponRoutes.AcceptedPercentagePositive | routes/coupon.js:20-30 | an accepted percentage p satisfies 0 < p <= 100, because 0 is reported as missing |
| CouponRoutes.MaxDiscountOnlyNonZero | routes/coupon.js:32-34 | with a valid percentage, the maximum is accepted exactly when it is non-zero |
| CouponRoutes.GateAdmitsAdminVariant | routes/coupon.js:6-12 | the gate, which sees a document of the user collection, passes exactly its Admin variant; vendors and general users get 403 from add and update |
| CouponRoutes.UpdateIdempotent | routes/coupon.js:110-114 | applying the same update twice gives the same collection as once |
| CouponRoutes.DeleteTwice | routes/coupon.js:124-130 | a second delete of the same id answers 404 |
| CouponRoutes.DeleteUndoesAdd | routes/coupon.js:36-135 | deleting the coupon a successful add stored gives back the collection as it was before the add |
| CouponRoutes.CouponBoundLooserThanOrder | routes/coupon.js:26-30 | a 50% coupon is accepted although no order may carry a 50% discount |
| ZoneModel.Cast | models/zoneModel.js:3-8 | each of the four fields is stored as its lower-cased input; the zone is valid exactly when no field is empty |
| ZoneModel.PutKeepsStored | models/zoneModel.js:7 | storing a valid, normalised zone whose name no other zone holds keeps the collection valid and its names unique |
| ZoneRoutes.Gate | routes/zone.js:9-13 | only the exact userType "Admin" passes; anyone else gets 401 |
| ZoneRoutes.Requested | routes/zone.js:32 | a body with all four fields describes the zone of its lower-cased fields, which is valid and normalised |
| ZoneRoutes.AddZone | routes/zone.js:7-38 | gate, all four fields, then the tuple check; a tuple equal to a stored zone is 400; a new tuple whose name is taken fails the unique index with 500; otherwise exactly the new zone is added |
| ZoneRoutes.GetZone | routes/zone.js:51-61 | the zone under the id, or 404 |
| ZoneRoutes.UpdateZone | routes/zone.js:64-104 | the tuple check runs before the existence check; a success overwrites all four fields of that zone only, and no other zone may hold its name |
| ZoneRoutes.DeleteZone | routes/zone.js:107-122 | gate, then the zone is removed, or 404 when the id is unknown |
| ZoneRoutes.GetAfterAdd | routes/zone.js:32-61 | the zone a successful add stores is read back by its id, with the body's fields normalised |
| ZoneRoutes.DeleteUndoesAdd | routes/zone.js:32-117 | an admin deleting the zone a successful add stored gives back the collection as it was before the add |
| ZoneRoutes.AddKeepsStored | routes/zone.js:32-33 | a successful add keeps the collection valid, normalised and its names unique |
| ZoneRoutes.UpdateKeepsStored | routes/zone.js:94-99 | a successful update keeps the collection valid, normalised and its names unique |
| ZoneRoutes.SelfUpdateRefused | routes/zone.js:78-87 | updating a zone to its own current values is refused as "Zone already exists" |
| ZoneRoutes.DuplicateBeforeMissing | routes/zone.js:78-92 | a duplicate tuple is reported even for an id that does not exist |
| ZoneRoutes.SameNameOtherPlace | routes/zone.js:22-33 | the tuple check passes a zone named like one in another city, and the unique name index then refuses it with 500 |
| ZoneRoutes.GateAdmitsAdminVariant | routes/zone.js:7-13 | the gate, which sees a document of the user collection, passes exactly its Admin variant; vendors and general users get 401 from add, update and delete |
| CategoryRoutes.Cast | models/categoryModel.js:3-10 | a name is stored exactly when it is not blank, and it is stored trimmed and lower-cased |
| CategoryRoutes.AddAfter | routes/category.js:20-34 | a truthy existence test is 400 "Category already exists" before the name's presence is checked; otherwise the normalised name is appended |
| CategoryRoutes.AddCategoryAsWritten | routes/category.js:16-38 | as written, the un-awaited query is always truthy, so every request answers "Category already exists" |
| CategoryRoutes.AddCategory | routes/category.js:16-38 | with the lookup awaited, a name is appended exactly when it is not blank and not already stored |
| CategoryRoutes.Accepted | routes/category.js:49-55 | the names the list saves are the normalised elements up to the first one validation refuses |
| CategoryRoutes.SaveEach | routes/category.js:49-55 | the insert loop saves exactly that prefix, and stops early exactly when some element is refused |
| CategoryRoutes.AddManyCategories | routes/category.js:41-61 | no list is 500 and an empty one 400, with no change; otherwise the accepted prefix is appended, and the reply is 200 exactly when every element was saved, 500 otherwise |
| CategoryRoutes.DeleteCategory | routes/category.js:64-79 | the first copy of the normalised name is removed, and nothing else, or 400 "Category does not exist" when none is stored |
| CategoryRoutes.AddCategoryNeverSaves | routes/category.js:20-23 | a fresh, non-blank name that the awaited lookup would save is refused as written |
| CategoryRoutes.AddKeepsStored | routes/category.js:29-33 | every name a successful add stores is normalised and non-empty |
| CategoryRoutes.AddKeepsNamesDistinct | routes/category.js:20-34 | the awaited add never stores a name twice |
| CategoryRoutes.ManyStoresDuplicates | routes/category.js:49-55 | an illustration of the list route's contract: with no duplicate check, a name sent twice is stored twice |
| CategoryRoutes.ManyKeepsEarlierInserts | routes/category.js:49-60 | an illustration of the list route's contract: an element validation refuses does not undo the earlier inserts |
| CategoryRoutes.DeleteRemovesSingle | routes/category.js:68-71 | deleting a name stored once leaves no copy of it |
| CategoryRoutes.DeleteUndoesAdd | routes/category.js:29-71 | deleting the name a successful awaited add stored gives back the collection as it was before the add: the new name is its only copy |
| OrderModel.ParseStatus | models/orderModel.js:17-21 | the status enum accepts a value exactly when it is the name of a status |
| OrderModel.ParsePaymentMethod | models/orderModel.js:26-30 | the payment-method enum accepts exactly the four method names |
| OrderModel.ParsePaymentStatus | models/orderModel.js:31-35 | the payment-status enum accepts exactly "pending" and "completed" |
| OrderModel.StatusRoundTrip | models/orderModel.js:17-21 | every status's name reads back to that status |
| OrderModel.PaymentMethodRoundTrip | models/orderModel.js:26-30 | every payment method's name reads back to that method |
| OrderModel.PaymentStatusRoundTrip | models/orderModel.js:31-35 | every payment status's name reads back to that status |
| OrderModel.CastItems | models/orderModel.js:6-15 | every item keeps its product and quantity, in order |
| OrderModel.Create | models/orderModel.js:3-41 | an order is created exactly when every required path is present, every enumerated value given is a member, and the discount is in 0..20; user, contact number, total amount and shipping address are the input's; the zone is lower-cased, the defaults are applied, and both timestamps are the clock reading |
| OrderModel.Defaults | models/orderModel.js:17-37 | an order created without status, payment status or discount is pending, unpaid and has a 0% discount |
| ProductModel.TrimSome | models/productModel.js:15-18 | an optional trimmed path stays absent when absent, and is trimmed when present |
| ProductModel.Create | models/productModel.js:4-48 | a product is created exactly when name and description are not blank and price and quantity are present; the name is trimmed and lower-cased; a given manufacturer and composition are trimmed and absent ones stay absent; availability defaults to true, featured to false, and the prescription flag has no default |
| ProductRoutes.CheckProduct | routes/product.js:29-63 | each message is the reply exactly when the checks before it pass and it fails, in order name, price, price >= 1, quantity, quantity >= 1, description, category, manufacturer; for a JSON body 0 counts as missing; passes exactly when all pass |
| ProductRoutes.Saved | routes/product.js:76-87 | the stored product is valid and normalised, holds the uploaded URLs, the body's name, description, price, quantity, category, flags and trimmed manufacturer, has no composition, and has price and quantity of at least 1 |
| ProductRoutes.AddProduct | routes/product.js:11-95 | a failed check is 400 with nothing uploaded; otherwise the files are uploaded before the save, and a body the schema refuses answers 500 with the uploads left in the bucket |
| ProductRoutes.GetProduct | routes/product.js:115-135 | the product under the id, or 404 |
| ProductRoutes.Apply | routes/product.js:155-157 | `findByIdAndUpdate` assigns the schema paths the update names through their setters, drops the unknown key, and leaves the product as it was when no schema path is named |
| ProductRoutes.WithUploads | routes/product.js:145-153 | with files, the list already under the key plus the new URLs in upload order is written under that key; without files the body is unchanged |
| ProductRoutes.UpdateWith | routes/product.js:138-178 | uploads happen first in every case; an unknown id is 404 with the products untouched; otherwise only that product changes |
| ProductRoutes.UpdateProductAsWritten | routes/product.js:138-178 | as written, the stored image list is whatever the body's `imageUrls` says, whatever was uploaded |
| ProductRoutes.UpdateProduct | routes/product.js:138-178 | with the schema's key, the stored list is the body's list followed by the new URLs in upload order |
| ProductRoutes.DeleteImages | routes/product.js:193-205 | every object a URL names is deleted, and failures are skipped |
| ProductRoutes.DeleteProduct | routes/product.js:180-221 | an unknown id is 404 before any image is touched; otherwise the product is removed in every case, along with the objects its URLs name |
| ProductRoutes.ZeroPriceIsMissing | routes/product.js:33-45 | in a JSON body, a price of 0 is reported as "Price is required", not as too low |
| ProductRoutes.UpdateAsWrittenLosesUploads | routes/product.js:145-157 | as written, the uploaded objects land in the bucket but not in the product's image list |
| ProductRoutes.UpdateRecordsUploads | routes/product.js:145-157 | with the schema's key, every uploaded file's public URL is recorded after the body's list, in upload order |
| ProductRoutes.DeleteRemovesImages | routes/product.js:193-208 | deleting a product leaves none of the objects its URLs name |
| ProductRoutes.AddThenDeleteCleansBucket | routes/product.js:65-208 | a product added with images and then deleted leaves none of its uploaded objects, when the bucket name has no "/" and every file name is `UrlSafe`: no "/", backslash or `%`, and no trailing whitespace |
| Storage.Window | utils/firebase.utils.js:44 | `splice(4, 5)` keeps the segments from index 4 on, at most five of them |
| Storage.UploadFile | utils/firebase.utils.js:4-30 | the object is written under `directory/timestamp-originalname`, and the reply is the public URL of that object in the bucket |
| Storage.UploadAll | routes/product.js:68-74 | one URL per file in upload order, each naming the object written for that file |
| Storage.DeleteByUrl | utils/firebase.utils.js:40-61 | the deletion throws "Error deleting file from Firebase" exactly when the extracted path is empty or names no object; otherwise exactly that object is removed |
| Storage.UrlSegments | utils/firebase.utils.js:25-27 | a public URL splits into the scheme, an empty segment, the host, the bucket and the object name's segments |
| Storage.ExtractPublicUrl | utils/firebase.utils.js:44 | for a bucket without "/", extraction inverts URL construction for object names of at most five segments |
| Storage.ExtractTruncates | utils/firebase.utils.js:44 | longer object names are cut to their first five segments, so they are not recovered |
| Storage.ShortUrlCannotBeDeleted | utils/firebase.utils.js:44-48 | a URL of at most four segments yields the empty path and cannot be deleted |
| Storage.ObjectNameSegments | utils/firebase.utils.js:6 | a default-directory object name is two segments: "products" and `timestamp-originalname` |
| Storage.UploadedImageIsDeletable | utils/firebase.utils.js:4-61 | deleting an uploaded image by its own URL removes exactly the object the upload created, for a `UrlSafe` file name |

## Left out

- The middlewares (`auth`, `adminAuth`, `vendorAuth`) are not part of this
  model. Each route takes the authenticated document's position, or its
  `userType`, as a parameter. `auth` looks tokens up in the user collection
  only. Documents of the separate admin collection therefore never pass it,
  so admins registered through the admin router cannot reach the coupon or
  zone routes.
- `cartModel` and `couponModel` are not part of this model. Cart and coupon
  documents are records with the fields the routes use. Their saves are
  assumed to succeed.
- Apart from the validation and unique-index refusals the model states,
  saves are assumed to succeed. Database failures behind the routes' 500
  branches are not modelled.
- The `multer` upload middleware is not part of this model. A file is its
  original name and the upload's clock reading. Uploads are assumed to
  succeed.
- ObjectId casting is not modelled. An id that is not a valid ObjectId would
  make Mongoose throw; ids here are strings, and a bad one is simply absent.
- `url.format` and `decodeURIComponent` are not modelled character by
  character. The legacy `url.format(string)` parses its argument first, and
  that parse differs from the identity in these ways:
  - It percent-escapes a space, `"`, `'`, `<`, `>`, a backtick, `{`, `}`,
    `|`, `^`, tab, LF and CR. `decodeURIComponent` in the delete helper
    decodes them back, so the path it deletes is still the object's name.
  - It turns a backslash into `/`. A file name with a backslash therefore
    gets an extra segment, and its deletion fails.
  - It trims whitespace at the ends. A file name ending in whitespace is
    therefore recorded without it, and its deletion fails.
  - A `%` in a file name is read as an escape by `decodeURIComponent`, so
    the deletion targets another name or throws.

  The round-trip lemmas therefore require `Storage.UrlSafe` file names,
  which exclude the last three cases.
- Storage.UploadFile: the URL it states is the string passed to
  `url.format`, before the percent-escaping above. For a name with a space,
  the source records `%20` where the model records the space.
- Strings are sequences of characters, and a length counts characters, not
  UTF-16 code units. `trim` removes ECMAScript's whitespace set; every
  character in it is a single UTF-16 unit, so this matches the source.
- Text.Lower: lower-cases the ASCII letters A-Z only. `toLowerCase` also maps
  the other Unicode upper-case letters, which would need the Unicode case
  tables.
- The String `min`/`max` options of the vendor and admin schemas are not
  validators for strings in Mongoose. They are not modelled as bounds.
- The `Promise.all` over image deletions is modelled as a sequential pass. The
  image list may name an object twice, since an update can write any list.
  The second deletion of an object then throws and is caught, as the
  sequential pass skips it, so the order does not change the result.
- `populate` on the cart read is not modelled.
- Concurrent requests and races on the unique indexes are not modelled. Each
  handler is one sequential step.
- When a document breaks both unique indexes, the model assumes the email
  index reports first.
- The list routes (`GET /all-coupons`, `GET /zones/all`, `GET /all-products`,
  `GET /get-categories`) are not modelled. They return a whole collection.
- `routes/productsfb.js` is not part of this model. It is not mounted and
  exports nothing.
- `utils/emailNotification.js`, `models/baseUserModel.js`, `index.js`,
  `db.js` and `config/firebase.config.js` are not part of this model. They are
  mail templating, an unused schema, and wiring.
- No checkout, pricing or stock code exists, so none is modelled.
- OrderModel.Create: states the items only by their number. `OrderModel.CastItems`
  states their content.
- ProductRoutes.Apply: states the name, price, quantity and image list. The
  other paths follow the same pattern and are not stated one by one.
- Numbers are integers. Prices, quantities and percentages are not floats,
  and JavaScript's coercion of numeric strings is not modelled.
- ProductRoutes.ZeroPriceIsMissing: holds for a JSON body only. The add
  route sits behind `upload.array`, so an add that carries images is a
  multipart body whose fields are all strings. There `"0"` is truthy, and
  the source answers "Price must be greater than 0". The same applies to a
  quantity of `"0"`.
- ProductRoutes.CheckProduct: takes the body's numbers as JSON numbers. For
  a multipart body, a `"0"` price or quantity reaches the "must be greater
  than 0" messages instead of the "is required" ones.

## Findings

| source | as written | input that shows it | evidently intended | confidence | as-written member | corrected member |
|---|---|---|---|---|---|---|
| routes/user.js:2 | imports `GeneralUser` from the user model, which exports `User`, `Admin`, `Vendor` and `RegularUser`. Every lookup throws, and the catch block then reads `error.errorResponse` of a TypeError and throws again. | any eligible registration, e.g. `RegisterExample`'s body on an empty collection; any login with an email and a password | the general-user discriminator (`RegularUser`) | high; not executed | UserRoutes.RegisterAsWritten, UserRoutes.LoginAsWritten | UserRoutes.Register, UserRoutes.Login |
| routes/category.js:20 | `findOne` is not awaited, so the existence test holds a query object, which is always truthy | `{ category: "tablets" }` on an empty collection | `await Category.findOne({ category })` | high; not executed | CategoryRoutes.AddCategoryAsWritten | CategoryRoutes.AddCategory |
| routes/product.js:152 | the merged image list is written under `imagesUrl`. The schema path is `imageUrls`, and the strict schema drops the unknown key, so the uploads are never recorded. | a `PUT /:id` with one file and no `imageUrls` in the body | write the list under `imageUrls` | high; not executed | ProductRoutes.UpdateProductAsWritten | ProductRoutes.UpdateProduct |

=== FILE: accounts.dfy ===
/** The request checks the user, vendor and admin routers share: the bodies
    their register and login routes read, and each check with its message.
    A router strings these together in its own order; every failure answers
    status 400. */
module Accounts {
  import opened Wrappers
  import opened Credentials
  import opened Addresses

  const EmailRequired: string := "Email is required"
  const InvalidEmailAddress: string := "Invalid email address"
  const PasswordRequired: string := "Password is required"
  const EmailExists: string := "Email already exists"
  const PhoneExists: string := "Phone number already exists"

  /** The reply of a save that fails validation: the route answers 500 with
      the error object, or, where its catch block dereferences a field only a
      duplicate-key error has, throws again and answers nothing. */
  const ValidationFailed: string := "ValidationError"

  /** What a register or login route hands back: the collection after the
      request and the token it replies with (`undefined` when signing failed). */
  datatype Signed<S> = Signed(store: S, token: Option<string>)

  /** A registration body. Only the vendor route reads `businessName` and
      `address`. */
  datatype Applicant = Applicant(
    firstName: Option<string>,
    lastName: Option<string>,
    email: Option<string>,
    phoneNumber: Option<string>,
    password: Option<string>,
    businessName: Option<string>,
    address: Option<AddressInput>)

  /** A login body. */
  datatype SignIn = SignIn(email: Option<string>, password: Option<string>)

  /** A name the register routes accept: present and at least three characters. */
  predicate NameAcceptable(name: Option<string>) {
    Given(name) && |name.value| >= 3
  }

  /** Both names acceptable: what `CheckNames` passes. */
  predicate NamesAcceptable(body: Applicant) {
    NameAcceptable(body.firstName) && NameAcceptable(body.lastName)
  }

  /** First name, then last name: presence before length for each. */
  function CheckNames(firstName: Option<string>, lastName: Option<string>): (r: Outcome)
    ensures r.Pass? <==> NameAcceptable(firstName) && NameAcceptable(lastName)
    ensures r.Fail? ==> r.status == 400
    ensures !Given(firstName) ==> r == Fail(400, "First name is required")
    ensures Given(firstName) && !NameAcceptable(firstName)
            ==> r == Fail(400, "First name must be at least 3 characters")
    // the last name is only reported for an acceptable first name
    ensures NameAcceptable(firstName) && !Given(lastName) ==> r == Fail(400, "Last name is required")
    ensures NameAcceptable(firstName) && Given(lastName) && !NameAcceptable(lastName)
            ==> r == Fail(400, "Last name must be at least 3 characters")
  {
    if !Given(firstName) then Fail(400, "First name is required")
    else if |firstName.value| < 3 then Fail(400, "First name must be at least 3 characters")
    else if !Given(lastName) then Fail(400, "Last name is required")
    else if |lastName.value| < 3 then Fail(400, "Last name must be at least 3 characters")
    else Pass
  }

  /** A phone number the register routes accept: present and ten characters. */
  predicate PhoneAcceptable(phoneNumber: Option<string>) {
    Given(phoneNumber) && |phoneNumber.value| == 10
  }

  function CheckPhone(phoneNumber: Option<string>): (r: Outcome)
    ensures r.Pass? <==> PhoneAcceptable(phoneNumber)
    ensures r.Fail? ==> r.status == 400
    ensures !Given(phoneNumber) <==> r == Fail(400, "Phone number is required")
    ensures r == Fail(400, "Invalid phone number") <==> Given(phoneNumber) && |phoneNumber.value| != 10
  {
    if !Given(phoneNumber) then Fail(400, "Phone number is required")
    else if |phoneNumber.value| != 10 then Fail(400, "Invalid phone number")
    else Pass
  }

  function CheckEmailGiven(email: Option<string>): (r: Outcome)
    ensures r.Pass? <==> Given(email)
    ensures r.Fail? ==> r == Fail(400, EmailRequired)
  {
    if Given(email) then Pass else Fail(400, EmailRequired)
  }

  /** The `isEmail` test of the validator package, a parameter here. */
  function CheckEmailFormat(email: string, isEmail: string -> bool): (r: Outcome)
    ensures r.Pass? <==> isEmail(email)
    ensures r.Fail? ==> r == Fail(400, InvalidEmailAddress)
  {
    if isEmail(email) then Pass else Fail(400, InvalidEmailAddress)
  }

  /** A password the register routes accept: present and 6..18 characters. */
  predicate PasswordAcceptable(password: Option<string>) {
    Given(password) && LengthAllowed(password.value)
  }

  function CheckPassword(password: Option<string>): (r: Outcome)
    ensures r.Pass? <==> PasswordAcceptable(password)
    ensures r.Fail? ==> r.status == 400
    ensures !Given(password) <==> r == Fail(400, PasswordRequired)
    ensures r == Fail(400, LengthMessage) <==> Given(password) && !LengthAllowed(password.value)
  {
    if !Given(password) then Fail(400, PasswordRequired)
    else if !LengthAllowed(password.value) then Fail(400, LengthMessage)
    else Pass
  }

  /** The login routes' presence checks: email before password. */
  function CheckSignIn(body: SignIn): (r: Outcome)
    ensures r.Pass? <==> Given(body.email) && Given(body.password)
    ensures !Given(body.email) ==> r == Fail(400, EmailRequired)
    ensures Given(body.email) && !Given(body.password) ==> r == Fail(400, PasswordRequired)
  {
    CheckEmailGiven(body.email).Then(if Given(body.password) then Pass else Fail(400, PasswordRequired))
  }
}

=== FILE: addresses.dfy ===
/** The address sub-document, declared identically in the user and vendor
    schemas: every path is required and lower-cased, and the country
    defaults to "india". */
module Addresses {
  import opened Wrappers
  import opened Text

  const DefaultCountry: string := "india"

  datatype Address = Address(
    addressLine: string,
    zone: string,
    district: string,
    city: string,
    state: string,
    country: string,
    pincode: int)

  /** An address object as it arrives in a request body. */
  datatype AddressInput = AddressInput(
    addressLine: Option<string>,
    zone: Option<string>,
    district: Option<string>,
    city: Option<string>,
    state: Option<string>,
    country: Option<string>,
    pincode: Option<int>)

  /** The vendor registration route's completeness test: addressLine,
      district, city, state, pincode and zone all truthy. */
  predicate Complete(a: AddressInput) {
    Given(a.addressLine) && Given(a.district) && Given(a.city) && Given(a.state)
    && GivenNum(a.pincode) && Given(a.zone)
  }

  /** The schema's own requirement: every string path present and non-empty
      (the country may be absent and is then defaulted) and a pincode present,
      zero included. */
  predicate Storable(a: AddressInput) {
    Given(a.addressLine) && Given(a.zone) && Given(a.district) && Given(a.city) && Given(a.state)
    && (a.country.None? || Given(a.country)) && a.pincode.Some?
  }

  /** A stored address: every string path non-empty and lower case. */
  predicate Normalised(a: Address) {
    && a.addressLine != "" && IsLower(a.addressLine)
    && a.zone != "" && IsLower(a.zone)
    && a.district != "" && IsLower(a.district)
    && a.city != "" && IsLower(a.city)
    && a.state != "" && IsLower(a.state)
    && a.country != "" && IsLower(a.country)
  }

  /** Casting a body object into the sub-document and validating it: None
      when validation fails, otherwise the lower-cased address with the
      country defaulted. */
  function Cast(a: AddressInput): (r: Option<Address>)
    ensures r.Some? <==> Storable(a)
    ensures r.Some? ==> Normalised(r.value)
    ensures r.Some? ==> r.value.zone == Lower(a.zone.value) && r.value.pincode == a.pincode.value
    ensures r.Some? ==> r.value.addressLine == Lower(a.addressLine.value) && r.value.district == Lower(a.district.value)
                        && r.value.city == Lower(a.city.value) && r.value.state == Lower(a.state.value)
    ensures r.Some? && a.country.Some? ==> r.value.country == Lower(a.country.value)
    ensures r.Some? && a.country.None? ==> r.value.country == DefaultCountry
  {
    if !Storable(a) then None
    else
      LowerIdempotent(a.addressLine.value);
      LowerIdempotent(a.zone.value);
      LowerIdempotent(a.district.value);
      LowerIdempotent(a.city.value);
      LowerIdempotent(a.state.value);
      LowerIdempotent(a.country.GetOr(DefaultCountry));
      Some(Address(
        Lower(a.addressLine.value),
        Lower(a.zone.value),
        Lower(a.district.value),
        Lower(a.city.value),
        Lower(a.state.value),
        Lower(a.country.GetOr(DefaultCountry)),
        a.pincode.value))
  }

  /** The route's completeness test implies the schema accepts the address,
      unless the body sends an empty country. */
  lemma CompleteIsStorable(a: AddressInput)
    requires Complete(a)
    requires a.country != Some("")
    ensures Cast(a).Some?
  {
  }

  /** The converse fails: the schema stores a zero pincode that the route's
      completeness test rejects. */
  lemma StorableButIncomplete()
    ensures var a := AddressInput(Some("12 main road"), Some("north"), Some("d"), Some("c"), Some("s"), None, Some(0));
            Cast(a).Some? && !Complete(a)
  {
  }
}

=== FILE: admin_model.dfy ===
/** The admin collection: the vendor schema without business name and
    address. Names are trimmed, the email is trimmed and lower-cased, the
    phone number trimmed; email and phone number carry unique indexes and
    `userType` defaults to "admin". */
module AdminModel {
  import opened Wrappers
  import opened Text
  import opened Sessions
  import opened Credentials

  const DefaultUserType: string := "admin"

  datatype Admin = Admin(
    firstName: string,
    lastName: string,
    email: string,
    phoneNumber: string,
    userType: string,
    password: Credential,
    tokens: seq<string>)

  /** Every path holds what its setters produce. */
  predicate Normalised(a: Admin) {
    && Trim(a.firstName) == a.firstName
    && Trim(a.lastName) == a.lastName
    && Canonical(a.email)
    && Trim(a.phoneNumber) == a.phoneNumber
  }

  /** The `required` validators of the text paths. The password's is left
      to the routes, which refuse a blank password before assigning one. */
  predicate Valid(a: Admin) {
    a.firstName != "" && a.lastName != "" && a.email != "" && a.phoneNumber != ""
  }

  /** The two unique indexes of the collection. */
  predicate UniqueContacts(admins: seq<Admin>) {
    forall i, j :: 0 <= i < j < |admins| ==>
      admins[i].email != admins[j].email && admins[i].phoneNumber != admins[j].phoneNumber
  }

  /** A document a save accepted: valid and normalised. */
  predicate Sound(a: Admin) {
    Valid(a) && Normalised(a)
  }

  /** What every stored admin satisfies. */
  predicate Stored(admins: seq<Admin>) {
    UniqueContacts(admins) && forall i {:trigger Sound(admins[i])} :: 0 <= i < |admins| ==> Sound(admins[i])
  }

  /** `new Admin({...})`: the setters run, `userType` is defaulted, there are
      no tokens yet and the password is still to be hashed. */
  function New(firstName: string, lastName: string, email: string, phoneNumber: string,
               password: string): (a: Admin)
    ensures Normalised(a)
    ensures a.userType == DefaultUserType && a.tokens == [] && a.password == Assign(password)
    ensures a.email == TrimLower(email) && a.phoneNumber == Trim(phoneNumber)
    ensures a.firstName == Trim(firstName) && a.lastName == Trim(lastName)
    ensures Valid(a) <==> !AllSpace(firstName) && !AllSpace(lastName)
                          && !AllSpace(email) && !AllSpace(phoneNumber)
  {
    var first, last, mail, phone := Trim(firstName), Trim(lastName), TrimLower(email), Trim(phoneNumber);
    TrimIdempotent(firstName);
    TrimIdempotent(lastName);
    TrimIdempotent(phoneNumber);
    assert first == "" <==> AllSpace(firstName);
    assert last == "" <==> AllSpace(lastName);
    assert mail == "" <==> AllSpace(email);
    assert phone == "" <==> AllSpace(phoneNumber);
    Admin(first, last, mail, phone, DefaultUserType, Assign(password), [])
  }

  /** Saving runs the password hook. */
  function Save(a: Admin, hash: string -> string): Admin
  {
    a.(password := OnSave(a.password, hash))
  }

  /** `generateAuthToken`: the signed token is appended and the document
      saved; when signing or saving throws, nothing is stored and `undefined`
      returned. */
  function GenerateAuthToken(a: Admin, signed: Option<string>, hash: string -> string): (r: (Admin, Option<string>))
    ensures r.0 == a.(tokens := r.0.tokens, password := r.0.password)
    ensures signed.None? || !Valid(a) ==> r == (a, None)
    ensures signed.Some? && Valid(a) ==>
              r.1 == signed && Authenticates(r.0.tokens, signed.value)
              && r.0 == a.(tokens := a.tokens + [signed.value], password := OnSave(a.password, hash))
  {
    var (tokens, token) := Issue(a.tokens, signed);
    if token.None? || !Valid(a) then (a, None)
    else (Save(a.(tokens := tokens), hash), token)
  }

  /** Validity and normal form do not depend on the password or the tokens. */
  lemma SoundIgnoresCredentials(a: Admin, b: Admin)
    requires Sound(a) && b == a.(tokens := b.tokens, password := b.password)
    ensures Sound(b)
  {
  }

  /** `Admin.findOne({ email })`. */
  function FindByEmail(admins: seq<Admin>, email: string): (r: Option<nat>)
    ensures r.Some? ==> r.value < |admins| && admins[r.value].email == email
    ensures r.None? <==> forall k :: 0 <= k < |admins| ==> admins[k].email != email
  {
    FindFirst(admins, (a: Admin) => a.email == email)
  }

  /** Replacing one document by a sound one that keeps its email and takes
      a phone number no other document holds keeps the collection stored. */
  lemma ReplaceKeepsStored(admins: seq<Admin>, me: nat, s: seq<Admin>)
    requires me < |admins| == |s| && Stored(admins) && Sound(s[me])
    requires s[me].email == admins[me].email
    requires forall j :: 0 <= j < |admins| && j != me ==> s[j] == admins[j]
    requires forall j :: 0 <= j < |admins| && j != me ==> admins[j].phoneNumber != s[me].phoneNumber
    ensures Stored(s)
  {
    forall i | 0 <= i < |s|
      ensures Sound(s[i])
    {
      if i != me {
        assert s[i] == admins[i] && Sound(admins[i]);
      }
    }
    forall i, j | 0 <= i < j < |s|
      ensures s[i].email != s[j].email && s[i].phoneNumber != s[j].phoneNumber
    {
      if i != me && j != me {
        assert s[i] == admins[i] && s[j] == admins[j];
      } else if i == me {
        assert s[j] == admins[j];
      } else {
        assert s[i] == admins[i];
      }
    }
  }

}

=== FILE: admin_routes.dfy ===
/** The admin router: register, login, profile update, password change and
    logout. The three last routes run behind the admin authentication
    middleware, which hands the handler the authenticated admin: here the
    position `me` in the collection and the token it presented. */
module AdminRoutes {
  import opened Wrappers
  import opened Text
  import opened Sessions
  import opened Credentials
  import opened Profiles
  import opened Accounts
  import opened AdminModel
  import VendorModel
  import opened Directory

  const InvalidEmail: string := "Invalid email"
  const InvalidPassword: string := "Invalid password"

  /** The keys an admin may send to the profile route. */
  const ProfileKeys: set<string> := {"firstName", "lastName", "phoneNumber"}

  /** What the register route's body checks accept, independent of order. */
  predicate Eligible(body: Applicant, isEmail: string -> bool) {
    && NameAcceptable(body.firstName)
    && NameAcceptable(body.lastName)
    && Given(body.email)
    && PhoneAcceptable(body.phoneNumber)
    && isEmail(body.email.value)
  }

  /** The register route's body checks in order: names, email present, phone
      number, email format. */
  function CheckRegistration(body: Applicant, isEmail: string -> bool): (r: Outcome)
    ensures r.Pass? <==> Eligible(body, isEmail)
    ensures r.Fail? ==> r.status == 400
    ensures !NamesAcceptable(body) ==> r == CheckNames(body.firstName, body.lastName)
    ensures NamesAcceptable(body) && !Given(body.email) ==> r == Fail(400, EmailRequired)
    ensures NamesAcceptable(body) && Given(body.email) && !PhoneAcceptable(body.phoneNumber)
            ==> r == CheckPhone(body.phoneNumber)
    // the phone number is checked before the email's format
    ensures NamesAcceptable(body) && Given(body.email) && PhoneAcceptable(body.phoneNumber)
            && !isEmail(body.email.value)
            ==> r == Fail(400, InvalidEmailAddress)
    ensures r == Fail(400, InvalidEmailAddress) ==> PhoneAcceptable(body.phoneNumber)
  {
    CheckNames(body.firstName, body.lastName)
      .Then(CheckEmailGiven(body.email))
      .Then(CheckPhone(body.phoneNumber))
      .Then(CheckEmailFormat(TextOf(body.email), isEmail))
  }

  /** `POST /register`. After the body checks both collections are searched
      for the email, then for the phone number, and only then is the password
      checked. */
  function Register(admins: seq<Admin>, vendors: seq<VendorModel.Vendor>, body: Applicant,
                    isEmail: string -> bool, signed: Option<string>, hash: string -> string)
    : (r: Result<Signed<seq<Admin>>>)
    ensures r.Ok? <==>
              && Eligible(body, isEmail)
              && !EmailTaken(admins, vendors, TrimLower(body.email.value))
              && !PhoneTaken(admins, vendors, Trim(body.phoneNumber.value))
              && PasswordAcceptable(body.password)
              && !AllSpace(body.firstName.value) && !AllSpace(body.lastName.value)
              && !AllSpace(body.email.value) && !AllSpace(body.phoneNumber.value)
    ensures r.Ok? ==> Eligible(body, isEmail) && PasswordAcceptable(body.password)
    ensures r.Ok? ==> !EmailTaken(admins, vendors, TrimLower(body.email.value))
                      && !PhoneTaken(admins, vendors, Trim(body.phoneNumber.value))
    ensures r.Ok? ==> |r.value.store| == |admins| + 1 && r.value.store[..|admins|] == admins
    ensures r.Ok? ==>
              var a := r.value.store[|admins|];
              && a.firstName == Trim(body.firstName.value) && a.lastName == Trim(body.lastName.value)
              && a.email == TrimLower(body.email.value)
              && a.phoneNumber == Trim(body.phoneNumber.value)
              && a.userType == DefaultUserType
              && a.password == Credential(hash(body.password.value), false)
              && a.tokens == (if signed.Some? then [signed.value] else [])
              && r.value.token == signed
              && Sound(a)
    ensures Eligible(body, isEmail) && EmailTaken(admins, vendors, TrimLower(body.email.value))
            ==> r == Err(400, EmailExists)
    ensures Eligible(body, isEmail) && !EmailTaken(admins, vendors, TrimLower(body.email.value))
            && PhoneTaken(admins, vendors, Trim(body.phoneNumber.value))
            ==> r == Err(400, PhoneExists)
    ensures CheckRegistration(body, isEmail).Fail? ==> r == Err(400, CheckRegistration(body, isEmail).message)
    // the password is looked at only for contacts that are free
    ensures Eligible(body, isEmail)
            && !EmailTaken(admins, vendors, TrimLower(body.email.value))
            && !PhoneTaken(admins, vendors, Trim(body.phoneNumber.value))
            && !PasswordAcceptable(body.password)
            ==> r == Err(400, CheckPassword(body.password).message)
    ensures r == Err(400, PasswordRequired) || r == Err(400, LengthMessage)
            ==> Eligible(body, isEmail)
                && !EmailTaken(admins, vendors, TrimLower(body.email.value))
                && !PhoneTaken(admins, vendors, Trim(body.phoneNumber.value))
    ensures r.Err? ==> r.status == 400 || r == Err(500, ValidationFailed)
  {
    match CheckRegistration(body, isEmail)
    case Fail(s, m) => Err(s, m)
    case Pass =>
      var email, phone := TrimLower(body.email.value), Trim(body.phoneNumber.value);
      if EmailTaken(admins, vendors, email) then Err(400, EmailExists)
      else if PhoneTaken(admins, vendors, phone) then Err(400, PhoneExists)
      else match CheckPassword(body.password)
        case Fail(s, m) => Err(s, m)
        case Pass => Enrol(admins, body, signed, hash)
  }

  /** Registration once every check passed: the document is created, a token
      generated (which saves it) and the document saved again; a name that
      is blank after trimming fails validation and answers 500. */
  function Enrol(admins: seq<Admin>, body: Applicant, signed: Option<string>, hash: string -> string)
    : (r: Result<Signed<seq<Admin>>>)
    requires body.firstName.Some? && body.lastName.Some? && body.email.Some?
    requires body.phoneNumber.Some? && body.password.Some?
    ensures r.Ok? <==> !AllSpace(body.firstName.value) && !AllSpace(body.lastName.value)
                       && !AllSpace(body.email.value) && !AllSpace(body.phoneNumber.value)
    ensures r.Err? ==> r == Err(500, ValidationFailed)
    ensures r.Ok? ==> |r.value.store| == |admins| + 1 && r.value.store[..|admins|] == admins
    ensures r.Ok? ==>
              var a := r.value.store[|admins|];
              && a.firstName == Trim(body.firstName.value) && a.lastName == Trim(body.lastName.value)
              && a.email == TrimLower(body.email.value)
              && a.phoneNumber == Trim(body.phoneNumber.value)
              && a.userType == DefaultUserType
              && a.password == Credential(hash(body.password.value), false)
              && a.tokens == (if signed.Some? then [signed.value] else [])
              && r.value.token == signed
              && Sound(a)
  {
    var doc := New(body.firstName.value, body.lastName.value, body.email.value,
                   body.phoneNumber.value, body.password.value);
    if !Valid(doc) then Err(500, ValidationFailed)
    else
      var (withToken, token) := GenerateAuthToken(doc, signed, hash);
      var a := Save(withToken, hash);
      SoundIgnoresCredentials(doc, a);
      Ok(Signed(admins + [a], token))
  }

  /** A registration keeps the contacts of both collections unique. */
  lemma RegisterKeepsContactsUnique(admins: seq<Admin>, vendors: seq<VendorModel.Vendor>, body: Applicant,
                                    isEmail: string -> bool, signed: Option<string>, hash: string -> string)
    requires ContactsUnique(admins, vendors)
    ensures var r := Register(admins, vendors, body, isEmail, signed, hash);
            r.Ok? ==> ContactsUnique(r.value.store, vendors)
  {
    var r := Register(admins, vendors, body, isEmail, signed, hash);
    if r.Ok? {
      var a := r.value.store[|admins|];
      assert r.value.store == admins + [a];
      AddAdmin(admins, vendors, a);
    }
  }

  /** `POST /login`: presence checks, lookup by the normalised email, password
      comparison, then a token. */
  function Login(admins: seq<Admin>, body: SignIn, verify: (string, string) -> bool,
                 signed: Option<string>, hash: string -> string): (r: Result<Signed<seq<Admin>>>)
    ensures CheckSignIn(body).Fail? ==> r == Err(400, CheckSignIn(body).message)
    ensures Given(body.email) && Given(body.password) && FindByEmail(admins, TrimLower(body.email.value)).None?
            ==> r == Err(400, InvalidEmail)
    ensures Given(body.email) && Given(body.password)
            ==> var found := FindByEmail(admins, TrimLower(body.email.value));
                found.Some? && !verify(body.password.value, admins[found.value].password.value)
                ==> r == Err(400, InvalidPassword)
    ensures r.Ok? <==> Given(body.email) && Given(body.password)
                       && var found := FindByEmail(admins, TrimLower(body.email.value));
                          found.Some? && verify(body.password.value, admins[found.value].password.value)
    ensures r.Ok? ==> Given(body.email) && Given(body.password) && |r.value.store| == |admins|
    ensures r.Ok? ==>
              var found := FindByEmail(admins, TrimLower(body.email.value));
              && found.Some?
              && verify(body.password.value, admins[found.value].password.value)
              && (forall k :: 0 <= k < |admins| && k != found.value ==> r.value.store[k] == admins[k])
              && (signed.Some? && Valid(admins[found.value]) ==>
                    r.value.token == signed
                    && r.value.store[found.value].tokens == admins[found.value].tokens + [signed.value]
                    && r.value.store[found.value]
                       == admins[found.value].(tokens := admins[found.value].tokens + [signed.value],
                                           password := OnSave(admins[found.value].password, hash)))
              // a failed sign or save is swallowed: 200 with no token, nothing stored
              && (signed.None? ==> r.value == Signed(admins, None))
              && (!Valid(admins[found.value]) ==> r.value == Signed(admins, None))
    ensures r.Err? ==> r.status == 400
  {
    match CheckSignIn(body)
    case Fail(s, m) => Err(s, m)
    case Pass =>
      match FindByEmail(admins, TrimLower(body.email.value))
      case None => Err(400, InvalidEmail)
      case Some(i) =>
        if !verify(body.password.value, admins[i].password.value) then Err(400, InvalidPassword)
        else
          Ok(SignInAs(admins, i, signed, hash))
  }

  /** The found admin's part of a login: a token generated and saved for
      that admin alone, or nothing stored when signing or the save fails. */
  function SignInAs(admins: seq<Admin>, i: nat, signed: Option<string>, hash: string -> string)
    : (r: Signed<seq<Admin>>)
    requires i < |admins|
    ensures |r.store| == |admins|
    ensures forall k :: 0 <= k < |admins| && k != i ==> r.store[k] == admins[k]
    ensures signed.Some? && Valid(admins[i]) ==>
              r.token == signed
              && r.store[i] == admins[i].(tokens := admins[i].tokens + [signed.value],
                                          password := OnSave(admins[i].password, hash))
    ensures signed.None? || !Valid(admins[i]) ==> r == Signed(admins, None)
  {
    var (doc, token) := GenerateAuthToken(admins[i], signed, hash);
    if signed.None? || !Valid(admins[i]) then
      assert doc == admins[i];
      Signed(admins, None)
    else
      Signed(admins[i := doc], token)
  }

  /** The profile fields after an update: each whitelisted key present in
      the body is assigned through its setter, every other field is kept. */
  predicate Applied(before: Admin, after: Admin, body: ProfileBody) {
    && after.firstName == (if "firstName" in body.keys then Trim(body.firstName) else before.firstName)
    && after.lastName == (if "lastName" in body.keys then Trim(body.lastName) else before.lastName)
    && after.phoneNumber == (if "phoneNumber" in body.keys then Trim(body.phoneNumber) else before.phoneNumber)
    && after.email == before.email && after.userType == before.userType
    && after.password == before.password && after.tokens == before.tokens
  }

  /** The document after the body's keys are assigned. */
  function Assigned(a: Admin, body: ProfileBody): (d: Admin)
    ensures Applied(a, d, body)
  {
    a.(
      firstName := Pick(body, "firstName", Trim(body.firstName), a.firstName),
      lastName := Pick(body, "lastName", Trim(body.lastName), a.lastName),
      phoneNumber := Pick(body, "phoneNumber", Trim(body.phoneNumber), a.phoneNumber))
  }

  /** `PUT /update-profile`. A key outside the whitelist answers "Invalid
      updates" with status 200 and changes nothing. A phone number another
      admin holds fails the unique index and answers 400. A document that
      fails validation makes the catch block read a field only duplicate-key
      errors have, so the route throws and answers nothing. */
  function UpdateProfile(admins: seq<Admin>, me: nat, body: ProfileBody): (r: Result<seq<Admin>>)
    requires me < |admins|
    ensures !(body.keys <= ProfileKeys) ==> r == Err(200, InvalidUpdates)
    ensures r.Ok? <==> body.keys <= ProfileKeys && Valid(Assigned(admins[me], body))
                       && forall j :: 0 <= j < |admins| && j != me
                            ==> admins[j].phoneNumber != Assigned(admins[me], body).phoneNumber
    ensures r == Err(NoResponse, ValidationFailed) <==> body.keys <= ProfileKeys && !Valid(Assigned(admins[me], body))
    ensures r == Err(400, PhoneExists) <==>
              body.keys <= ProfileKeys && Valid(Assigned(admins[me], body))
              && exists j :: 0 <= j < |admins| && j != me && admins[j].phoneNumber == Assigned(admins[me], body).phoneNumber
    ensures r.Ok? ==> |r.value| == |admins| && body.keys <= ProfileKeys && Valid(r.value[me])
    ensures r.Ok? ==> Applied(admins[me], r.value[me], body)
    ensures r.Ok? ==> forall j :: 0 <= j < |admins| && j != me ==> r.value[j] == admins[j]
    ensures r.Ok? ==> forall j :: 0 <= j < |admins| && j != me ==> admins[j].phoneNumber != r.value[me].phoneNumber
    ensures r.Err? && r.status == 400
            ==> r.message == PhoneExists
                && exists j :: 0 <= j < |admins| && j != me
                     && admins[j].phoneNumber == Pick(body, "phoneNumber", Trim(body.phoneNumber), admins[me].phoneNumber)
    ensures r.Err? ==> r.status in {200, 400, NoResponse}
  {
    match CheckKeys(body, ProfileKeys)
    case Fail(s, m) => Err(s, m)
    case Pass =>
      var doc := Assigned(admins[me], body);
      if !Valid(doc) then Err(NoResponse, ValidationFailed)
      else if exists j :: 0 <= j < |admins| && j != me && admins[j].phoneNumber == doc.phoneNumber then
        Err(400, PhoneExists)
      else Ok(admins[me := doc])
  }

  /** In a collection with unique contacts no other admin has `me`'s phone number. */
  lemma PhoneHeldOnce(admins: seq<Admin>, me: nat)
    requires me < |admins| && UniqueContacts(admins)
    ensures forall j :: 0 <= j < |admins| && j != me ==> admins[j].phoneNumber != admins[me].phoneNumber
  {
    forall j | 0 <= j < |admins| && j != me
      ensures admins[j].phoneNumber != admins[me].phoneNumber
    {
      if j < me {
        assert admins[j].phoneNumber != admins[me].phoneNumber;
      } else {
        assert admins[me].phoneNumber != admins[j].phoneNumber;
      }
    }
  }

  /** A profile update keeps every admin valid and normalised and the admin
      collection's contacts unique. */
  lemma UpdateProfileKeepsStored(admins: seq<Admin>, me: nat, body: ProfileBody)
    requires me < |admins| && Stored(admins)
    ensures var r := UpdateProfile(admins, me, body);
            r.Ok? ==> Stored(r.value)
  {
    var r := UpdateProfile(admins, me, body);
    if r.Ok? {
      var d := r.value[me];
      assert Sound(admins[me]);
      TrimIdempotent(body.firstName);
      TrimIdempotent(body.lastName);
      TrimIdempotent(body.phoneNumber);
      assert Sound(d);
      ReplaceKeepsStored(admins, me, r.value);
    }
  }


  /** A body with no keys saves the admin as it is. */
  lemma EmptyUpdateChangesNothing(admins: seq<Admin>, me: nat, body: ProfileBody)
    requires me < |admins| && UniqueContacts(admins) && Valid(admins[me]) && body.keys == {}
    ensures UpdateProfile(admins, me, body) == Ok(admins)
  {
    var a := admins[me];
    assert Assigned(a, body) == a;
    PhoneHeldOnce(admins, me);
    assert admins[me := a] == admins;
  }

  /** `PUT /change-password`: the shared rule order, then the new password is
      saved and hashed. Sessions survive the change. */
  function ChangePassword(admins: seq<Admin>, me: nat, body: PasswordChange,
                          verify: (string, string) -> bool, hash: string -> string): (r: Result<seq<Admin>>)
    requires me < |admins|
    ensures r.Ok? <==> AcceptableChange(body, admins[me].password.value, verify) && Valid(admins[me])
    ensures !AcceptableChange(body, admins[me].password.value, verify)
            ==> r == Err(400, CheckChange(body, admins[me].password.value, verify).message)
    ensures r.Ok? ==> |r.value| == |admins| && forall j :: 0 <= j < |admins| && j != me ==> r.value[j] == admins[j]
    ensures r.Ok? ==> r.value[me] == admins[me].(password := Credential(hash(body.newPassword.value), false))
    ensures r.Err? ==> r.status in {400, 500}
  {
    match Credentials.ChangePassword(admins[me].password, body, verify, hash)
    case Err(s, m) => Err(s, m)
    case Ok(c) =>
      if !Valid(admins[me]) then Err(500, ValidationFailed)
      else Ok(admins[me := admins[me].(password := c)])
  }

  /** `POST /logout`: the presented token is filtered out of the admin's
      tokens; every other token and every other admin is kept. */
  function Logout(admins: seq<Admin>, me: nat, token: string): (r: seq<Admin>)
    requires me < |admins|
    ensures |r| == |admins| && forall j :: 0 <= j < |admins| && j != me ==> r[j] == admins[j]
    ensures !Authenticates(r[me].tokens, token)
    ensures forall t :: t != token ==> (Authenticates(r[me].tokens, t) <==> Authenticates(admins[me].tokens, t))
    ensures r[me].tokens == Revoke(admins[me].tokens, token)
    ensures r[me] == admins[me].(tokens := r[me].tokens)
  {
    admins[me := admins[me].(tokens := Revoke(admins[me].tokens, token))]
  }
}

=== FILE: cart.dfy ===
/** The cart router. Each user owns at most one cart: a list of lines, each a
    product id with a quantity, plus the time of its last change. Adding
    merges into the product's existing line or appends a new one, removing
    filters the product's lines out, clearing empties the list. Carts are
    keyed by their owner's id; the clock is a parameter. */
module CartRoutes {
  import opened Wrappers

  const ProductIdRequired: string := "Product ID is required"
  const CartNotFound: string := "Cart not found"

  datatype Line = Line(product: string, quantity: int)

  datatype Cart = Cart(user: string, items: seq<Line>, updatedAt: nat)

  /** Carts by owner: `Cart.findOne({ user })` finds the owner's cart. */
  type Carts = map<string, Cart>

  /** No product has two lines. */
  predicate OneLinePerProduct(items: seq<Line>) {
    forall i, j :: 0 <= i < j < |items| ==> items[i].product != items[j].product
  }

  predicate HasLine(items: seq<Line>, product: string) {
    exists k :: 0 <= k < |items| && items[k].product == product
  }

  /** The total quantity the lines hold for `product`: the reference the
      merge and the filter are measured against. */
  function Quantity(items: seq<Line>, product: string): int
    decreases |items|
  {
    if |items| == 0 then 0
    else (if items[0].product == product then items[0].quantity else 0) + Quantity(items[1..], product)
  }

  /** The quantity an add request merges: a falsy quantity (absent or 0)
      becomes 1; any other number, negative ones included, is used as given. */
  function Requested(quantity: Option<int>): (q: int)
    ensures q != 0
    ensures GivenNum(quantity) ==> q == quantity.value
    ensures !GivenNum(quantity) ==> q == 1
  {
    if GivenNum(quantity) then quantity.value else 1
  }

  /** `items.findIndex(item => item.product.toString() === productId)`. */
  function LineOf(items: seq<Line>, product: string): (r: Option<nat>)
    ensures r.Some? ==> r.value < |items| && items[r.value].product == product
    ensures r.Some? ==> forall k :: 0 <= k < r.value ==> items[k].product != product
    ensures r.None? <==> !HasLine(items, product)
  {
    FindFirst(items, (l: Line) => l.product == product)
  }

  /** The add step on the lines: the product's first line grows by `q`,
      otherwise one line is appended at the end. */
  function Merge(items: seq<Line>, product: string, q: int): (r: seq<Line>)
    ensures HasLine(items, product) ==> |r| == |items|
    ensures !HasLine(items, product) ==> |r| == |items| + 1 && r[..|items|] == items
                                         && r[|items|] == Line(product, q)
    ensures forall k :: 0 <= k < |items| && items[k].product != product ==> r[k] == items[k]
    ensures forall k :: 0 <= k < |r| ==> (r[k].product == product <==> k >= |items| || items[k].product == product)
  {
    match LineOf(items, product)
    case Some(i) => items[i := Line(product, items[i].quantity + q)]
    case None => items + [Line(product, q)]
  }

  /** `items.filter(item => item.product.toString() !== productId)`. */
  function Without(items: seq<Line>, product: string): (r: seq<Line>)
    ensures |r| <= |items|
    ensures !HasLine(r, product)
    ensures forall l :: l in r <==> l in items && l.product != product
    decreases |items|
  {
    if |items| == 0 then []
    else
      var rest := Without(items[1..], product);
      assert forall l :: l in items <==> l == items[0] || l in items[1..];
      if items[0].product == product then rest
      else
        assert forall l :: l in [items[0]] + rest <==> l == items[0] || l in rest;
        [items[0]] + rest
  }

  /** `POST /add-to-cart`. The product id is required; the owner's cart is
      created empty when missing; the lines are merged and the time bumped.
      The reply carries the store after the save. */
  function AddToCart(carts: Carts, user: string, productId: Option<string>, quantity: Option<int>, now: nat)
    : (r: Result<Carts>)
    ensures !Given(productId) <==> r == Err(400, ProductIdRequired)
    ensures r.Ok? ==> user in r.value && r.value[user].user == (if user in carts then carts[user].user else user)
    ensures r.Ok? ==> r.value[user].updatedAt == now
    ensures r.Ok? ==> forall u :: u != user ==> (u in r.value <==> u in carts) && (u in carts ==> r.value[u] == carts[u])
    ensures r.Ok? ==> var before := if user in carts then carts[user].items else [];
                      forall p :: Quantity(r.value[user].items, p)
                                  == Quantity(before, p) + (if p == productId.value then Requested(quantity) else 0)
    ensures r.Ok? ==> var before := if user in carts then carts[user].items else [];
                      r.value[user].items == Merge(before, productId.value, Requested(quantity))
    ensures r.Ok? ==> var before := if user in carts then carts[user].items else [];
                      && (HasLine(before, productId.value) ==> |r.value[user].items| == |before|)
                      && (!HasLine(before, productId.value)
                          ==> r.value[user].items == before + [Line(productId.value, Requested(quantity))])
    ensures r.Ok? ==> var before := if user in carts then carts[user].items else [];
                      OneLinePerProduct(before) ==> OneLinePerProduct(r.value[user].items)
  {
    if !Given(productId) then Err(400, ProductIdRequired)
    else
      var q := Requested(quantity);
      var cart := if user in carts then carts[user] else Cart(user, [], now);
      var items := Merge(cart.items, productId.value, q);
      forall p ensures Quantity(items, p) == Quantity(cart.items, p) + (if p == productId.value then q else 0) {
        MergeQuantity(cart.items, productId.value, q, p);
      }
      assert OneLinePerProduct(cart.items) ==> OneLinePerProduct(items) by {
        if OneLinePerProduct(cart.items) {
          MergeKeepsOneLine(cart.items, productId.value, q);
        }
      }
      Ok(carts[user := cart.(items := items, updatedAt := now)])
  }

  /** `GET /user-cart`: the owner's cart, or 404. */
  function UserCart(carts: Carts, user: string): (r: Result<Cart>)
    ensures r.Ok? <==> user in carts
    ensures r.Ok? ==> r.value == carts[user]
    ensures r.Err? ==> r == Err(404, CartNotFound)
  {
    if user !in carts then Err(404, CartNotFound) else Ok(carts[user])
  }

  /** `DELETE /user-cart/:productId`: the product's lines are filtered out
      of an existing cart; a missing cart is 404 and nothing is created. */
  function RemoveFromCart(carts: Carts, user: string, productId: string, now: nat): (r: Result<Carts>)
    ensures r.Err? <==> user !in carts
    ensures r.Err? ==> r == Err(404, CartNotFound)
    ensures r.Ok? ==> r.value.Keys == carts.Keys
    ensures r.Ok? ==> forall u :: u in carts && u != user ==> r.value[u] == carts[u]
    ensures r.Ok? ==> r.value[user].user == carts[user].user && r.value[user].updatedAt == now
    ensures r.Ok? ==> forall p :: Quantity(r.value[user].items, p)
                                  == (if p == productId then 0 else Quantity(carts[user].items, p))
    ensures r.Ok? ==> r.value[user].items == Without(carts[user].items, productId)
    ensures r.Ok? && OneLinePerProduct(carts[user].items) ==> OneLinePerProduct(r.value[user].items)
  {
    if user !in carts then Err(404, CartNotFound)
    else
      var cart := carts[user];
      var items := Without(cart.items, productId);
      forall p ensures Quantity(items, p) == (if p == productId then 0 else Quantity(cart.items, p)) {
        WithoutQuantity(cart.items, productId, p);
      }
      assert OneLinePerProduct(cart.items) ==> OneLinePerProduct(items) by {
        if OneLinePerProduct(cart.items) {
          WithoutKeepsOneLine(cart.items, productId);
        }
      }
      Ok(carts[user := cart.(items := items, updatedAt := now)])
  }

  /** `DELETE /clear-cart`: the lines are emptied, the cart itself is kept. */
  function ClearCart(carts: Carts, user: string, now: nat): (r: Result<Carts>)
    ensures r.Err? <==> user !in carts
    ensures r.Err? ==> r == Err(404, CartNotFound)
    ensures r.Ok? ==> r.value.Keys == carts.Keys
    ensures r.Ok? ==> forall u :: u in carts && u != user ==> r.value[u] == carts[u]
    ensures r.Ok? ==> r.value[user].user == carts[user].user && r.value[user].updatedAt == now
    ensures r.Ok? ==> r.value[user].items == []
  {
    if user !in carts then Err(404, CartNotFound)
    else Ok(carts[user := carts[user].(items := [], updatedAt := now)])
  }

  // ---------------------------------------------------------------------------
  // Properties
  // ---------------------------------------------------------------------------

  /** Raising one line's quantity raises the product's total by the same
      amount and leaves every other product's total alone. */
  lemma {:induction false} QuantityBump(items: seq<Line>, i: nat, q: int, p: string)
    requires i < |items|
    ensures Quantity(items[i := Line(items[i].product, items[i].quantity + q)], p)
         == Quantity(items, p) + (if p == items[i].product then q else 0)
    decreases |items|
  {
    var bumped := items[i := Line(items[i].product, items[i].quantity + q)];
    if i > 0 {
      QuantityBump(items[1..], i - 1, q, p);
      assert bumped[1..] == items[1..][i - 1 := Line(items[i].product, items[i].quantity + q)];
    } else {
      assert bumped[1..] == items[1..];
    }
  }

  /** Appending a line adds its quantity to its own product's total. */
  lemma {:induction false} QuantityAppend(items: seq<Line>, l: Line, p: string)
    ensures Quantity(items + [l], p) == Quantity(items, p) + (if p == l.product then l.quantity else 0)
    decreases |items|
  {
    if |items| > 0 {
      QuantityAppend(items[1..], l, p);
      assert (items + [l])[1..] == items[1..] + [l];
    } else {
      assert (items + [l])[1..] == [];
    }
  }

  /** Merging adds exactly the requested quantity to the product's total,
      whichever branch it takes. */
  lemma MergeQuantity(items: seq<Line>, product: string, q: int, p: string)
    ensures Quantity(Merge(items, product, q), p) == Quantity(items, p) + (if p == product then q else 0)
  {
    match LineOf(items, product)
    case Some(i) => QuantityBump(items, i, q, p);
    case None => QuantityAppend(items, Line(product, q), p);
  }

  /** Filtering the product out zeroes its total and keeps every other
      product's. */
  lemma {:induction false} WithoutQuantity(items: seq<Line>, product: string, p: string)
    ensures Quantity(Without(items, product), p) == (if p == product then 0 else Quantity(items, p))
    decreases |items|
  {
    if |items| > 0 {
      WithoutQuantity(items[1..], product, p);
      var rest := Without(items[1..], product);
      if items[0].product != product {
        assert ([items[0]] + rest)[1..] == rest;
      }
    }
  }

  /** Adding keeps at most one line per product. */
  lemma MergeKeepsOneLine(items: seq<Line>, product: string, q: int)
    requires OneLinePerProduct(items)
    ensures OneLinePerProduct(Merge(items, product, q))
  {
    var r := Merge(items, product, q);
    forall i, j | 0 <= i < j < |r| ensures r[i].product != r[j].product {
      if j >= |items| {
        assert !HasLine(items, product);
        assert r[j].product == product;
      } else if items[i].product == product || items[j].product == product {
        assert r[i].product == items[i].product && r[j].product == items[j].product;
      } else {
        assert r[i] == items[i] && r[j] == items[j];
      }
    }
  }

  /** The filter keeps the surviving lines in their original order: it
      distributes over concatenation. */
  lemma {:induction false} WithoutConcat(a: seq<Line>, b: seq<Line>, product: string)
    ensures Without(a + b, product) == Without(a, product) + Without(b, product)
    decreases |a|
  {
    if |a| > 0 {
      var ab := a + b;
      assert ab[0] == a[0] && ab[1..] == a[1..] + b;
      WithoutConcat(a[1..], b, product);
      var tail := Without(a[1..], product) + Without(b, product);
      if a[0].product == product {
        assert Without(ab, product) == tail;
      } else {
        assert Without(ab, product) == [a[0]] + tail;
      }
    } else {
      assert a + b == b;
    }
  }

  /** Removing a product the cart has no line for changes no line. */
  lemma {:induction false} WithoutAbsent(items: seq<Line>, product: string)
    requires !HasLine(items, product)
    ensures Without(items, product) == items
    decreases |items|
  {
    if |items| > 0 {
      assert !HasLine(items[1..], product) by {
        forall k | 0 <= k < |items[1..]| ensures items[1..][k].product != product {
          assert items[1..][k] == items[k + 1];
        }
      }
      WithoutAbsent(items[1..], product);
      assert items == [items[0]] + items[1..];
    }
  }

  /** Removing lines keeps at most one line per product. */
  lemma {:induction false} WithoutKeepsOneLine(items: seq<Line>, product: string)
    requires OneLinePerProduct(items)
    ensures OneLinePerProduct(Without(items, product))
    decreases |items|
  {
    if |items| > 0 {
      var rest := Without(items[1..], product);
      assert OneLinePerProduct(items[1..]) by {
        forall i, j | 0 <= i < j < |items[1..]| ensures items[1..][i].product != items[1..][j].product {
          assert items[1..][i] == items[i + 1] && items[1..][j] == items[j + 1];
        }
      }
      WithoutKeepsOneLine(items[1..], product);
      if items[0].product != product {
        var r := [items[0]] + rest;
        forall i, j | 0 <= i < j < |r| ensures r[i].product != r[j].product {
          if i == 0 {
            assert r[j] in items[1..];
            var k :| 0 <= k < |items[1..]| && items[1..][k] == r[j];
            assert items[1..][k] == items[k + 1];
          } else {
            assert r[i] == rest[i - 1] && r[j] == rest[j - 1];
          }
        }
      }
    }
  }

  /** Removing is idempotent. */
  lemma WithoutIdempotent(items: seq<Line>, product: string)
    ensures Without(Without(items, product), product) == Without(items, product)
  {
    WithoutAbsent(Without(items, product), product);
  }

  /** Removing a product after adding it gives the lines the cart would have
      had without the add, whether the add merged or appended. */
  lemma {:induction false} RemoveUndoesAdd(items: seq<Line>, product: string, q: int)
    ensures Without(Merge(items, product, q), product) == Without(items, product)
  {
    match LineOf(items, product)
    case Some(i) =>
      var bumped := items[i := Line(product, items[i].quantity + q)];
      assert items == items[..i] + [items[i]] + items[i + 1..];
      assert bumped == items[..i] + [Line(product, items[i].quantity + q)] + items[i + 1..];
      WithoutConcat(items[..i] + [items[i]], items[i + 1..], product);
      WithoutConcat(items[..i], [items[i]], product);
      WithoutConcat(items[..i] + [Line(product, items[i].quantity + q)], items[i + 1..], product);
      WithoutConcat(items[..i], [Line(product, items[i].quantity + q)], product);
      assert Without([items[i]], product) == [];
      assert Without([Line(product, items[i].quantity + q)], product) == [];
    case None =>
      WithoutConcat(items, [Line(product, q)], product);
      assert Without([Line(product, q)], product) == [];
  }

  /** An add with a product id always leaves the owner with a cart that holds
      a line for the product. */
  lemma AddCreatesLine(carts: Carts, user: string, productId: string, quantity: Option<int>, now: nat)
    requires productId != ""
    ensures var r := AddToCart(carts, user, Some(productId), quantity, now);
            r.Ok? && user in r.value && HasLine(r.value[user].items, productId)
  {
    var items := if user in carts then carts[user].items else [];
    var merged := Merge(items, productId, Requested(quantity));
    if HasLine(items, productId) {
      var k :| 0 <= k < |items| && items[k].product == productId;
      assert merged[k].product == productId;
    } else {
      assert merged[|items|].product == productId;
    }
  }
}

=== FILE: category.dfy ===
/** The category collection and its router. A category is one required
    string, trimmed and lower-cased by its setters, with no unique index:
    the collection is a list of names in insertion order and may repeat a
    name. The router's callers pass the admin middleware, which is not
    modelled. */
module CategoryRoutes {
  import opened Wrappers
  import opened Text

  const CategoryExists: string := "Category already exists"
  const NameRequired: string := "Category name is required"
  const CategoryMissing: string := "Category does not exist"
  const Added: string := "Categories added successfully"

  /** The error object a failing save or a failing property access answers
      500 with. */
  const ValidationFailed: string := "ValidationError"
  const NotAList: string := "TypeError"

  type Categories = seq<string>

  /** What every stored name satisfies: it passed the `required` validator
      after its setters. */
  predicate Stored(cats: Categories) {
    forall i :: 0 <= i < |cats| ==> cats[i] != "" && Canonical(cats[i])
  }

  /** `new Category({ category })` followed by validation: the normalised
      name, or None when the required validator refuses it. */
  function Cast(category: Option<string>): (r: Option<string>)
    ensures r.Some? <==> category.Some? && !AllSpace(category.value)
    ensures r.Some? ==> r.value == TrimLower(category.value) && r.value != "" && Canonical(r.value)
  {
    match category
    case None => None
    case Some(c) => if TrimLower(c) == "" then None else Some(TrimLower(c))
  }

  /** `findOne({ category })` once awaited: a filter whose value is
      `undefined` is dropped and matches any document; otherwise the value
      passes through the setters first. */
  predicate Found(cats: Categories, category: Option<string>) {
    match category
    case None => |cats| > 0
    case Some(c) => TrimLower(c) in cats
  }

  /** What the existence test of the add route holds: an awaited lookup's
      result, or a query that was never awaited. */
  datatype Lookup = Awaited(found: bool) | Pending

  /** JavaScript truthiness of the test: a pending query is an object, and
      every object is truthy. */
  predicate Truthy(l: Lookup) {
    l.Pending? || l.found
  }

  /** The add route's body after its lookup: the existence test, then the
      presence test, then the save. */
  function AddAfter(cats: Categories, category: Option<string>, lookup: Lookup): (r: Result<Categories>)
    ensures Truthy(lookup) ==> r == Err(400, CategoryExists)
    ensures !Truthy(lookup) && !Given(category) ==> r == Err(400, NameRequired)
    ensures r.Ok? <==> !Truthy(lookup) && category.Some? && !AllSpace(category.value)
    ensures r.Ok? ==> r.value == cats + [TrimLower(category.value)]
  {
    if Truthy(lookup) then Err(400, CategoryExists)
    else if !Given(category) then Err(400, NameRequired)
    else match Cast(category)
      case None => Err(500, ValidationFailed)
      case Some(name) => Ok(cats + [name])
  }

  /** `POST /add-category` as written: `findOne` is never awaited. */
  function AddCategoryAsWritten(cats: Categories, category: Option<string>): (r: Result<Categories>)
    ensures r == Err(400, CategoryExists)
  {
    AddAfter(cats, category, Pending)
  }

  /** `POST /add-category` with the lookup awaited. */
  function AddCategory(cats: Categories, category: Option<string>): (r: Result<Categories>)
    ensures r.Ok? <==> category.Some? && !AllSpace(category.value) && !Found(cats, category)
    ensures Found(cats, category) ==> r == Err(400, CategoryExists)
    ensures !Found(cats, category) && !Given(category) ==> r == Err(400, NameRequired)
    ensures r.Ok? ==> r.value == cats + [TrimLower(category.value)]
    ensures r.Ok? ==> TrimLower(category.value) !in cats
  {
    AddAfter(cats, category, Awaited(Found(cats, category)))
  }

  /** The results of `cast` over `xs`, up to the first element it refuses. */
  function Prefix<T, U>(cast: T -> Option<U>, xs: seq<T>): (r: seq<U>)
    ensures |r| <= |xs|
    ensures forall i :: 0 <= i < |r| ==> cast(xs[i]) == Some(r[i])
    ensures |r| < |xs| ==> cast(xs[|r|]).None?
  {
    if |xs| == 0 then []
    else match cast(xs[0])
      case None => []
      case Some(y) => [y] + Prefix(cast, xs[1..])
  }

  /** `Prefix`'s contract determines it: the results of `cast` over a prefix
      of `xs` that ends at the list's end or at a refused element. */
  lemma PrefixUnique<T, U>(cast: T -> Option<U>, xs: seq<T>, ys: seq<U>)
    requires |ys| <= |xs|
    requires forall i :: 0 <= i < |ys| ==> cast(xs[i]) == Some(ys[i])
    requires |ys| < |xs| ==> cast(xs[|ys|]).None?
    ensures ys == Prefix(cast, xs)
  {
    var r := Prefix(cast, xs);
    assert |r| == |ys|;
    forall i | 0 <= i < |ys| ensures ys[i] == r[i] {
      assert cast(xs[i]) == Some(ys[i]);
    }
  }

  /** The names the list saves, one per element until the first element the
      validator refuses. */
  function Accepted(categories: seq<Option<string>>): (r: Categories)
    ensures |r| <= |categories|
    ensures forall i :: 0 <= i < |r| ==> Cast(categories[i]) == Some(r[i])
    ensures |r| < |categories| ==> Cast(categories[|r|]).None?
  {
    Prefix(Cast, categories)
  }

  /** The insert loop of the list route: each element is cast and saved in
      turn, and the first one `cast` refuses stops the loop. */
  method SaveEach<T, U>(cast: T -> Option<U>, list: seq<T>) returns (saved: seq<U>, stopped: bool)
    ensures saved == Prefix(cast, list)
    ensures stopped <==> |saved| < |list|
  {
    saved := [];
    var i := 0;
    while i < |list|
      invariant 0 <= i <= |list| && |saved| == i
      invariant forall j :: 0 <= j < i ==> cast(list[j]) == Some(saved[j])
    {
      var y := cast(list[i]);
      if y.None? {
        PrefixUnique(cast, list, saved);
        return saved, true;
      }
      saved := saved + [y.value];
      i := i + 1;
    }
    PrefixUnique(cast, list, saved);
    return saved, false;
  }

  /** `POST /add-many-categories`: the list is required to be non-empty; its
      elements are saved one after the other, without any duplicate check,
      and the first refused element ends the loop with 500, leaving the
      earlier ones stored. */
  method AddManyCategories(cats: Categories, categories: Option<seq<Option<string>>>) returns (r: Reply<Categories>)
    ensures categories.None? ==> r == Reply(500, NotAList, cats)
    ensures categories == Some([]) ==> r == Reply(400, NameRequired, cats)
    ensures categories.Some? && |categories.value| > 0 ==> r.state == cats + Accepted(categories.value)
    ensures categories.Some? && |categories.value| > 0 ==>
              (r.status == 200 <==> |Accepted(categories.value)| == |categories.value|)
    ensures r.status == 200 ==> r.message == Added
    ensures r.status == 500 ==> r.message == NotAList || r.message == ValidationFailed
    ensures r.status == 200 || r.status == 400 || r.status == 500
  {
    if categories.None? {
      return Reply(500, NotAList, cats);
    }
    if |categories.value| == 0 {
      return Reply(400, NameRequired, cats);
    }
    var saved, stopped := SaveEach(Cast, categories.value);
    if stopped {
      return Reply(500, ValidationFailed, cats + saved);
    }
    return Reply(200, Added, cats + saved);
  }

  /** `DELETE /delete-category/:category`: the first document whose name is
      the normalised parameter is removed. */
  function DeleteCategory(cats: Categories, category: string): (r: Result<Categories>)
    ensures r.Err? <==> TrimLower(category) !in cats
    ensures r.Err? ==> r == Err(400, CategoryMissing)
    ensures r.Ok? ==> multiset(r.value) == multiset(cats)[TrimLower(category) := multiset(cats)[TrimLower(category)] - 1]
    ensures r.Ok? ==> exists i :: 0 <= i < |cats| && cats[i] == TrimLower(category) && TrimLower(category) !in cats[..i]
                                   && r.value == cats[..i] + cats[i + 1..]
  {
    var name := TrimLower(category);
    match FindFirst(cats, (c: string) => c == name)
    case None => Err(400, CategoryMissing)
    case Some(i) =>
      assert cats == cats[..i] + [cats[i]] + cats[i + 1..];
      Ok(cats[..i] + cats[i + 1..])
  }

  // ---------------------------------------------------------------------------
  // Properties
  // ---------------------------------------------------------------------------

  /** The un-awaited lookup refuses every name the awaited one stores: a
      fresh, non-blank name, on an empty collection for instance. */
  lemma AddCategoryNeverSaves(cats: Categories, name: string)
    requires !AllSpace(name) && TrimLower(name) !in cats
    ensures AddCategory(cats, Some(name)) == Ok(cats + [TrimLower(name)])
    ensures AddCategoryAsWritten(cats, Some(name)) == Err(400, CategoryExists)
  {
  }

  /** Every name a route saves is normalised and non-empty. */
  lemma AddKeepsStored(cats: Categories, category: Option<string>)
    requires Stored(cats) && AddCategory(cats, category).Ok?
    ensures Stored(AddCategory(cats, category).value)
  {
  }

  /** The corrected add never stores a name twice. */
  lemma AddKeepsNamesDistinct(cats: Categories, category: Option<string>)
    requires forall i, j :: 0 <= i < j < |cats| ==> cats[i] != cats[j]
    requires AddCategory(cats, category).Ok?
    ensures var r := AddCategory(cats, category).value;
            forall i, j :: 0 <= i < j < |r| ==> r[i] != r[j]
  {
  }

  /** An illustration of `AddManyCategories`' contract: the list route has no
      duplicate check, so the same name sent twice is stored twice. */
  lemma ManyStoresDuplicates(cats: Categories, name: string)
    requires !AllSpace(name)
    ensures Accepted([Some(name), Some(name)]) == [TrimLower(name), TrimLower(name)]
  {
  }

  /** An illustration of `AddManyCategories`' contract: a later element the
      validator refuses does not undo earlier saves. */
  lemma ManyKeepsEarlierInserts(cats: Categories, good: string)
    requires !AllSpace(good)
    ensures Accepted([Some(good), None]) == [TrimLower(good)]
  {
    PrefixUnique(Cast, [Some(good), None], [TrimLower(good)]);
  }

  /** Deleting a name the collection holds once removes it completely. */
  lemma DeleteRemovesSingle(cats: Categories, category: string)
    requires multiset(cats)[TrimLower(category)] == 1
    ensures DeleteCategory(cats, category).Ok?
    ensures TrimLower(category) !in DeleteCategory(cats, category).value
  {
    assert TrimLower(category) in multiset(cats);
    var r := DeleteCategory(cats, category).value;
    assert multiset(r)[TrimLower(category)] == 0;
  }

  /** Deleting the name an add just stored gives back the collection as it
      was before the add: the new name is the only copy, at the end. */
  lemma DeleteUndoesAdd(cats: Categories, category: string)
    requires AddCategory(cats, Some(category)).Ok?
    ensures DeleteCategory(AddCategory(cats, Some(category)).value, category) == Ok(cats)
  {
    var added := AddCategory(cats, Some(category)).value;
    var r := DeleteCategory(added, category);
    var i :| 0 <= i < |added| && added[i] == TrimLower(category) && r.value == added[..i] + added[i + 1..];
    assert added == cats + [TrimLower(category)];
    assert added[..i] == cats && added[i + 1..] == [];
    assert r.value == cats;
  }
}

=== FILE: coupon.dfy ===
/** The coupon router. Coupons are kept by id; adding and updating are
    reserved to callers whose `userType` is exactly "Admin" and validate the
    body in a fixed order; an update rewrites three fields only; deleting
    needs nothing but an authenticated caller. The coupon schema itself is
    not part of this model: a save is taken to succeed. */
module CouponRoutes {
  import opened Wrappers
  import UserModel
  import OrderModel

  const AdminType: string := "Admin"
  const AddForbidden: string := "Unauthorized only Admin can add coupon "
  const UpdateForbidden: string := "Unauthorized only Admin can update coupon "
  const CodeRequired: string := "Code is required"
  const PercentageRequired: string := "Discount percentage is required"
  const PercentageRange: string := "Discount percentage must be between 0 and 100"
  const MaxDiscountRequired: string := "Max discount is required"
  const CouponNotFound: string := "Coupon not found"

  /** The largest percentage the routes accept. */
  const MaxPercentage: int := 100

  datatype Coupon = Coupon(code: string, discountPercentage: int, maxDiscount: int, isActive: Option<bool>)

  type Coupons = map<string, Coupon>

  datatype CouponBody = CouponBody(
    code: Option<string>,
    discountPercentage: Option<int>,
    maxDiscount: Option<int>,
    isActive: Option<bool>)

  /** The role gate of add and update, with the route's own message. */
  function Gate(userType: string, message: string): (r: Outcome)
    ensures r.Pass? <==> userType == AdminType
    ensures r.Fail? ==> r == Fail(403, message)
  {
    if userType != AdminType then Fail(403, message) else Pass
  }

  /** The percentage and maximum a body may carry: both truthy, the
      percentage within 0..100. */
  predicate AmountsAcceptable(body: CouponBody) {
    && GivenNum(body.discountPercentage)
    && 0 <= body.discountPercentage.value <= MaxPercentage
    && GivenNum(body.maxDiscount)
  }

  /** The checks add and update share: percentage presence, its range, then
      the maximum's presence. */
  function CheckAmounts(body: CouponBody): (r: Outcome)
    ensures r.Pass? <==> AmountsAcceptable(body)
    ensures !GivenNum(body.discountPercentage) <==> r == Fail(400, PercentageRequired)
    ensures r == Fail(400, PercentageRange) <==>
              GivenNum(body.discountPercentage)
              && (body.discountPercentage.value < 0 || body.discountPercentage.value > MaxPercentage)
    ensures r == Fail(400, MaxDiscountRequired) <==>
              GivenNum(body.discountPercentage) && 0 <= body.discountPercentage.value <= MaxPercentage
              && !GivenNum(body.maxDiscount)
  {
    if !GivenNum(body.discountPercentage) then Fail(400, PercentageRequired)
    else if body.discountPercentage.value < 0 || body.discountPercentage.value > MaxPercentage then
      Fail(400, PercentageRange)
    else if !GivenNum(body.maxDiscount) then Fail(400, MaxDiscountRequired)
    else Pass
  }

  /** `POST /add-coupon`: gate, code presence, then the amount checks; the
      new coupon is stored under a fresh id. */
  function AddCoupon(coupons: Coupons, userType: string, id: string, body: CouponBody): (r: Result<Coupons>)
    requires id !in coupons
    ensures r.Ok? <==> userType == AdminType && Given(body.code) && AmountsAcceptable(body)
    ensures userType != AdminType ==> r == Err(403, AddForbidden)
    ensures userType == AdminType && !Given(body.code) ==> r == Err(400, CodeRequired)
    ensures userType == AdminType && Given(body.code) ==> r.Err? ==> r.status == 400 && CheckAmounts(body).Fail?
    ensures userType == AdminType && Given(body.code) && CheckAmounts(body).Fail?
            ==> r == Err(400, CheckAmounts(body).message)
    ensures r.Ok? ==> r.value.Keys == coupons.Keys + {id}
    ensures r.Ok? ==> forall k :: k in coupons ==> r.value[k] == coupons[k]
    ensures r.Ok? ==> var c := r.value[id];
                      c.code == body.code.value && c.discountPercentage == body.discountPercentage.value
                      && 0 < c.discountPercentage <= MaxPercentage
                      && c.maxDiscount == body.maxDiscount.value && c.isActive == body.isActive
  {
    var checks := Gate(userType, AddForbidden)
                  .Then(if Given(body.code) then Pass else Fail(400, CodeRequired))
                  .Then(CheckAmounts(body));
    match checks
    case Fail(s, m) => Err(s, m)
    case Pass =>
      Ok(coupons[id := Coupon(body.code.value, body.discountPercentage.value, body.maxDiscount.value, body.isActive)])
  }

  /** `GET /coupon/:id`. */
  function GetCoupon(coupons: Coupons, id: string): (r: Result<Coupon>)
    ensures r.Ok? <==> id in coupons
    ensures r.Ok? ==> r.value == coupons[id]
    ensures r.Err? ==> r == Err(404, CouponNotFound)
  {
    if id in coupons then Ok(coupons[id]) else Err(404, CouponNotFound)
  }

  /** `PUT /update-coupon/:id`: gate and amount checks come before the
      lookup; the percentage, the maximum and the active flag are assigned
      (an absent flag is assigned as `undefined`), the code never. */
  function UpdateCoupon(coupons: Coupons, userType: string, id: string, body: CouponBody): (r: Result<Coupons>)
    ensures r.Ok? <==> userType == AdminType && AmountsAcceptable(body) && id in coupons
    ensures userType != AdminType ==> r == Err(403, UpdateForbidden)
    ensures userType == AdminType && AmountsAcceptable(body) && id !in coupons ==> r == Err(404, CouponNotFound)
    ensures userType == AdminType && !AmountsAcceptable(body) ==> r.Err? && r.status == 400
    ensures userType == AdminType && !AmountsAcceptable(body) ==> r == Err(400, CheckAmounts(body).message)
    ensures r.Ok? ==> r.value.Keys == coupons.Keys
    ensures r.Ok? ==> forall k :: k in coupons && k != id ==> r.value[k] == coupons[k]
    ensures r.Ok? ==> r.value[id].code == coupons[id].code
    ensures r.Ok? ==> r.value[id].discountPercentage == body.discountPercentage.value
                      && r.value[id].maxDiscount == body.maxDiscount.value
                      && r.value[id].isActive == body.isActive
  {
    match Gate(userType, UpdateForbidden).Then(CheckAmounts(body))
    case Fail(s, m) => Err(s, m)
    case Pass =>
      if id !in coupons then Err(404, CouponNotFound)
      else
        var c := coupons[id];
        Ok(coupons[id := c.(discountPercentage := body.discountPercentage.value,
                            maxDiscount := body.maxDiscount.value,
                            isActive := body.isActive)])
  }

  /** `DELETE /delete-coupon/:id`: no role gate. */
  function DeleteCoupon(coupons: Coupons, id: string): (r: Result<Coupons>)
    ensures r.Ok? <==> id in coupons
    ensures r.Err? ==> r == Err(404, CouponNotFound)
    ensures r.Ok? ==> r.value.Keys == coupons.Keys - {id}
    ensures r.Ok? ==> forall k :: k in r.value ==> r.value[k] == coupons[k]
  {
    if id !in coupons then Err(404, CouponNotFound) else Ok(coupons - {id})
  }

  // ---------------------------------------------------------------------------
  // Properties
  // ---------------------------------------------------------------------------

  /** Zero is reported as missing before the range is checked, so every
      accepted percentage is strictly positive. */
  lemma AcceptedPercentagePositive(body: CouponBody)
    requires CheckAmounts(body).Pass?
    ensures 0 < body.discountPercentage.value <= MaxPercentage
  {
  }

  /** A zero maximum is refused as missing, a negative one is accepted. */
  lemma MaxDiscountOnlyNonZero(p: int, m: int)
    requires 0 < p <= MaxPercentage
    ensures CheckAmounts(CouponBody(None, Some(p), Some(m), None)).Pass? <==> m != 0
  {
  }

  /** The routes run behind the authentication middleware, which looks the
      caller up in the user collection: the gate sees a user document and
      passes exactly its Admin variant. Vendors and general users are refused
      by both add and update, and nothing changes. */
  lemma GateAdmitsAdminVariant(coupons: Coupons, u: UserModel.User, id: string, body: CouponBody)
    requires id !in coupons
    ensures Gate(UserModel.UserType(u), AddForbidden).Pass? <==> u.kind.AdminKind?
    ensures !u.kind.AdminKind? ==> AddCoupon(coupons, UserModel.UserType(u), id, body) == Err(403, AddForbidden)
    ensures !u.kind.AdminKind? ==> UpdateCoupon(coupons, UserModel.UserType(u), id, body) == Err(403, UpdateForbidden)
  {
  }

  /** Updating twice with the same body is the same as updating once. */
  lemma UpdateIdempotent(coupons: Coupons, userType: string, id: string, body: CouponBody)
    requires UpdateCoupon(coupons, userType, id, body).Ok?
    ensures UpdateCoupon(UpdateCoupon(coupons, userType, id, body).value, userType, id, body)
         == UpdateCoupon(coupons, userType, id, body)
  {
    var once := UpdateCoupon(coupons, userType, id, body).value;
    var c := once[id];
    assert c.(discountPercentage := body.discountPercentage.value, maxDiscount := body.maxDiscount.value,
              isActive := body.isActive) == c;
    assert once[id := c] == once;
  }

  /** Deleting a coupon, then deleting it again, answers 404 the second time. */
  lemma DeleteTwice(coupons: Coupons, id: string)
    requires id in coupons
    ensures DeleteCoupon(DeleteCoupon(coupons, id).value, id) == Err(404, CouponNotFound)
  {
  }

  /** A coupon may carry up to 100 percent while an order stores at most 20:
      a 50 percent coupon is accepted, and no order carrying its percentage
      passes the order schema's validators. */
  lemma CouponBoundLooserThanOrder(coupons: Coupons, id: string)
    requires id !in coupons
    ensures AddCoupon(coupons, AdminType, id, CouponBody(Some("SAVE50"), Some(50), Some(100), None)).Ok?
    ensures forall input: OrderModel.OrderInput, now: nat :: input.discountPercentage == Some(50)
              ==> OrderModel.Create(input, now).None?
  {
  }

  /** Deleting the coupon an add just stored gives back the collection as it
      was before the add. */
  lemma DeleteUndoesAdd(coupons: Coupons, userType: string, id: string, body: CouponBody)
    requires id !in coupons && AddCoupon(coupons, userType, id, body).Ok?
    ensures DeleteCoupon(AddCoupon(coupons, userType, id, body).value, id) == Ok(coupons)
  {
    var added := AddCoupon(coupons, userType, id, body).value;
    assert added - {id} == coupons;
  }
}

=== FILE: credentials.dfy ===
/** Passwords of account documents and the change-password rule order the
    three account routers share. Hashing and comparing (bcrypt) are
    parameters: `hash` stands for hashing with cost 8, `verify(plain, stored)`
    for comparing a plain password with a stored hash. */
module Credentials {
  import opened Wrappers

  const LengthMessage: string := "Password must be between 6 and 18 characters long"
  const CurrentRequired: string := "Current password is required"
  const NewRequired: string := "New password is required"
  const SameAsCurrent: string := "New password must be different from the current password"
  const InvalidCurrent: string := "Invalid current password"

  /** A stored password. `modified` is Mongoose's `isModified("password")`:
      the value was assigned since the last save and is still plain text. */
  datatype Credential = Credential(value: string, modified: bool)

  /** Assigning a password to a document marks it modified. */
  function Assign(plain: string): Credential {
    Credential(plain, true)
  }

  /** The `pre("save")` hook: the password is hashed only when it was
      modified since the last save, and a saved password is no longer
      modified. */
  function OnSave(c: Credential, hash: string -> string): (r: Credential)
    ensures !r.modified
    ensures c.modified ==> r.value == hash(c.value)
    ensures !c.modified ==> r == c
  {
    if c.modified then Credential(hash(c.value), false) else c
  }

  /** Saving again does not hash again: a password assigned once and saved
      any number of times is stored as one hash of the plain text. */
  lemma {:induction false} HashedOnce(plain: string, hash: string -> string, saves: nat)
    requires saves >= 1
    ensures Repeat(Assign(plain), hash, saves) == Credential(hash(plain), false)
  {
    if saves > 1 {
      HashedOnce(plain, hash, saves - 1);
    }
  }

  /** `saves` consecutive saves of one document. */
  function Repeat(c: Credential, hash: string -> string, saves: nat): Credential {
    if saves == 0 then c else OnSave(Repeat(c, hash, saves - 1), hash)
  }

  /** The length rule every password route applies. */
  predicate LengthAllowed(password: string) {
    6 <= |password| <= 18
  }

  datatype PasswordChange = PasswordChange(currentPassword: Option<string>, newPassword: Option<string>)

  /** What the change-password routes accept, independent of check order. */
  predicate AcceptableChange(body: PasswordChange, stored: string, verify: (string, string) -> bool) {
    && Given(body.currentPassword)
    && Given(body.newPassword)
    && body.currentPassword.value != body.newPassword.value
    && verify(body.currentPassword.value, stored)
    && LengthAllowed(body.newPassword.value)
  }

  /** The change-password checks in route order: current present, new
      present, new different from current, current verified against the
      stored hash, new length 6..18. The reply is the first failing check. */
  function CheckChange(body: PasswordChange, stored: string, verify: (string, string) -> bool): (r: Outcome)
    ensures r.Pass? <==> AcceptableChange(body, stored, verify)
    ensures r.Fail? ==> r.status == 400
    ensures !Given(body.currentPassword) <==> r == Fail(400, CurrentRequired)
    ensures Given(body.currentPassword) && !Given(body.newPassword) <==> r == Fail(400, NewRequired)
    // equal passwords are refused whatever the stored hash is: before verification
    ensures Given(body.currentPassword) && Given(body.newPassword)
            && body.currentPassword.value == body.newPassword.value
            <==> r == Fail(400, SameAsCurrent)
    ensures Given(body.currentPassword) && Given(body.newPassword)
            && body.currentPassword.value != body.newPassword.value
            && !verify(body.currentPassword.value, stored)
            <==> r == Fail(400, InvalidCurrent)
    // a too-short or too-long new password is only reported to a caller
    // who proved the current one
    ensures Given(body.currentPassword) && Given(body.newPassword)
            && body.currentPassword.value != body.newPassword.value
            && verify(body.currentPassword.value, stored) && !LengthAllowed(body.newPassword.value)
            <==> r == Fail(400, LengthMessage)
  {
    if !Given(body.currentPassword) then Fail(400, CurrentRequired)
    else if !Given(body.newPassword) then Fail(400, NewRequired)
    else if body.currentPassword.value == body.newPassword.value then Fail(400, SameAsCurrent)
    else if !verify(body.currentPassword.value, stored) then Fail(400, InvalidCurrent)
    else if !LengthAllowed(body.newPassword.value) then Fail(400, LengthMessage)
    else Pass
  }

  /** Change a stored password and save: on success the stored value is the
      hash of the new password. */
  function ChangePassword(c: Credential, body: PasswordChange, verify: (string, string) -> bool,
                          hash: string -> string): (r: Result<Credential>)
    ensures r.Ok? <==> AcceptableChange(body, c.value, verify)
    ensures r.Ok? ==> r.value == Credential(hash(body.newPassword.value), false)
    ensures r.Err? ==> r == Err(400, CheckChange(body, c.value, verify).message)
  {
    match CheckChange(body, c.value, verify)
    case Fail(s, m) => Err(s, m)
    case Pass => Ok(OnSave(Assign(body.newPassword.value), hash))
  }
}

=== FILE: directory.dfy ===
/** The admin and the vendor collections seen together: both register routes
    look the email and the phone number up in both collections before they
    create an account, so that no contact is shared across them. */
module Directory {
  import AdminModel
  import VendorModel

  predicate EmailTaken(admins: seq<AdminModel.Admin>, vendors: seq<VendorModel.Vendor>, email: string) {
    (exists i :: 0 <= i < |admins| && admins[i].email == email)
    || (exists j :: 0 <= j < |vendors| && vendors[j].email == email)
  }

  predicate PhoneTaken(admins: seq<AdminModel.Admin>, vendors: seq<VendorModel.Vendor>, phoneNumber: string) {
    (exists i :: 0 <= i < |admins| && admins[i].phoneNumber == phoneNumber)
    || (exists j :: 0 <= j < |vendors| && vendors[j].phoneNumber == phoneNumber)
  }

  /** No two accounts, in one collection or across the two, share an email
      or a phone number. */
  predicate ContactsUnique(admins: seq<AdminModel.Admin>, vendors: seq<VendorModel.Vendor>) {
    && AdminModel.UniqueContacts(admins)
    && VendorModel.UniqueContacts(vendors)
    && forall i, j :: 0 <= i < |admins| && 0 <= j < |vendors| ==>
         admins[i].email != vendors[j].email && admins[i].phoneNumber != vendors[j].phoneNumber
  }

  /** An admin whose contacts are free in both collections keeps them unique. */
  lemma AddAdmin(admins: seq<AdminModel.Admin>, vendors: seq<VendorModel.Vendor>, a: AdminModel.Admin)
    requires ContactsUnique(admins, vendors)
    requires !EmailTaken(admins, vendors, a.email) && !PhoneTaken(admins, vendors, a.phoneNumber)
    ensures ContactsUnique(admins + [a], vendors)
  {
    var s := admins + [a];
    forall i, j | 0 <= i < j < |s|
      ensures s[i].email != s[j].email && s[i].phoneNumber != s[j].phoneNumber
    {
      if j < |admins| {
        assert s[i] == admins[i] && s[j] == admins[j];
      } else {
        assert s[i] == admins[i] && s[j] == a;
      }
    }
  }

  /** A vendor whose contacts are free in both collections keeps them unique. */
  lemma AddVendor(admins: seq<AdminModel.Admin>, vendors: seq<VendorModel.Vendor>, v: VendorModel.Vendor)
    requires ContactsUnique(admins, vendors)
    requires !EmailTaken(admins, vendors, v.email) && !PhoneTaken(admins, vendors, v.phoneNumber)
    ensures ContactsUnique(admins, vendors + [v])
  {
    var s := vendors + [v];
    forall i, j | 0 <= i < j < |s|
      ensures s[i].email != s[j].email && s[i].phoneNumber != s[j].phoneNumber
    {
      if j < |vendors| {
        assert s[i] == vendors[i] && s[j] == vendors[j];
      } else {
        assert s[i] == vendors[i] && s[j] == v;
      }
    }
  }
}

=== FILE: order_model.dfy ===
/** The order schema. No route creates orders; what the schema itself
    decides is modelled: three enumerations, the required paths, the
    defaults, the lower-cased zone and the bounds on the discount
    percentage. Amounts are integers; the schema relates none of them. */
module OrderModel {
  import opened Wrappers
  import opened Text

  datatype Status = Pending | Shipped | OutForDelivery | Delivered | Canceled {
    function Name(): string {
      match this
      case Pending => "pending"
      case Shipped => "shipped"
      case OutForDelivery => "out for delivery"
      case Delivered => "delivered"
      case Canceled => "canceled"
    }
  }

  datatype PaymentMethod = Upi | CashOnDelivery | DebitCard | CreditCard {
    function Name(): string {
      match this
      case Upi => "upi"
      case CashOnDelivery => "cash on delivery"
      case DebitCard => "debit card"
      case CreditCard => "credit card"
    }
  }

  datatype PaymentStatus = Unpaid | Completed {
    function Name(): string {
      match this
      case Unpaid => "pending"
      case Completed => "completed"
    }
  }

  /** The `enum` validator of `status`: the value it accepts, or None. */
  function ParseStatus(s: string): (r: Option<Status>)
    ensures r.Some? ==> r.value.Name() == s
    ensures r.None? ==> forall x: Status :: x.Name() != s
  {
    if s == "pending" then Some(Pending)
    else if s == "shipped" then Some(Shipped)
    else if s == "out for delivery" then Some(OutForDelivery)
    else if s == "delivered" then Some(Delivered)
    else if s == "canceled" then Some(Canceled)
    else None
  }

  function ParsePaymentMethod(s: string): (r: Option<PaymentMethod>)
    ensures r.Some? ==> r.value.Name() == s
    ensures r.None? ==> forall x: PaymentMethod :: x.Name() != s
  {
    if s == "upi" then Some(Upi)
    else if s == "cash on delivery" then Some(CashOnDelivery)
    else if s == "debit card" then Some(DebitCard)
    else if s == "credit card" then Some(CreditCard)
    else None
  }

  function ParsePaymentStatus(s: string): (r: Option<PaymentStatus>)
    ensures r.Some? ==> r.value.Name() == s
    ensures r.None? ==> forall x: PaymentStatus :: x.Name() != s
  {
    if s == "pending" then Some(Unpaid)
    else if s == "completed" then Some(Completed)
    else None
  }

  const MinDiscount: int := 0
  const MaxDiscount: int := 20

  datatype Item = Item(product: string, quantity: int)

  datatype Order = Order(
    user: string,
    userContactNumber: string,
    items: seq<Item>,
    totalAmount: int,
    status: Status,
    createdAt: nat,
    updatedAt: nat,
    shippingAddress: string,
    zone: string,
    paymentMethod: PaymentMethod,
    paymentStatus: PaymentStatus,
    prescriptionsUrls: seq<string>,
    discountPercentage: int,
    discountAmount: int,
    totalAmountAfterDiscount: int,
    deliveryCharge: int)

  /** The fields a caller may pass to `new Order({...})`; absent ones are
      `undefined`. The shipping address is an opaque object. */
  datatype ItemInput = ItemInput(product: Option<string>, quantity: Option<int>)

  datatype OrderInput = OrderInput(
    user: Option<string>,
    userContactNumber: Option<string>,
    items: seq<ItemInput>,
    totalAmount: Option<int>,
    status: Option<string>,
    shippingAddress: Option<string>,
    zone: Option<string>,
    paymentMethod: Option<string>,
    paymentStatus: Option<string>,
    prescriptionsUrls: seq<string>,
    discountPercentage: Option<int>,
    discountAmount: Option<int>,
    totalAmountAfterDiscount: Option<int>,
    deliveryCharge: Option<int>)

  /** What validation accepts, stated path by path: the required string
      paths are non-empty, the required others present, every enumerated
      value given is a member, and the percentage (defaulted to 0) lies in
      0..20. */
  predicate Acceptable(input: OrderInput) {
    && input.user.Some?
    && Given(input.userContactNumber)
    && (forall i :: 0 <= i < |input.items| ==> input.items[i].product.Some? && input.items[i].quantity.Some?)
    && input.totalAmount.Some?
    && (input.status.Some? ==> exists x: Status :: x.Name() == input.status.value)
    && input.shippingAddress.Some?
    && Given(input.zone)
    && Given(input.paymentMethod) && (exists x: PaymentMethod :: x.Name() == input.paymentMethod.value)
    && (input.paymentStatus.Some? ==> exists x: PaymentStatus :: x.Name() == input.paymentStatus.value)
    && MinDiscount <= input.discountPercentage.GetOr(0) <= MaxDiscount
  }

  function CastItems(items: seq<ItemInput>): (r: seq<Item>)
    requires forall i :: 0 <= i < |items| ==> items[i].product.Some? && items[i].quantity.Some?
    ensures |r| == |items|
    ensures forall i :: 0 <= i < |items| ==>
              r[i] == Item(items[i].product.value, items[i].quantity.value)
  {
    seq(|items|, i requires 0 <= i < |items| => Item(items[i].product.value, items[i].quantity.value))
  }

  /** `new Order(input)` followed by validation, at clock reading `now`: the
      document with its defaults, or None when a validator refuses it. */
  function Create(input: OrderInput, now: nat): (r: Option<Order>)
    ensures r.Some? <==> Acceptable(input)
    ensures r.Some? ==> r.value.status.Name() == input.status.GetOr("pending")
    ensures r.Some? ==> r.value.paymentStatus.Name() == input.paymentStatus.GetOr("pending")
    ensures r.Some? ==> r.value.paymentMethod.Name() == input.paymentMethod.value
    ensures r.Some? ==> r.value.zone == Lower(input.zone.value) && IsLower(r.value.zone)
    ensures r.Some? ==> MinDiscount <= r.value.discountPercentage <= MaxDiscount
    ensures r.Some? ==> r.value.discountPercentage == input.discountPercentage.GetOr(0)
                        && r.value.discountAmount == input.discountAmount.GetOr(0)
                        && r.value.totalAmountAfterDiscount == input.totalAmountAfterDiscount.GetOr(0)
                        && r.value.deliveryCharge == input.deliveryCharge.GetOr(0)
    ensures r.Some? ==> r.value.createdAt == now && r.value.updatedAt == now
    ensures r.Some? ==> r.value.user == input.user.value && r.value.userContactNumber == input.userContactNumber.value
                        && r.value.totalAmount == input.totalAmount.value
                        && r.value.shippingAddress == input.shippingAddress.value
    ensures r.Some? ==> |r.value.items| == |input.items| && r.value.prescriptionsUrls == input.prescriptionsUrls
  {
    if !Acceptable(input) then None
    else
      var status := ParseStatus(input.status.GetOr("pending"));
      var payment := ParsePaymentMethod(input.paymentMethod.value);
      var paid := ParsePaymentStatus(input.paymentStatus.GetOr("pending"));
      assert status.Some? && payment.Some? && paid.Some?;
      LowerIdempotent(input.zone.value);
      Some(Order(input.user.value, input.userContactNumber.value, CastItems(input.items),
                 input.totalAmount.value, status.value, now, now, input.shippingAddress.value,
                 Lower(input.zone.value), payment.value, paid.value, input.prescriptionsUrls,
                 input.discountPercentage.GetOr(0), input.discountAmount.GetOr(0),
                 input.totalAmountAfterDiscount.GetOr(0), input.deliveryCharge.GetOr(0)))
  }

  // ---------------------------------------------------------------------------
  // Properties
  // ---------------------------------------------------------------------------

  /** Each enumeration's names are distinct and read back to their value. */
  lemma StatusRoundTrip(x: Status)
    ensures ParseStatus(x.Name()) == Some(x)
  {
  }

  lemma PaymentMethodRoundTrip(x: PaymentMethod)
    ensures ParsePaymentMethod(x.Name()) == Some(x)
  {
  }

  lemma PaymentStatusRoundTrip(x: PaymentStatus)
    ensures ParsePaymentStatus(x.Name()) == Some(x)
  {
  }

  /** An order created with no status, payment status or amounts takes the
      schema's defaults. */
  lemma Defaults(input: OrderInput, now: nat)
    requires Acceptable(input)
    requires input.status.None? && input.paymentStatus.None? && input.discountPercentage.None?
    ensures var o := Create(input, now).value;
            o.status == Pending && o.paymentStatus == Unpaid && o.discountPercentage == 0
  {
    var o := Create(input, now).value;
    StatusRoundTrip(o.status);
    PaymentStatusRoundTrip(o.paymentStatus);
  }
}

=== FILE: product_model.dfy ===
/** The product schema: a lower-cased, trimmed name; required price,
    quantity and description; optional trimmed composition and
    manufacturer; a list of image URLs; three flags, two of them defaulted. */
module ProductModel {
  import opened Wrappers
  import opened Text

  datatype Product = Product(
    name: string,
    price: int,
    composition: Option<string>,
    quantity: int,
    description: string,
    category: Option<string>,
    imageUrls: seq<string>,
    manufacturer: Option<string>,
    isAvailable: bool,
    isPrescriptionNecessary: Option<bool>,
    isFeatured: bool)

  /** Every path holds what its setters produce. */
  predicate Normalised(p: Product) {
    && Canonical(p.name)
    && Trim(p.description) == p.description
    && (p.composition.Some? ==> Trim(p.composition.value) == p.composition.value)
    && (p.manufacturer.Some? ==> Trim(p.manufacturer.value) == p.manufacturer.value)
  }

  /** The `required` validators of the string paths (the numeric ones only
      refuse `undefined`, which the datatype already rules out). */
  predicate Valid(p: Product) {
    p.name != "" && p.description != ""
  }

  /** The fields `new Product({...})` is given; absent ones are `undefined`. */
  datatype ProductInput = ProductInput(
    name: Option<string>,
    price: Option<int>,
    composition: Option<string>,
    quantity: Option<int>,
    description: Option<string>,
    category: Option<string>,
    imageUrls: seq<string>,
    manufacturer: Option<string>,
    isAvailable: Option<bool>,
    isPrescriptionNecessary: Option<bool>,
    isFeatured: Option<bool>)

  /** What validation accepts: name and description non-blank, price and
      quantity present. */
  predicate Acceptable(input: ProductInput) {
    && input.name.Some? && !AllSpace(input.name.value)
    && input.price.Some?
    && input.quantity.Some?
    && input.description.Some? && !AllSpace(input.description.value)
  }

  /** `new Product(input)` followed by validation: setters, then defaults
      (`isAvailable` true, `isFeatured` false, `isPrescriptionNecessary`
      none), then the validators. */
  function Create(input: ProductInput): (r: Option<Product>)
    ensures r.Some? <==> Acceptable(input)
    ensures r.Some? ==> Valid(r.value) && Normalised(r.value)
    ensures r.Some? ==> r.value.isAvailable == input.isAvailable.GetOr(true)
                        && r.value.isFeatured == input.isFeatured.GetOr(false)
                        && r.value.isPrescriptionNecessary == input.isPrescriptionNecessary
    ensures r.Some? ==> r.value.name == TrimLower(input.name.value)
                        && r.value.description == Trim(input.description.value)
                        && r.value.price == input.price.value && r.value.quantity == input.quantity.value
    ensures r.Some? ==> r.value.imageUrls == input.imageUrls && r.value.category == input.category
    ensures r.Some? ==> (r.value.manufacturer.Some? <==> input.manufacturer.Some?)
                        && (r.value.composition.Some? <==> input.composition.Some?)
    ensures r.Some? && input.manufacturer.Some? ==> r.value.manufacturer.value == Trim(input.manufacturer.value)
    ensures r.Some? && input.composition.Some? ==> r.value.composition.value == Trim(input.composition.value)
  {
    if !Acceptable(input) then None
    else
      var description := Trim(input.description.value);
      TrimIdempotent(input.description.value);
      assert description != "";
      Some(Product(TrimLower(input.name.value), input.price.value, TrimSome(input.composition),
                   input.quantity.value, description, input.category, input.imageUrls,
                   TrimSome(input.manufacturer), input.isAvailable.GetOr(true),
                   input.isPrescriptionNecessary, input.isFeatured.GetOr(false)))
  }

  /** The trim setter of an optional path. */
  function TrimSome(s: Option<string>): (r: Option<string>)
    ensures r.Some? <==> s.Some?
    ensures r.Some? ==> r.value == Trim(s.value) && Trim(r.value) == r.value
  {
    match s
    case None => None
    case Some(v) => TrimIdempotent(v); Some(Trim(v))
  }
}

=== FILE: product_routes.dfy ===
/** The product router. Adding validates the body in a fixed order, uploads
    the files in order and stores their public URLs with the product;
    updating uploads the new files, merges their URLs into the body and
    applies the body to the stored document without validation; deleting
    removes the product's images as far as it can and then the product.
    The products and the storage bucket together form the state. */
module ProductRoutes {
  import opened Wrappers
  import opened Text
  import opened Storage
  import opened ProductModel

  const NameRequired: string := "Name is required"
  const PriceRequired: string := "Price is required"
  const PriceTooLow: string := "Price must be greater than 0"
  const QuantityRequired: string := "Quantity is required"
  const QuantityTooLow: string := "Quantity must be greater than 0"
  const DescriptionRequired: string := "Description is required"
  const CategoryRequired: string := "Category is required"
  const ManufacturerRequired: string := "Manufacturer is required"
  const ProductAdded: string := "Product added successfully"
  const ProductNotFound: string := "Product not found"
  const ProductUpdated: string := "Product updated successfully"
  const ProductDeleted: string := "Product and associated images deleted successfully"

  /** The message of the validation error a refused save throws; the catch
      block answers 500 with it. */
  const InvalidProduct: string := "Product validation failed"

  type Products = map<string, Product>

  datatype Catalogue = Catalogue(products: Products, bucket: Bucket)

  datatype ProductBody = ProductBody(
    name: Option<string>,
    price: Option<int>,
    quantity: Option<int>,
    description: Option<string>,
    category: Option<string>,
    manufacturer: Option<string>,
    isAvailable: Option<bool>,
    isPrescriptionNecessary: Option<bool>,
    isFeatured: Option<bool>)

  /** What the add route's checks accept. */
  predicate Eligible(body: ProductBody) {
    && Given(body.name)
    && GivenNum(body.price) && body.price.value >= 1
    && GivenNum(body.quantity) && body.quantity.value >= 1
    && Given(body.description)
    && Given(body.category)
    && Given(body.manufacturer)
  }

  /** The add route's checks, first failure wins: name, price presence,
      price at least 1, quantity presence, quantity at least 1, description,
      category, manufacturer. */
  function CheckProduct(body: ProductBody): (r: Outcome)
    ensures r.Pass? <==> Eligible(body)
    ensures r.Fail? ==> r.status == 400
    ensures !Given(body.name) ==> r == Fail(400, NameRequired)
    ensures Given(body.name) && !GivenNum(body.price) ==> r == Fail(400, PriceRequired)
    ensures Given(body.name) && GivenNum(body.price) && body.price.value < 1 ==> r == Fail(400, PriceTooLow)
    ensures r == Fail(400, QuantityRequired) <==>
              Given(body.name) && GivenNum(body.price) && body.price.value >= 1 && !GivenNum(body.quantity)
    ensures r == Fail(400, QuantityTooLow) <==>
              Given(body.name) && GivenNum(body.price) && body.price.value >= 1
              && GivenNum(body.quantity) && body.quantity.value < 1
    ensures r == Fail(400, DescriptionRequired) <==>
              Given(body.name) && GivenNum(body.price) && body.price.value >= 1
              && GivenNum(body.quantity) && body.quantity.value >= 1 && !Given(body.description)
    ensures r == Fail(400, CategoryRequired) <==>
              Given(body.name) && GivenNum(body.price) && body.price.value >= 1
              && GivenNum(body.quantity) && body.quantity.value >= 1
              && Given(body.description) && !Given(body.category)
    ensures r == Fail(400, ManufacturerRequired) <==>
              Given(body.name) && GivenNum(body.price) && body.price.value >= 1
              && GivenNum(body.quantity) && body.quantity.value >= 1
              && Given(body.description) && Given(body.category) && !Given(body.manufacturer)
  {
    if !Given(body.name) then Fail(400, NameRequired)
    else if !GivenNum(body.price) then Fail(400, PriceRequired)
    else if body.price.value < 1 then Fail(400, PriceTooLow)
    else if !GivenNum(body.quantity) then Fail(400, QuantityRequired)
    else if body.quantity.value < 1 then Fail(400, QuantityTooLow)
    else if !Given(body.description) then Fail(400, DescriptionRequired)
    else if !Given(body.category) then Fail(400, CategoryRequired)
    else if !Given(body.manufacturer) then Fail(400, ManufacturerRequired)
    else Pass
  }

  /** The document the add route builds: the route passes no composition. */
  function AddInput(body: ProductBody, imageUrls: seq<string>): ProductInput {
    ProductInput(body.name, body.price, None, body.quantity, body.description, body.category,
                 imageUrls, body.manufacturer, body.isAvailable, body.isPrescriptionNecessary,
                 body.isFeatured)
  }

  /** What the schema's validators ask of a body that passed the route's
      checks: a name and description that are not blank. */
  predicate Savable(body: ProductBody) {
    && body.name.Some? && !AllSpace(body.name.value)
    && body.description.Some? && !AllSpace(body.description.value)
  }

  /** The document the add route stores for a body and the URLs of its
      uploaded images. */
  function Saved(body: ProductBody, urls: seq<string>): (p: Product)
    requires Eligible(body) && Savable(body)
    ensures Valid(p) && Normalised(p)
    ensures p.name == TrimLower(body.name.value) && p.description == Trim(body.description.value)
    ensures p.price == body.price.value >= 1 && p.quantity == body.quantity.value >= 1
    ensures p.imageUrls == urls && p.category == body.category && p.composition == None
    ensures p.isAvailable == body.isAvailable.GetOr(true) && p.isFeatured == body.isFeatured.GetOr(false)
    ensures p.isPrescriptionNecessary == body.isPrescriptionNecessary
    ensures p.manufacturer.Some? <==> body.manufacturer.Some?
    ensures body.manufacturer.Some? ==> p.manufacturer.value == Trim(body.manufacturer.value)
  {
    Create(AddInput(body, urls)).value
  }

  /** `POST /add-product`: the checks, then the uploads (in order), then the
      save under a fresh id. A save the validators refuse answers 500 after
      the files were uploaded. */
  function AddProduct(c: Catalogue, id: string, body: ProductBody, files: seq<Upload>): (r: Reply<Catalogue>)
    requires id !in c.products
    ensures !Eligible(body) ==> r.status == 400 && r.state == c && r.message == CheckProduct(body).message
    ensures Eligible(body) ==> r.state.bucket == UploadAll(c.bucket, files).0
    ensures r.status == 201 <==> Eligible(body) && Savable(body)
    ensures Eligible(body) && !Savable(body) ==>
              r == Reply(500, InvalidProduct, Catalogue(c.products, UploadAll(c.bucket, files).0))
    ensures r.status == 201 ==> r.state.products == c.products[id := Saved(body, UploadAll(c.bucket, files).1)]
  {
    match CheckProduct(body)
    case Fail(s, m) => Reply(s, m, c)
    case Pass =>
      var (bucket, urls) := UploadAll(c.bucket, files);
      if Savable(body) then Reply(201, ProductAdded, Catalogue(c.products[id := Saved(body, urls)], bucket))
      else Reply(500, InvalidProduct, Catalogue(c.products, bucket))
  }

  /** `GET /:id`. */
  function GetProduct(c: Catalogue, id: string): (r: Result<Product>)
    ensures r.Ok? <==> id in c.products
    ensures r.Ok? ==> r.value == c.products[id]
    ensures r.Err? ==> r == Err(404, ProductNotFound)
  {
    if id in c.products then Ok(c.products[id]) else Err(404, ProductNotFound)
  }

  /** The body of an update: any schema path, plus whatever image list the
      route writes under the key `imagesUrl`. */
  datatype ProductUpdate = ProductUpdate(
    name: Option<string>,
    price: Option<int>,
    composition: Option<string>,
    quantity: Option<int>,
    description: Option<string>,
    category: Option<string>,
    imageUrls: Option<seq<string>>,
    manufacturer: Option<string>,
    isAvailable: Option<bool>,
    isPrescriptionNecessary: Option<bool>,
    isFeatured: Option<bool>,
    imagesUrl: Option<seq<string>>)

  /** `findByIdAndUpdate` with the update's paths: each schema path present
      is assigned through its setter, no validator runs, and a key outside
      the schema (`imagesUrl`) is dropped by the strict schema. */
  function Apply(p: Product, u: ProductUpdate): (q: Product)
    ensures q.imageUrls == u.imageUrls.GetOr(p.imageUrls)
    ensures q.name == (if u.name.Some? then TrimLower(u.name.value) else p.name)
    ensures q.price == u.price.GetOr(p.price) && q.quantity == u.quantity.GetOr(p.quantity)
    ensures u == ProductUpdate(None, None, None, None, None, None, None, None, None, None, None, u.imagesUrl) ==> q == p
  {
    Product(
      if u.name.Some? then TrimLower(u.name.value) else p.name,
      u.price.GetOr(p.price),
      if u.composition.Some? then TrimSome(u.composition) else p.composition,
      u.quantity.GetOr(p.quantity),
      if u.description.Some? then Trim(u.description.value) else p.description,
      if u.category.Some? then u.category else p.category,
      u.imageUrls.GetOr(p.imageUrls),
      if u.manufacturer.Some? then TrimSome(u.manufacturer) else p.manufacturer,
      u.isAvailable.GetOr(p.isAvailable),
      if u.isPrescriptionNecessary.Some? then u.isPrescriptionNecessary else p.isPrescriptionNecessary,
      u.isFeatured.GetOr(p.isFeatured))
  }

  /** Under which key the update route writes the merged image list. */
  datatype ImageKey = Misspelt | SchemaPath

  /** The update body after the uploads: with files, the list already under
      the key plus the new URLs in upload order is written under the key. */
  function WithUploads(u: ProductUpdate, urls: seq<string>, key: ImageKey): (v: ProductUpdate)
    ensures |urls| == 0 ==> v == u
    ensures |urls| > 0 && key == Misspelt ==> v == u.(imagesUrl := Some(u.imagesUrl.GetOr([]) + urls))
    ensures |urls| > 0 && key == SchemaPath ==> v == u.(imageUrls := Some(u.imageUrls.GetOr([]) + urls))
  {
    if |urls| == 0 then u
    else match key
      case Misspelt => u.(imagesUrl := Some(u.imagesUrl.GetOr([]) + urls))
      case SchemaPath => u.(imageUrls := Some(u.imageUrls.GetOr([]) + urls))
  }

  /** `PUT /:id` writing the image list under `key`: uploads first, then the
      update; an unknown id answers 404 after the files were uploaded. */
  function UpdateWith(c: Catalogue, id: string, u: ProductUpdate, files: seq<Upload>, key: ImageKey)
    : (r: Reply<Catalogue>)
    ensures r.state.bucket == UploadAll(c.bucket, files).0
    ensures r.status == 200 <==> id in c.products
    ensures r.status != 200 ==> r == Reply(404, ProductNotFound, r.state) && r.state.products == c.products
    ensures r.status == 200 ==> id in r.state.products
                                && r.state.products[id] == Apply(c.products[id], WithUploads(u, UploadAll(c.bucket, files).1, key))
    ensures r.status == 200 ==> r.state.products.Keys == c.products.Keys
                                && forall k :: k in c.products && k != id ==> r.state.products[k] == c.products[k]
  {
    var (bucket, urls) := UploadAll(c.bucket, files);
    var update := WithUploads(u, urls, key);
    if id !in c.products then Reply(404, ProductNotFound, Catalogue(c.products, bucket))
    else Reply(200, ProductUpdated, Catalogue(c.products[id := Apply(c.products[id], update)], bucket))
  }

  /** `PUT /:id` as written: the merged list goes under `imagesUrl`. */
  function UpdateProductAsWritten(c: Catalogue, id: string, u: ProductUpdate, files: seq<Upload>)
    : (r: Reply<Catalogue>)
    ensures r.status == 200 <==> id in c.products
    ensures r.status == 200 ==> id in r.state.products
                                && r.state.products[id].imageUrls == u.imageUrls.GetOr(c.products[id].imageUrls)
  {
    UpdateWith(c, id, u, files, Misspelt)
  }

  /** `PUT /:id` with the merged list under the schema's `imageUrls`. */
  function UpdateProduct(c: Catalogue, id: string, u: ProductUpdate, files: seq<Upload>): (r: Reply<Catalogue>)
    ensures r.status == 200 <==> id in c.products
    ensures r.status == 200 ==> id in r.state.products
    ensures r.status == 200 && |files| > 0 ==>
              r.state.products[id].imageUrls == u.imageUrls.GetOr([]) + UploadAll(c.bucket, files).1
    ensures r.status == 200 && |files| == 0 ==>
              r.state.products[id].imageUrls == u.imageUrls.GetOr(c.products[id].imageUrls)
  {
    UpdateWith(c, id, u, files, SchemaPath)
  }

  /** The objects the URLs name (an empty path names none). */
  function Paths(urls: seq<string>): set<string> {
    set i | 0 <= i < |urls| && ExtractPath(urls[i]) != "" :: ExtractPath(urls[i])
  }

  /** The image deletions of the delete route: each URL's object is deleted
      if it can be, and a failure is logged and skipped. */
  function DeleteImages(bucket: Bucket, urls: seq<string>): (b: Bucket)
    ensures b.name == bucket.name
    ensures b.objects == bucket.objects - Paths(urls)
    decreases |urls|
  {
    if |urls| == 0 then bucket
    else
      var first := match DeleteByUrl(bucket, urls[0])
        case Done(after) => after
        case Threw(_) => bucket;
      var head := Paths([urls[0]]);
      assert head == if ExtractPath(urls[0]) != "" then {ExtractPath(urls[0])} else {} by {
        assert [urls[0]][0] == urls[0];
      }
      assert first.objects == bucket.objects - head;
      var rest := DeleteImages(first, urls[1..]);
      assert Paths(urls) == head + Paths(urls[1..]) by {
        forall x | x in Paths(urls) ensures x in head + Paths(urls[1..]) {
          var i :| 0 <= i < |urls| && ExtractPath(urls[i]) != "" && x == ExtractPath(urls[i]);
          if i > 0 { assert urls[1..][i - 1] == urls[i]; }
        }
        forall x | x in Paths(urls[1..]) ensures x in Paths(urls) {
          var i :| 0 <= i < |urls[1..]| && ExtractPath(urls[1..][i]) != "" && x == ExtractPath(urls[1..][i]);
          assert urls[1..][i] == urls[i + 1];
        }
      }
      rest
  }

  /** `DELETE /:id`: an unknown id is 404 before any image is touched;
      otherwise the images are deleted as far as possible and the product
      removed in every case. */
  function DeleteProduct(c: Catalogue, id: string): (r: Reply<Catalogue>)
    ensures id !in c.products <==> r == Reply(404, ProductNotFound, c)
    ensures id in c.products ==> r.status == 200 && r.message == ProductDeleted
    ensures id in c.products ==> r.state.products.Keys == c.products.Keys - {id}
                                 && (forall k :: k in r.state.products ==> r.state.products[k] == c.products[k])
    ensures id in c.products ==> r.state.bucket.objects == c.bucket.objects - Paths(c.products[id].imageUrls)
  {
    if id !in c.products then Reply(404, ProductNotFound, c)
    else
      var bucket := DeleteImages(c.bucket, c.products[id].imageUrls);
      Reply(200, ProductDeleted, Catalogue(c.products - {id}, bucket))
  }

  // ---------------------------------------------------------------------------
  // Properties
  // ---------------------------------------------------------------------------

  /** Price and quantity both pass their range check exactly when they are
      at least 1: 0 is reported as missing, not as too low. */
  lemma ZeroPriceIsMissing(body: ProductBody)
    requires Given(body.name) && body.price == Some(0)
    ensures CheckProduct(body) == Fail(400, PriceRequired)
  {
  }

  /** The update as written records none of the files it uploads: with no
      `imageUrls` in the body the stored list is unchanged, although the
      bucket now holds the new objects. */
  lemma UpdateAsWrittenLosesUploads(c: Catalogue, id: string, u: ProductUpdate, files: seq<Upload>)
    requires id in c.products && u.imageUrls.None? && |files| > 0
    ensures var r := UpdateProductAsWritten(c, id, u, files);
            && r.status == 200
            && r.state.products[id].imageUrls == c.products[id].imageUrls
            && r.state.bucket.objects == c.bucket.objects + UploadedNames(files)
  {
  }

  /** With the list under the schema path, every uploaded file's URL is
      recorded, after the body's own list, in upload order. */
  lemma UpdateRecordsUploads(c: Catalogue, id: string, u: ProductUpdate, files: seq<Upload>)
    requires id in c.products && |files| > 0
    ensures var r := UpdateProduct(c, id, u, files);
            var urls := r.state.products[id].imageUrls;
            var n := |u.imageUrls.GetOr([])|;
            && |urls| == n + |files|
            && forall i :: 0 <= i < |files| ==>
                 urls[n + i] == PublicUrl(c.bucket.name, ObjectName(None, files[i].at, files[i].originalName))
  {
  }

  /** A product's images are all deleted when every URL still names an
      object: the delete leaves none of them behind. */
  lemma DeleteRemovesImages(c: Catalogue, id: string)
    requires id in c.products
    ensures forall i :: 0 <= i < |c.products[id].imageUrls| && ExtractPath(c.products[id].imageUrls[i]) != "" ==>
              ExtractPath(c.products[id].imageUrls[i]) !in DeleteProduct(c, id).state.bucket.objects
  {
    var urls := c.products[id].imageUrls;
    forall i | 0 <= i < |urls| && ExtractPath(urls[i]) != "" ensures ExtractPath(urls[i]) in Paths(urls) { }
  }

  /** A product added with images and then deleted leaves the bucket without
      the objects of its upload, provided the bucket name has no "/" and the
      file names are URL-safe. */
  lemma AddThenDeleteCleansBucket(c: Catalogue, id: string, body: ProductBody, files: seq<Upload>)
    requires id !in c.products && NoSlash(c.bucket.name)
    requires forall i :: 0 <= i < |files| ==> UrlSafe(files[i].originalName)
    requires AddProduct(c, id, body, files).status == 201
    ensures UploadedNames(files) !! DeleteProduct(AddProduct(c, id, body, files).state, id).state.bucket.objects
  {
    var added := AddProduct(c, id, body, files).state;
    var urls := added.products[id].imageUrls;
    forall n | n in UploadedNames(files) ensures n in Paths(urls) {
      var i :| 0 <= i < |files| && n == ObjectName(None, files[i].at, files[i].originalName);
      ObjectNameSegments(files[i].at, files[i].originalName);
      ExtractPublicUrl(c.bucket.name, n);
      assert ExtractPath(urls[i]) == n;
    }
  }
}

=== FILE: profiles.dfy ===
/** The profile-update whitelist shared by the user, vendor and admin
    routers: the body's keys must all be allowed, and then exactly the keys
    present are assigned. */
module Profiles {
  import opened Wrappers
  import opened Addresses

  const InvalidUpdates: string := "Invalid updates"

  /** A profile-update body: `keys` is `Object.keys(req.body)`; the other
      fields hold the values of the whitelisted keys that may be present. */
  datatype ProfileBody = ProfileBody(
    keys: set<string>,
    firstName: string,
    lastName: string,
    phoneNumber: string,
    businessName: string,
    address: AddressInput)

  /** `Object.keys(req.body).every(k => availableUpdates.includes(k))`. A
      failure answers "Invalid updates" without setting an error status. */
  function CheckKeys(body: ProfileBody, allowed: set<string>): (r: Outcome)
    ensures r.Pass? <==> body.keys <= allowed
    ensures r.Fail? ==> r == Fail(200, InvalidUpdates)
  {
    if body.keys <= allowed then Pass else Fail(200, InvalidUpdates)
  }

  /** The value a profile field takes: the body's, normalised by the schema's
      setter, when the key is present, the stored one otherwise. */
  function Pick<T>(body: ProfileBody, key: string, supplied: T, current: T): T {
    if key in body.keys then supplied else current
  }
}

=== FILE: sessions.dfy ===
/** Session tokens kept on every account document (`tokens: [{ token }]`).
    Issuing appends one token; logging out filters the presented token out.
    A request authenticates when the token it presents is in the list. */
module Sessions {
  import opened Wrappers

  /** The authentication middlewares accept a token exactly when the
      account's token list holds it. */
  predicate Authenticates(tokens: seq<string>, token: string) {
    token in tokens
  }

  /** `generateAuthToken`'s list update: a signed token is appended after the
      existing ones and returned; when signing throws, the error is logged,
      nothing is appended and `undefined` is returned. */
  function Issue(tokens: seq<string>, signed: Option<string>): (r: (seq<string>, Option<string>))
    ensures r.1 == signed
    ensures |r.0| == |tokens| + (if signed.Some? then 1 else 0)
    ensures r.0[..|tokens|] == tokens
    ensures signed.Some? ==> Authenticates(r.0, signed.value)
    ensures forall t :: Authenticates(r.0, t) <==> Authenticates(tokens, t) || signed == Some(t)
  {
    match signed
    case None => (tokens, None)
    case Some(t) => (tokens + [t], Some(t))
  }

  /** Logout's `tokens.filter(t => t.token !== req.token)`. */
  function Revoke(tokens: seq<string>, token: string): (r: seq<string>)
    ensures !Authenticates(r, token)
    ensures forall t :: t != token ==> (Authenticates(r, t) <==> Authenticates(tokens, t))
  {
    if |tokens| == 0 then []
    else
      var rest := Revoke(tokens[1..], token);
      assert tokens == [tokens[0]] + tokens[1..];
      if tokens[0] == token then rest
      else
        assert forall t :: Authenticates([tokens[0]] + rest, t) <==> t == tokens[0] || Authenticates(rest, t);
        [tokens[0]] + rest
  }

  /** The filter keeps the surviving tokens in their original order: it
      distributes over concatenation. */
  lemma {:induction false} RevokeConcat(a: seq<string>, b: seq<string>, token: string)
    ensures Revoke(a + b, token) == Revoke(a, token) + Revoke(b, token)
  {
    var ab := a + b;
    if |a| > 0 {
      RevokeConcat(a[1..], b, token);
      assert ab[0] == a[0] && ab[1..] == a[1..] + b;
      if a[0] != token {
        assert Revoke(ab, token) == [a[0]] + Revoke(a[1..] + b, token);
        assert Revoke(a, token) == [a[0]] + Revoke(a[1..], token);
      }
    } else {
      assert ab == b;
    }
  }

  /** Every occurrence of the presented token goes, and every other token
      keeps its number of occurrences. */
  lemma {:induction false} RevokeCounts(tokens: seq<string>, token: string)
    ensures multiset(Revoke(tokens, token)) == multiset(tokens)[token := 0]
  {
    if |tokens| > 0 {
      var head, tail := tokens[0], tokens[1..];
      RevokeCounts(tail, token);
      assert tokens == [head] + tail;
      var whole, rest := multiset(tokens), multiset(tail);
      assert whole == multiset{head} + rest;
      if head == token {
        assert whole[token := 0] == rest[token := 0];
      } else {
        var kept := Revoke(tail, token);
        assert Revoke(tokens, token) == [head] + kept;
        assert multiset([head] + kept) == multiset{head} + multiset(kept);
        assert whole[token := 0] == multiset{head} + rest[token := 0];
      }
    }
  }

  /** A token that is not in the list leaves it untouched. */
  lemma {:induction false} RevokeAbsent(tokens: seq<string>, token: string)
    requires !Authenticates(tokens, token)
    ensures Revoke(tokens, token) == tokens
  {
    if |tokens| > 0 {
      RevokeAbsent(tokens[1..], token);
      assert tokens == [tokens[0]] + tokens[1..];
    }
  }

  /** Logging out twice with the same token changes nothing the second time. */
  lemma RevokeIdempotent(tokens: seq<string>, token: string)
    ensures Revoke(Revoke(tokens, token), token) == Revoke(tokens, token)
  {
    RevokeAbsent(Revoke(tokens, token), token);
  }

  /** Logging out with a token just issued removes it again and keeps the
      older tokens, in order, minus any earlier copy of it. */
  lemma RevokeIssued(tokens: seq<string>, token: string)
    ensures Revoke(Issue(tokens, Some(token)).0, token) == Revoke(tokens, token)
  {
    RevokeConcat(tokens, [token], token);
    assert Revoke([token], token) == [];
  }
}

=== FILE: storage.dfy ===
/** The object-storage helpers: the object name and public URL of an uploaded
    file, and the extraction of an object path from such a URL when the file
    is deleted. The bucket is a set of object names; writing the bytes, making
    them public and the transport are not modelled. */
module Storage {
  import opened Wrappers
  import opened Text

  const Scheme: string := "https:"
  const Domain: string := "storage.googleapis.com"

  /** "https://storage.googleapis.com/", the prefix of every public URL. */
  const Host: string := Scheme + "//" + Domain + "/"
  const DefaultDirectory: string := "products"
  const DeleteFailed: string := "Error deleting file from Firebase"

  /** A file received by the upload middleware, with the clock reading
      (`Date.now()`, in milliseconds) taken when it is uploaded. */
  datatype Upload = Upload(originalName: string, at: nat)

  datatype Bucket = Bucket(name: string, objects: set<string>)

  /** What a storage helper does: complete with a value, or throw an error
      carrying a message. */
  datatype Attempt<+T> = Done(value: T) | Threw(message: string)

  predicate NoSlash(s: string) {
    '/' !in s
  }

  /** A file name whose public URL, once `decodeURIComponent` has undone
      the percent-escapes `url.format` adds, names the uploaded object again:
      no "/" (an extra segment), no backslash (the URL parser turns it into "/"),
      no "%" (read as an escape when decoding) and no whitespace at the end
      (the URL parser trims it). The other characters the parser escapes,
      such as a space or a quote, are decoded back and need no exclusion. */
  predicate UrlSafe(name: string) {
    NoSlash(name) && '\\' !in name && '%' !in name && (|name| == 0 || !IsSpace(name[|name| - 1]))
  }

  /** The "/"-separated segments of an object name or URL. */
  function Segments(s: string): seq<string> {
    Split(s, '/')
  }

  /** `${directory}/${Date.now()}-${file.originalname}`, the directory
      defaulting to "products" when the caller passes none. */
  function ObjectName(directory: Option<string>, at: nat, originalName: string): string {
    directory.GetOr(DefaultDirectory) + "/" + Decimal(at) + "-" + originalName
  }

  /** The public URL recorded for an uploaded object. */
  function PublicUrl(bucketName: string, objectName: string): string {
    Host + bucketName + "/" + objectName
  }

  /** `splice(4, 5)`: the segments from index 4 on, at most five of them. */
  function Window(parts: seq<string>): (w: seq<string>)
    ensures |parts| <= 4 ==> w == []
    ensures 4 < |parts| <= 9 ==> w == parts[4..]
    ensures 9 < |parts| ==> w == parts[4..9]
  {
    var start := if |parts| < 4 then |parts| else 4;
    var rest := parts[start..];
    if |rest| <= 5 then rest else rest[..5]
  }

  /** `imageUrl.split("/").splice(4, 5).join("/")`. */
  function ExtractPath(url: string): string {
    Join(Window(Segments(url)), '/')
  }

  /** Upload one file: the object is written under its generated name and
      its public URL is returned. */
  function UploadFile(bucket: Bucket, file: Upload, directory: Option<string>): (r: (Bucket, string))
    ensures r.0.name == bucket.name
    ensures r.0.objects == bucket.objects + {ObjectName(directory, file.at, file.originalName)}
    ensures r.1 == PublicUrl(bucket.name, ObjectName(directory, file.at, file.originalName))
  {
    var objectName := ObjectName(directory, file.at, file.originalName);
    (bucket.(objects := bucket.objects + {objectName}), PublicUrl(bucket.name, objectName))
  }

  /** The object names the default-directory uploads of `files` create. */
  function UploadedNames(files: seq<Upload>): set<string> {
    set i | 0 <= i < |files| :: ObjectName(None, files[i].at, files[i].originalName)
  }

  /** Upload `files` one after the other into the default directory: one URL
      per file, in upload order, each naming the object written for it. */
  function UploadAll(bucket: Bucket, files: seq<Upload>): (r: (Bucket, seq<string>))
    ensures r.0.name == bucket.name
    ensures r.0.objects == bucket.objects + UploadedNames(files)
    ensures |r.1| == |files|
    ensures forall i :: 0 <= i < |files| ==>
              r.1[i] == PublicUrl(bucket.name, ObjectName(None, files[i].at, files[i].originalName))
    decreases |files|
  {
    if |files| == 0 then (bucket, [])
    else
      var (b1, url) := UploadFile(bucket, files[0], None);
      var (b2, urls) := UploadAll(b1, files[1..]);
      assert UploadedNames(files) == {ObjectName(None, files[0].at, files[0].originalName)} + UploadedNames(files[1..]) by {
        forall n | n in UploadedNames(files)
          ensures n in {ObjectName(None, files[0].at, files[0].originalName)} + UploadedNames(files[1..])
        {
          var i :| 0 <= i < |files| && n == ObjectName(None, files[i].at, files[i].originalName);
          if i > 0 {
            assert files[1..][i - 1] == files[i];
          }
        }
        forall n | n in UploadedNames(files[1..])
          ensures n in UploadedNames(files)
        {
          var i :| 0 <= i < |files[1..]| && n == ObjectName(None, files[1..][i].at, files[1..][i].originalName);
          assert files[1..][i] == files[i + 1];
        }
      }
      (b2, [url] + urls)
  }

  /** Delete the object a public URL names. An empty extracted path fails
      with "Invalid file URL" and a missing object fails in the storage
      client; either failure is re-thrown with one generic message. */
  function DeleteByUrl(bucket: Bucket, url: string): (r: Attempt<Bucket>)
    ensures r.Threw? <==> ExtractPath(url) == "" || ExtractPath(url) !in bucket.objects
    ensures r.Threw? ==> r.message == DeleteFailed
    ensures r.Done? ==> r.value.name == bucket.name
    ensures r.Done? ==> r.value.objects == bucket.objects - {ExtractPath(url)}
  {
    var path := ExtractPath(url);
    if path == "" then Threw(DeleteFailed)
    else if path !in bucket.objects then Threw(DeleteFailed)
    else Done(bucket.(objects := bucket.objects - {path}))
  }

  // ---------------------------------------------------------------------------
  // Properties
  // ---------------------------------------------------------------------------

  /** A separator-free first segment is split off on its own. */
  lemma LeadingSegment(x: string, rest: string)
    requires NoSlash(x)
    ensures Segments(x + ['/'] + rest) == [x] + Segments(rest)
  {
    SplitConcat(x, rest, '/');
    SplitWithoutSeparator(x, '/');
  }

  /** Three separator-free segments, an empty one, and then an arbitrary tail. */
  lemma PrefixSegments(scheme: string, domain: string, bucketName: string, objectName: string)
    requires NoSlash(scheme) && NoSlash(domain) && NoSlash(bucketName)
    ensures Segments(scheme + "//" + domain + "/" + bucketName + "/" + objectName)
         == [scheme, "", domain, bucketName] + Segments(objectName)
  {
    var s1 := bucketName + ['/'] + objectName;
    LeadingSegment(bucketName, objectName);
    var s2 := domain + ['/'] + s1;
    LeadingSegment(domain, s1);
    var s3 := "" + ['/'] + s2;
    LeadingSegment("", s2);
    var s4 := scheme + ['/'] + s3;
    LeadingSegment(scheme, s3);
    assert scheme + "//" + domain + "/" + bucketName + "/" + objectName == s4;
  }

  /** The segments of a public URL are the four fixed leading ones (scheme,
      the empty segment of "//", host, bucket) followed by those of the object. */
  lemma UrlSegments(bucketName: string, objectName: string)
    requires NoSlash(bucketName)
    ensures Segments(PublicUrl(bucketName, objectName))
         == [Scheme, "", Domain, bucketName] + Segments(objectName)
  {
    PrefixSegments(Scheme, Domain, bucketName, objectName);
  }

  /** Round trip: deleting by the URL recorded at upload targets the uploaded
      object, provided the bucket name has no "/" and the object name has at
      most five segments. */
  lemma ExtractPublicUrl(bucketName: string, objectName: string)
    requires NoSlash(bucketName)
    requires |Segments(objectName)| <= 5
    ensures ExtractPath(PublicUrl(bucketName, objectName)) == objectName
  {
    UrlSegments(bucketName, objectName);
    var fixed := [Scheme, "", Domain, bucketName];
    assert (fixed + Segments(objectName))[4..] == Segments(objectName);
    JoinSplit(objectName, '/');
  }

  /** Object names with more than five segments come back truncated to
      their first five. */
  lemma ExtractTruncates(bucketName: string, objectName: string)
    requires NoSlash(bucketName)
    requires |Segments(objectName)| > 5
    ensures ExtractPath(PublicUrl(bucketName, objectName)) == Join(Segments(objectName)[..5], '/')
    ensures ExtractPath(PublicUrl(bucketName, objectName)) != objectName
  {
    UrlSegments(bucketName, objectName);
    var fixed := [Scheme, "", Domain, bucketName];
    var parts := Segments(objectName);
    assert (fixed + parts)[4..9] == parts[..5];
    var got := Join(parts[..5], '/');
    if got == objectName {
      SplitJoin(parts[..5], '/');
      assert false;
    }
  }

  /** A URL with at most four segments yields an empty path, so deleting by
      it always throws. */
  lemma ShortUrlCannotBeDeleted(bucket: Bucket, url: string)
    requires |Segments(url)| <= 4
    ensures DeleteByUrl(bucket, url) == Threw(DeleteFailed)
  {
  }

  /** A default-directory object name has exactly two segments when the
      uploaded file's name has no "/". */
  lemma ObjectNameSegments(at: nat, originalName: string)
    requires NoSlash(originalName)
    ensures Segments(ObjectName(None, at, originalName))
         == [DefaultDirectory, Decimal(at) + "-" + originalName]
  {
    var digits := Decimal(at);
    var stamp := digits + "-" + originalName;
    assert ObjectName(None, at, originalName) == DefaultDirectory + "/" + stamp;
    assert '/' !in digits by {
      forall i | 0 <= i < |digits| ensures digits[i] != '/' {
        assert IsDigit(digits[i]);
      }
    }
    assert '/' !in stamp by {
      forall i | 0 <= i < |stamp| ensures stamp[i] != '/' {
        if i < |digits| {
          assert stamp[i] == digits[i];
        } else if i > |digits| {
          assert stamp[i] == originalName[i - |digits| - 1];
        }
      }
    }
    SplitConcat(DefaultDirectory, stamp, '/');
    SplitWithoutSeparator(DefaultDirectory, '/');
    SplitWithoutSeparator(stamp, '/');
  }

  /** Every image a product upload records under a URL-safe file name can
      later be deleted by its URL: the extracted path is exactly the object
      that was written. */
  lemma UploadedImageIsDeletable(bucket: Bucket, file: Upload)
    requires NoSlash(bucket.name)
    requires UrlSafe(file.originalName)
    ensures var (b, url) := UploadFile(bucket, file, None);
            DeleteByUrl(b, url) == Done(bucket.(objects := b.objects - {ObjectName(None, file.at, file.originalName)}))
  {
    ObjectNameSegments(file.at, file.originalName);
    ExtractPublicUrl(bucket.name, ObjectName(None, file.at, file.originalName));
  }
}

=== FILE: text.dfy ===
/** String operations the JavaScript code relies on: `toLowerCase` (on
    ASCII letters), `trim`, `split`/`join` on one separator character, and the
    decimal rendering of a number inside a template string. */
module Text {

  // ---------------------------------------------------------------------------
  // Lower case (the schemas' `lowercase: true`)
  // ---------------------------------------------------------------------------

  predicate IsUpper(c: char) {
    'A' <= c <= 'Z'
  }

  function LowerChar(c: char): (d: char)
    ensures !IsUpper(d)
  {
    if IsUpper(c) then (c as int + 32) as char else c
  }

  /** ASCII `toLowerCase`: every upper-case letter is replaced, every other
      character is kept, and the length does not change. */
  function Lower(s: string): (r: string)
    ensures |r| == |s|
    ensures forall i :: 0 <= i < |s| ==> r[i] == LowerChar(s[i])
  {
    seq(|s|, i requires 0 <= i < |s| => LowerChar(s[i]))
  }

  predicate IsLower(s: string) {
    forall i :: 0 <= i < |s| ==> !IsUpper(s[i])
  }

  lemma LowerIdempotent(s: string)
    ensures IsLower(Lower(s))
    ensures Lower(Lower(s)) == Lower(s)
  {
  }

  // ---------------------------------------------------------------------------
  // Trimming (the schemas' `trim: true`)
  // ---------------------------------------------------------------------------

  /** The characters `trim` removes: ECMAScript's WhiteSpace (tab, vertical
      tab, form feed, space, no-break space, the byte order mark and the
      other space separators) and LineTerminator (line feed, carriage return,
      line and paragraph separators). */
  predicate IsSpace(c: char) {
    || c == '\t' || c == '\n' || c == '\U{000B}' || c == '\U{000C}' || c == '\r' || c == ' '
    || c == '\U{00A0}' || c == '\U{1680}' || '\U{2000}' <= c <= '\U{200A}'
    || c == '\U{2028}' || c == '\U{2029}' || c == '\U{202F}' || c == '\U{205F}'
    || c == '\U{3000}' || c == '\U{FEFF}'
  }

  /** The two ASCII controls an ASCII-only whitespace test would keep are
      trimmed: `"\vabc"` is stored as `"abc"`, and `"\f"` alone is blank. */
  lemma ControlSpacesTrimmed()
    ensures Trim("\U{000B}abc") == "abc"
    ensures AllSpace("\U{000C}")
  {
    var s := "\U{000B}abc";
    assert LeadingSpaces(s) == 1 by {
      assert LeadingSpaces(s[1..]) == 0 by { assert !IsSpace(s[1]); }
    }
    assert s[1..] == "abc";
    assert TrailingEnd("abc") == 3 by { assert !IsSpace("abc"[2]); }
  }

  predicate AllSpace(s: string) {
    forall i :: 0 <= i < |s| ==> IsSpace(s[i])
  }

  /** The number of whitespace characters that start `s`. */
  function LeadingSpaces(s: string): (k: nat)
    ensures k <= |s|
    ensures forall i :: 0 <= i < k ==> IsSpace(s[i])
    ensures k < |s| ==> !IsSpace(s[k])
  {
    if |s| == 0 || !IsSpace(s[0]) then 0 else 1 + LeadingSpaces(s[1..])
  }

  /** The length of `s` without the whitespace that ends it. */
  function TrailingEnd(s: string): (k: nat)
    ensures k <= |s|
    ensures forall i :: k <= i < |s| ==> IsSpace(s[i])
    ensures 0 < k ==> !IsSpace(s[k - 1])
  {
    if |s| == 0 || !IsSpace(s[|s| - 1]) then |s| else TrailingEnd(s[..|s| - 1])
  }

  /** `trim`: whitespace removed from both ends. The result is blank only
      for an all-whitespace input; `TrimShape` states what exactly is kept. */
  function Trim(s: string): (r: string)
    ensures |r| <= |s|
    ensures r == "" <==> AllSpace(s)
  {
    var t := s[LeadingSpaces(s)..];
    assert AllSpace(s) ==> TrailingEnd(t) == 0;
    t[..TrailingEnd(t)]
  }

  /** The trimmed string is the longest infix of `s` that neither starts
      nor ends with whitespace: only whitespace is removed, from both ends. */
  lemma TrimShape(s: string)
    ensures LeadingSpaces(s) + |Trim(s)| <= |s|
    ensures Trim(s) == s[LeadingSpaces(s)..LeadingSpaces(s) + |Trim(s)|]
    ensures AllSpace(s[LeadingSpaces(s) + |Trim(s)|..])
    ensures Trim(s) == "" || (!IsSpace(Trim(s)[0]) && !IsSpace(Trim(s)[|Trim(s)| - 1]))
  {
  }

  lemma TrimIdempotent(s: string)
    ensures Trim(Trim(s)) == Trim(s)
  {
    var r := Trim(s);
    TrimShape(s);
    assert LeadingSpaces(r) == 0;
    assert TrailingEnd(r) == |r|;
  }

  lemma SpaceOfLower(c: char)
    ensures IsSpace(LowerChar(c)) <==> IsSpace(c)
  {
  }

  lemma LowerSlice(s: string, i: nat, j: nat)
    requires i <= j <= |s|
    ensures Lower(s)[i..j] == Lower(s[i..j])
  {
    var whole, part := Lower(s), Lower(s[i..j]);
    assert |whole[i..j]| == |part|;
    forall k | 0 <= k < j - i
      ensures whole[i..j][k] == part[k]
    {
      assert whole[i + k] == LowerChar(s[i + k]);
      assert part[k] == LowerChar(s[i..j][k]);
    }
  }

  lemma LeadingSpacesOfLower(s: string)
    ensures LeadingSpaces(Lower(s)) == LeadingSpaces(s)
  {
    var a, b := LeadingSpaces(s), LeadingSpaces(Lower(s));
    if a < b {
      SpaceOfLower(s[a]);
    } else if b < a {
      SpaceOfLower(s[b]);
    }
  }

  lemma TrailingEndOfLower(s: string)
    ensures TrailingEnd(Lower(s)) == TrailingEnd(s)
  {
    var a, b := TrailingEnd(s), TrailingEnd(Lower(s));
    if a < b {
      SpaceOfLower(s[b - 1]);
    } else if b < a {
      SpaceOfLower(s[a - 1]);
    }
  }

  /** Trimming and lower-casing commute, so the order in which a schema
      applies `trim` and `lowercase` does not matter. */
  lemma TrimLowerCommute(s: string)
    ensures Trim(Lower(s)) == Lower(Trim(s))
  {
    var a := LeadingSpaces(s);
    var t := s[a..];
    var b := TrailingEnd(t);
    LeadingSpacesOfLower(s);
    LowerSlice(s, a, |s|);
    assert Lower(s)[a..] == Lower(t);
    TrailingEndOfLower(t);
    LowerSlice(t, 0, b);
    assert Trim(Lower(s)) == Lower(t)[..b];
    assert Lower(Trim(s)) == Lower(t[..b]);
  }

  /** A value a `trim` + `lowercase` setter leaves as it is. */
  predicate Canonical(s: string) {
    IsLower(s) && Trim(s) == s
  }

  /** The setter of a schema path declared with `trim: true, lowercase: true`. */
  function TrimLower(s: string): (r: string)
    ensures Canonical(r)
    ensures r == "" <==> AllSpace(s)
  {
    var t := Trim(s);
    LowerIdempotent(t);
    TrimLowerCommute(t);
    TrimIdempotent(s);
    Lower(t)
  }

  /** The setter changes nothing on a value it produced. */
  lemma TrimLowerFixes(s: string)
    requires Canonical(s)
    ensures TrimLower(s) == s
  {
    assert Lower(s) == s;
  }

  // ---------------------------------------------------------------------------
  // split / join on one separator character
  // ---------------------------------------------------------------------------

  /** `s.split(sep)`: the maximal separator-free pieces of `s`, in order;
      there is always at least one piece ("".split("/") is [""]). */
  function Split(s: string, sep: char): (parts: seq<string>)
    ensures |parts| >= 1
    ensures forall i :: 0 <= i < |parts| ==> sep !in parts[i]
  {
    if |s| == 0 then [""]
    else if s[0] == sep then [""] + Split(s[1..], sep)
    else
      var rest := Split(s[1..], sep);
      [[s[0]] + rest[0]] + rest[1..]
  }

  /** `parts.join(sep)`; the empty list joins to "". */
  function Join(parts: seq<string>, sep: char): string {
    if |parts| == 0 then ""
    else if |parts| == 1 then parts[0]
    else parts[0] + [sep] + Join(parts[1..], sep)
  }

  lemma {:induction false} JoinSplit(s: string, sep: char)
    ensures Join(Split(s, sep), sep) == s
    decreases |s|
  {
    if |s| == 0 {
    } else if s[0] == sep {
      JoinSplit(s[1..], sep);
      assert s == [sep] + s[1..];
    } else {
      JoinSplit(s[1..], sep);
      var rest := Split(s[1..], sep);
      assert s == [s[0]] + s[1..];
      if |rest| > 1 {
        assert rest == [rest[0]] + rest[1..];
      }
    }
  }

  lemma SplitWithoutSeparator(x: string, sep: char)
    requires sep !in x
    ensures Split(x, sep) == [x]
    decreases |x|
  {
    if |x| > 0 {
      SplitWithoutSeparator(x[1..], sep);
      assert x == [x[0]] + x[1..];
    }
  }

  /** Splitting distributes over a separator: the pieces of `x + sep + y` are
      the pieces of `x` followed by the pieces of `y`. */
  lemma {:induction false} SplitConcat(x: string, y: string, sep: char)
    ensures Split(x + [sep] + y, sep) == Split(x, sep) + Split(y, sep)
    decreases |x|
  {
    var s := x + [sep] + y;
    if |x| == 0 {
      assert s == [sep] + y;
      assert s[1..] == y;
    } else {
      assert s[0] == x[0];
      assert s[1..] == x[1..] + [sep] + y;
      SplitConcat(x[1..], y, sep);
    }
  }

  /** Joining separator-free pieces and splitting again gives the pieces back. */
  lemma {:induction false} SplitJoin(parts: seq<string>, sep: char)
    requires |parts| >= 1
    requires forall i :: 0 <= i < |parts| ==> sep !in parts[i]
    ensures Split(Join(parts, sep), sep) == parts
    decreases |parts|
  {
    if |parts| == 1 {
      SplitWithoutSeparator(parts[0], sep);
    } else {
      SplitJoin(parts[1..], sep);
      SplitConcat(parts[0], Join(parts[1..], sep), sep);
      SplitWithoutSeparator(parts[0], sep);
      assert parts == [parts[0]] + parts[1..];
    }
  }

  // ---------------------------------------------------------------------------
  // Decimal rendering of a natural number (`${Date.now()}`)
  // ---------------------------------------------------------------------------

  predicate IsDigit(c: char) {
    '0' <= c <= '9'
  }

  function Digit(d: nat): (c: char)
    requires d < 10
    ensures IsDigit(c)
  {
    ('0' as int + d) as char
  }

  /** The shortest decimal numeral of `n`. */
  function Decimal(n: nat): (r: string)
    ensures |r| >= 1
    ensures forall i :: 0 <= i < |r| ==> IsDigit(r[i])
  {
    if n < 10 then [Digit(n)] else Decimal(n / 10) + [Digit(n % 10)]
  }

  /** The number a string of digits denotes. */
  function Value(digits: string): nat
    requires forall i :: 0 <= i < |digits| ==> IsDigit(digits[i])
  {
    if |digits| == 0 then 0
    else
      var last := digits[|digits| - 1];
      assert IsDigit(last);
      Value(digits[..|digits| - 1]) * 10 + (last as int - '0' as int)
  }

  /** Decimal rendering loses nothing: reading the numeral back gives `n`. */
  lemma {:induction false} ValueDecimal(n: nat)
    ensures Value(Decimal(n)) == n
  {
    if n >= 10 {
      ValueDecimal(n / 10);
      var r := Decimal(n);
      assert r[..|r| - 1] == Decimal(n / 10);
    }
  }
}

=== FILE: user_model.dfy ===
/** The single user collection: one base schema whose `userType` path is the
    discriminator between the Admin, Vendor and GeneralUser variants. Names
    and email are trimmed and lower-cased, the phone number is trimmed, and
    email and phone number each carry a unique index. */
module UserModel {
  import opened Wrappers
  import opened Text
  import opened Sessions
  import opened Credentials
  import opened Addresses

  const UserTypes: set<string> := {"Admin", "Vendor", "GeneralUser"}
  const DefaultRole: string := "admin"

  datatype VerificationStatus = Pending | Verified | Rejected

  /** The discriminated variants and the paths each one adds. */
  datatype Kind =
    | AdminKind(role: string)
    | VendorKind(businessName: string, verificationStatus: VerificationStatus, address: Option<Address>)
    | GeneralKind(address: Option<Address>, alternativePhoneNumber: Option<string>)

  datatype User = User(
    firstName: string,
    lastName: string,
    email: string,
    phoneNumber: string,
    password: Credential,
    tokens: seq<string>,
    kind: Kind)

  /** The discriminator value stored in `userType`. */
  function UserType(u: User): (t: string)
    ensures t in UserTypes
    ensures t == "Admin" <==> u.kind.AdminKind?
    ensures t == "Vendor" <==> u.kind.VendorKind?
    ensures t == "GeneralUser" <==> u.kind.GeneralKind?
  {
    match u.kind
    case AdminKind(_) => "Admin"
    case VendorKind(_, _, _) => "Vendor"
    case GeneralKind(_, _) => "GeneralUser"
  }

  /** Every path holds what its setters produce. */
  predicate Normalised(u: User) {
    && Canonical(u.firstName)
    && Canonical(u.lastName)
    && Canonical(u.email)
    && Trim(u.phoneNumber) == u.phoneNumber
    && match u.kind
       case AdminKind(_) => true
       case VendorKind(b, _, a) => Trim(b) == b && (a.Some? ==> Addresses.Normalised(a.value))
       case GeneralKind(a, alt) =>
         (a.Some? ==> Addresses.Normalised(a.value)) && (alt.Some? ==> Trim(alt.value) == alt.value)
  }

  /** The `required` validators of the text paths: a save of a document that
      breaks one fails. The password's is left to the routes, which refuse a
      blank password before assigning one. */
  predicate Valid(u: User) {
    && u.firstName != ""
    && u.lastName != ""
    && u.email != ""
    && u.phoneNumber != ""
    && match u.kind
       case AdminKind(role) => role != ""
       case VendorKind(b, _, _) => b != ""
       case GeneralKind(_, _) => true
  }

  /** The two unique indexes of the collection. */
  predicate UniqueContacts(users: seq<User>) {
    forall i, j :: 0 <= i < j < |users| ==>
      users[i].email != users[j].email && users[i].phoneNumber != users[j].phoneNumber
  }

  /** A document a save accepted: valid and normalised. */
  predicate Sound(u: User) {
    Valid(u) && Normalised(u)
  }

  /** What every stored user satisfies. */
  predicate Stored(users: seq<User>) {
    UniqueContacts(users) && forall i {:trigger Sound(users[i])} :: 0 <= i < |users| ==> Sound(users[i])
  }

  /** A new document of the given variant, built through the setters; it has
      no tokens yet and its password is still to be hashed. */
  function NewUser(firstName: string, lastName: string, email: string, phoneNumber: string,
                   password: string, kind: Kind): (u: User)
    requires kind.VendorKind? ==> Trim(kind.businessName) == kind.businessName
    requires kind.VendorKind? && kind.address.Some? ==> Addresses.Normalised(kind.address.value)
    requires kind.GeneralKind? && kind.address.Some? ==> Addresses.Normalised(kind.address.value)
    requires kind.GeneralKind? && kind.alternativePhoneNumber.Some?
             ==> Trim(kind.alternativePhoneNumber.value) == kind.alternativePhoneNumber.value
    ensures Normalised(u)
    ensures u.tokens == [] && u.password == Assign(password) && u.kind == kind
    ensures u.firstName == TrimLower(firstName) && u.lastName == TrimLower(lastName)
    ensures u.email == TrimLower(email) && u.phoneNumber == Trim(phoneNumber)
  {
    TrimIdempotent(phoneNumber);
    User(TrimLower(firstName), TrimLower(lastName), TrimLower(email), Trim(phoneNumber),
         Assign(password), [], kind)
  }

  /** The Admin variant: `role` defaults to "admin". */
  function NewAdmin(firstName: string, lastName: string, email: string, phoneNumber: string,
                    password: string): (u: User)
    ensures UserType(u) == "Admin" && u.kind.role == DefaultRole
    ensures Normalised(u) && u.tokens == []
  {
    NewUser(firstName, lastName, email, phoneNumber, password, AdminKind(DefaultRole))
  }

  /** The Vendor variant: `businessName` is trimmed and `verificationStatus`
      defaults to pending. */
  function NewVendor(firstName: string, lastName: string, email: string, phoneNumber: string,
                     password: string, businessName: string, address: Option<Address>): (u: User)
    requires address.Some? ==> Addresses.Normalised(address.value)
    ensures UserType(u) == "Vendor" && u.kind.verificationStatus == Pending
    ensures u.kind.businessName == Trim(businessName)
    ensures Normalised(u) && u.tokens == []
  {
    TrimIdempotent(businessName);
    NewUser(firstName, lastName, email, phoneNumber, password,
            VendorKind(Trim(businessName), Pending, address))
  }

  /** Saving runs the password hook. */
  function Save(u: User, hash: string -> string): User {
    u.(password := OnSave(u.password, hash))
  }

  /** `generateAuthToken`: the signed token is appended after the existing
      ones and the document saved; when signing or saving throws, the error
      is logged, the stored document is unchanged and `undefined` returned. */
  function GenerateAuthToken(u: User, signed: Option<string>, hash: string -> string): (r: (User, Option<string>))
    ensures r.0 == u.(tokens := r.0.tokens, password := r.0.password)
    ensures signed.None? || !Valid(u) ==> r == (u, None)
    ensures signed.Some? && Valid(u) ==> r.1 == signed
    ensures signed.Some? && Valid(u) ==>
              r.0 == u.(tokens := u.tokens + [signed.value], password := OnSave(u.password, hash))
  {
    var (tokens, token) := Issue(u.tokens, signed);
    if token.None? || !Valid(u) then (u, None)
    else (Save(u.(tokens := tokens), hash), token)
  }

  /** A token issued to a valid document authenticates it afterwards, and
      every token that did before still does. */
  lemma IssuedTokenAuthenticates(u: User, token: string, hash: string -> string)
    requires Valid(u)
    ensures var (saved, t) := GenerateAuthToken(u, Some(token), hash);
            t == Some(token) && Authenticates(saved.tokens, token)
            && forall t0 :: Authenticates(u.tokens, t0) ==> Authenticates(saved.tokens, t0)
  {
  }

  /** Validity and normal form do not depend on the password or the tokens. */
  lemma SoundIgnoresCredentials(u: User, w: User)
    requires Sound(u) && w == u.(tokens := w.tokens, password := w.password)
    ensures Sound(w)
  {
  }

  /** `RegularUser.findOne({ email })`: the discriminator model only sees
      documents whose `userType` is "GeneralUser". */
  function FindGeneral(users: seq<User>, email: string): (r: Option<nat>)
    ensures r.Some? ==> r.value < |users| && users[r.value].email == email && users[r.value].kind.GeneralKind?
    ensures r.None? <==> forall k :: 0 <= k < |users| ==> !(users[k].kind.GeneralKind? && users[k].email == email)
  {
    FindFirst(users, (u: User) => u.kind.GeneralKind? && u.email == email)
  }

  /** Replacing one document by a sound one that keeps its email and takes
      a phone number no other document holds keeps the collection stored. */
  lemma ReplaceKeepsStored(users: seq<User>, me: nat, s: seq<User>)
    requires me < |users| == |s| && Stored(users) && Sound(s[me])
    requires s[me].email == users[me].email
    requires forall j :: 0 <= j < |users| && j != me ==> s[j] == users[j]
    requires forall j :: 0 <= j < |users| && j != me ==> users[j].phoneNumber != s[me].phoneNumber
    ensures Stored(s)
  {
    forall i | 0 <= i < |s|
      ensures Sound(s[i])
    {
      if i != me {
        assert s[i] == users[i] && Sound(users[i]);
      }
    }
    forall i, j | 0 <= i < j < |s|
      ensures s[i].email != s[j].email && s[i].phoneNumber != s[j].phoneNumber
    {
      if i != me && j != me {
        assert s[i] == users[i] && s[j] == users[j];
      } else if i == me {
        assert s[j] == users[j];
      } else {
        assert s[i] == users[i];
      }
    }
  }

}

=== FILE: user_routes.dfy ===
/** The general-user router: register, login, profile update, password
    change and logout. The three last routes run behind the authentication
    middleware, which looks the token up in the whole user collection and so
    may hand the handler an admin or a vendor document; each of those routes
    therefore first refuses any document whose `userType` is not
    "GeneralUser".

    The router imports a `GeneralUser` model that the model file does not
    export (it exports the variant as `RegularUser`). Every use of it throws a
    TypeError: `RegisterAsWritten` and `LoginAsWritten` model that, while
    `Register` and `Login` model the routes with the variant model they
    evidently meant. */
module UserRoutes {
  import opened Wrappers
  import opened Text
  import opened Sessions
  import opened Credentials
  import opened Addresses
  import opened Profiles
  import opened Accounts
  import opened UserModel

  const Unauthorized: string := "Unauthorized!!! Only user has this permission"
  const InvalidEmail: string := "Invalid email"
  const InvalidPassword: string := "Invalid password"

  /** The message of the TypeError a use of the missing model throws. */
  const MissingModel: string := "Cannot read properties of undefined (reading 'findOne')"

  /** The keys a user may send to the profile route. */
  const ProfileKeys: set<string> := {"firstName", "lastName", "phoneNumber", "address"}

  /** What the register route's body checks accept, independent of order. */
  predicate Eligible(body: Applicant, isEmail: string -> bool) {
    && NameAcceptable(body.firstName)
    && NameAcceptable(body.lastName)
    && Given(body.email)
    && isEmail(body.email.value)
    && PhoneAcceptable(body.phoneNumber)
    && PasswordAcceptable(body.password)
  }

  /** The register route's body checks in order: names, email present, email
      format, phone number, password. Unlike the vendor and admin routes,
      this one checks the password before looking anything up. */
  function CheckRegistration(body: Applicant, isEmail: string -> bool): (r: Outcome)
    ensures r.Pass? <==> Eligible(body, isEmail)
    ensures r.Fail? ==> r.status == 400
    ensures !NamesAcceptable(body) ==> r == CheckNames(body.firstName, body.lastName)
    ensures NamesAcceptable(body) && !Given(body.email) ==> r == Fail(400, EmailRequired)
    // the email's format is checked before the phone number
    ensures (NameAcceptable(body.firstName) && NameAcceptable(body.lastName) && Given(body.email)
             && !isEmail(body.email.value)) ==> r == Fail(400, InvalidEmailAddress)
    ensures NamesAcceptable(body) && Given(body.email) && isEmail(body.email.value)
            && !PhoneAcceptable(body.phoneNumber)
            ==> r == CheckPhone(body.phoneNumber)
    ensures NamesAcceptable(body) && Given(body.email) && isEmail(body.email.value)
            && PhoneAcceptable(body.phoneNumber) && !PasswordAcceptable(body.password)
            ==> r == CheckPassword(body.password)
  {
    CheckNames(body.firstName, body.lastName)
      .Then(CheckEmailGiven(body.email))
      .Then(CheckEmailFormat(TextOf(body.email), isEmail))
      .Then(CheckPhone(body.phoneNumber))
      .Then(CheckPassword(body.password))
  }

  /** `POST /register` as written: once the body checks pass, the lookup on
      the undefined model throws a TypeError; the catch block then reads
      `errorResponse.keyPattern` of that error, which throws again, so no
      reply is ever sent and nothing is stored. */
  function RegisterAsWritten(users: seq<User>, body: Applicant, isEmail: string -> bool)
    : (r: Result<Signed<seq<User>>>)
    ensures r.Err?
    ensures r.status == NoResponse <==> Eligible(body, isEmail)
    ensures !Eligible(body, isEmail) ==> r.status == 400
  {
    match CheckRegistration(body, isEmail)
    case Fail(s, m) => Err(s, m)
    case Pass => Err(NoResponse, MissingModel)
  }

  /** Whether some document of the whole collection, of any variant, holds
      the email or the phone number: the unique indexes span the collection. */
  predicate EmailInCollection(users: seq<User>, email: string) {
    exists k :: 0 <= k < |users| && users[k].email == email
  }

  predicate PhoneInCollection(users: seq<User>, phoneNumber: string) {
    exists k :: 0 <= k < |users| && users[k].phoneNumber == phoneNumber
  }

  /** Whether a general user holds the phone number: what the variant model's
      `findOne({ phoneNumber })` finds. */
  predicate PhoneOfGeneralUser(users: seq<User>, phoneNumber: string) {
    exists k :: 0 <= k < |users| && users[k].kind.GeneralKind? && users[k].phoneNumber == phoneNumber
  }

  /** `POST /register` with the variant model: after the body checks, the
      general users are searched for the email, then for the phone number;
      the save may still hit a unique index held by an admin or a vendor
      document, which the catch block reports by the index's key. The reply
      is 201. */
  function Register(users: seq<User>, body: Applicant, isEmail: string -> bool,
                    signed: Option<string>, hash: string -> string): (r: Result<Signed<seq<User>>>)
    ensures r.Ok? <==>
              && Eligible(body, isEmail)
              && !AllSpace(body.firstName.value) && !AllSpace(body.lastName.value)
              && !AllSpace(body.email.value) && !AllSpace(body.phoneNumber.value)
              && !EmailInCollection(users, TrimLower(body.email.value))
              && !PhoneInCollection(users, Trim(body.phoneNumber.value))
    ensures r.Ok? ==> |r.value.store| == |users| + 1 && r.value.store[..|users|] == users
    ensures r.Ok? ==> !EmailInCollection(users, TrimLower(body.email.value))
                      && !PhoneInCollection(users, Trim(body.phoneNumber.value))
    ensures r.Ok? ==>
              var u := r.value.store[|users|];
              && UserType(u) == "GeneralUser"
              && u.firstName == TrimLower(body.firstName.value) && u.lastName == TrimLower(body.lastName.value)
              && u.email == TrimLower(body.email.value)
              && u.phoneNumber == Trim(body.phoneNumber.value)
              && u.password == Credential(hash(body.password.value), false)
              && u.tokens == (if signed.Some? then [signed.value] else [])
              && r.value.token == signed
              && Sound(u)
    ensures CheckRegistration(body, isEmail).Fail? ==> r == Err(400, CheckRegistration(body, isEmail).message)
    ensures Eligible(body, isEmail) && FindGeneral(users, TrimLower(body.email.value)).Some?
            ==> r == Err(400, EmailExists)
    ensures Eligible(body, isEmail) && FindGeneral(users, TrimLower(body.email.value)).None?
            && PhoneOfGeneralUser(users, Trim(body.phoneNumber.value))
            ==> r == Err(400, PhoneExists)
    ensures Eligible(body, isEmail) && FindGeneral(users, TrimLower(body.email.value)).None?
            && !PhoneOfGeneralUser(users, Trim(body.phoneNumber.value))
            && (AllSpace(body.firstName.value) || AllSpace(body.lastName.value)
                || AllSpace(body.email.value) || AllSpace(body.phoneNumber.value))
            ==> r == Err(NoResponse, ValidationFailed)
    ensures r.Err? ==> r.status in {400, NoResponse}
  {
    match CheckRegistration(body, isEmail)
    case Fail(s, m) => Err(s, m)
    case Pass =>
      var email, phone := TrimLower(body.email.value), Trim(body.phoneNumber.value);
      if FindGeneral(users, email).Some? then Err(400, EmailExists)
      else if PhoneOfGeneralUser(users, phone) then Err(400, PhoneExists)
      else Enrol(users, body, signed, hash)
  }

  /** Registration once the lookups found nothing: the document is created
      and validated, a token generated (which saves it) and the document
      saved again. A validation error has no `errorResponse`, so the catch
      block throws; a duplicate key names its index. */
  function Enrol(users: seq<User>, body: Applicant, signed: Option<string>, hash: string -> string)
    : (r: Result<Signed<seq<User>>>)
    requires body.firstName.Some? && body.lastName.Some? && body.email.Some?
    requires body.phoneNumber.Some? && body.password.Some?
    ensures r.Err? ==> r in {Err(NoResponse, ValidationFailed), Err(400, EmailExists), Err(400, PhoneExists)}
    ensures r == Err(NoResponse, ValidationFailed) <==>
              AllSpace(body.firstName.value) || AllSpace(body.lastName.value) || AllSpace(body.email.value)
              || AllSpace(body.phoneNumber.value)
    ensures r == Err(400, EmailExists) <==>
              !AllSpace(body.firstName.value) && !AllSpace(body.lastName.value) && !AllSpace(body.email.value)
              && !AllSpace(body.phoneNumber.value) && EmailInCollection(users, TrimLower(body.email.value))
    ensures r == Err(400, PhoneExists) <==>
              !AllSpace(body.firstName.value) && !AllSpace(body.lastName.value) && !AllSpace(body.email.value)
              && !AllSpace(body.phoneNumber.value) && !EmailInCollection(users, TrimLower(body.email.value))
              && PhoneInCollection(users, Trim(body.phoneNumber.value))
    ensures r.Ok? ==> |r.value.store| == |users| + 1 && r.value.store[..|users|] == users
    ensures r.Ok? ==> !EmailInCollection(users, TrimLower(body.email.value))
                      && !PhoneInCollection(users, Trim(body.phoneNumber.value))
    ensures r.Ok? ==>
              var u := r.value.store[|users|];
              && u.kind == GeneralKind(None, None)
              && u.firstName == TrimLower(body.firstName.value) && u.lastName == TrimLower(body.lastName.value)
              && u.email == TrimLower(body.email.value)
              && u.phoneNumber == Trim(body.phoneNumber.value)
              && u.password == Credential(hash(body.password.value), false)
              && u.tokens == (if signed.Some? then [signed.value] else [])
              && r.value.token == signed
              && Sound(u)
  {
    var doc := NewUser(body.firstName.value, body.lastName.value, body.email.value,
                       body.phoneNumber.value, body.password.value, GeneralKind(None, None));
    if !Valid(doc) then Err(NoResponse, ValidationFailed)
    else if EmailInCollection(users, doc.email) then Err(400, EmailExists)
    else if PhoneInCollection(users, doc.phoneNumber) then Err(400, PhoneExists)
    else
      var (withToken, token) := GenerateAuthToken(doc, signed, hash);
      var u := Save(withToken, hash);
      SoundIgnoresCredentials(doc, u);
      Ok(Signed(users + [u], token))
  }

  /** A registration keeps the collection's stored documents sound and its
      contacts unique. */
  lemma RegisterKeepsStored(users: seq<User>, body: Applicant, isEmail: string -> bool,
                            signed: Option<string>, hash: string -> string)
    requires Stored(users)
    ensures var r := Register(users, body, isEmail, signed, hash);
            r.Ok? ==> Stored(r.value.store)
  {
    var r := Register(users, body, isEmail, signed, hash);
    if r.Ok? {
      var u := r.value.store[|users|];
      assert r.value.store == users + [u];
      AppendKeepsStored(users, u);
    }
  }

  /** A sound document whose contacts no document holds keeps the
      collection stored. */
  lemma AppendKeepsStored(users: seq<User>, u: User)
    requires Stored(users) && Sound(u)
    requires !EmailInCollection(users, u.email) && !PhoneInCollection(users, u.phoneNumber)
    ensures Stored(users + [u])
  {
    var s := users + [u];
    forall i | 0 <= i < |s|
      ensures Sound(s[i])
    {
      if i < |users| {
        assert s[i] == users[i] && Sound(users[i]);
      }
    }
    AppendKeepsUnique(users, u);
  }

  lemma AppendKeepsUnique(users: seq<User>, u: User)
    requires UniqueContacts(users)
    requires !EmailInCollection(users, u.email) && !PhoneInCollection(users, u.phoneNumber)
    ensures UniqueContacts(users + [u])
  {
    var s := users + [u];
    forall i, j | 0 <= i < j < |s|
      ensures s[i].email != s[j].email && s[i].phoneNumber != s[j].phoneNumber
    {
      if j < |users| {
        assert s[i] == users[i] && s[j] == users[j];
      } else {
        assert s[i] == users[i] && s[j] == u;
      }
    }
  }

  /** Every registration the intended route accepts, the route as written
      leaves unanswered. */
  lemma RegisterAsWrittenLosesEveryUser(users: seq<User>, body: Applicant, isEmail: string -> bool,
                                        signed: Option<string>, hash: string -> string)
    requires Register(users, body, isEmail, signed, hash).Ok?
    ensures RegisterAsWritten(users, body, isEmail) == Err(NoResponse, MissingModel)
  {
  }

  /** The applicant of the concrete registration below. */
  const Asha: Applicant := Applicant(Some("asha"), Some("khan"), Some("asha@example.com"),
                                     Some("9876543210"), Some("secret1"), None, None)

  /** A concrete registration: on an empty collection the intended route
      creates the account, the route as written does not answer. */
  lemma RegisterExample()
    ensures Register([], Asha, (e: string) => true, Some("t"), (p: string) => "h").Ok?
    ensures RegisterAsWritten([], Asha, (e: string) => true) == Err(NoResponse, MissingModel)
  {
    AshaEligible();
    AshaEnrols();
  }

  lemma AshaEligible()
    ensures CheckRegistration(Asha, (e: string) => true).Pass?
  {
    assert Eligible(Asha, (e: string) => true);
  }

  lemma AshaEnrols()
    ensures Enrol([], Asha, Some("t"), (p: string) => "h").Ok?
  {
    assert !AllSpace(Asha.firstName.value) by { assert !IsSpace(Asha.firstName.value[0]); }
    assert !AllSpace(Asha.lastName.value) by { assert !IsSpace(Asha.lastName.value[0]); }
    assert !AllSpace(Asha.email.value) by { assert !IsSpace(Asha.email.value[0]); }
    assert !AllSpace(Asha.phoneNumber.value) by { assert !IsSpace(Asha.phoneNumber.value[0]); }
    assert !EmailInCollection([], TrimLower(Asha.email.value));
    assert !PhoneInCollection([], Trim(Asha.phoneNumber.value));
  }

  /** `POST /login` as written: after the presence checks the lookup on the
      undefined model throws, and the catch block answers 500. */
  function LoginAsWritten(users: seq<User>, body: SignIn): (r: Result<Signed<seq<User>>>)
    ensures r.Err?
    ensures r == Err(500, MissingModel) <==> Given(body.email) && Given(body.password)
  {
    match CheckSignIn(body)
    case Fail(s, m) => Err(s, m)
    case Pass => Err(500, MissingModel)
  }

  /** `POST /login` with the variant model: presence checks, lookup of a
      general user by the normalised email, password comparison, then a
      token. */
  function Login(users: seq<User>, body: SignIn, verify: (string, string) -> bool,
                 signed: Option<string>, hash: string -> string): (r: Result<Signed<seq<User>>>)
    ensures CheckSignIn(body).Fail? ==> r == Err(400, CheckSignIn(body).message)
    ensures Given(body.email) && Given(body.password) && FindGeneral(users, TrimLower(body.email.value)).None?
            ==> r == Err(400, InvalidEmail)
    ensures Given(body.email) && Given(body.password)
            ==> var found := FindGeneral(users, TrimLower(body.email.value));
                found.Some? && !verify(body.password.value, users[found.value].password.value)
                ==> r == Err(400, InvalidPassword)
    ensures r.Ok? <==> Given(body.email) && Given(body.password)
                       && var found := FindGeneral(users, TrimLower(body.email.value));
                          found.Some? && verify(body.password.value, users[found.value].password.value)
    ensures r.Ok? ==> Given(body.email) && Given(body.password) && |r.value.store| == |users|
    ensures r.Ok? ==>
              var found := FindGeneral(users, TrimLower(body.email.value));
              && found.Some?
              && verify(body.password.value, users[found.value].password.value)
              && (forall k :: 0 <= k < |users| && k != found.value ==> r.value.store[k] == users[k])
              && (signed.Some? && Valid(users[found.value]) ==>
                    r.value.token == signed
                    && r.value.store[found.value].tokens == users[found.value].tokens + [signed.value]
                    && r.value.store[found.value]
                       == users[found.value].(tokens := users[found.value].tokens + [signed.value],
                                            password := OnSave(users[found.value].password, hash)))
              // a failed sign or save is swallowed: 200 with no token, nothing stored
              && (signed.None? ==> r.value == Signed(users, None))
              && (!Valid(users[found.value]) ==> r.value == Signed(users, None))
    ensures r.Err? ==> r.status == 400
  {
    match CheckSignIn(body)
    case Fail(s, m) => Err(s, m)
    case Pass =>
      match FindGeneral(users, TrimLower(body.email.value))
      case None => Err(400, InvalidEmail)
      case Some(i) =>
        if !verify(body.password.value, users[i].password.value) then Err(400, InvalidPassword)
        else
          var (doc, token) := GenerateAuthToken(users[i], signed, hash);
          if signed.None? || !Valid(users[i]) then
            assert doc == users[i] && users[i := doc] == users;
            Ok(Signed(users, None))
          else
            Ok(Signed(users[i := doc], token))
  }

  /** Every login the intended route answers with a session, the route as
      written answers with 500. */
  lemma LoginAsWrittenLosesEveryUser(users: seq<User>, body: SignIn, verify: (string, string) -> bool,
                                     signed: Option<string>, hash: string -> string)
    requires Login(users, body, verify, signed, hash).Ok?
    ensures LoginAsWritten(users, body) == Err(500, MissingModel)
  {
  }

  /** The variant gate of the authenticated routes. */
  function Gate(u: User): (r: Outcome)
    ensures r.Pass? <==> UserType(u) == "GeneralUser"
    ensures r.Fail? ==> r == Fail(401, Unauthorized)
  {
    if UserType(u) != "GeneralUser" then Fail(401, Unauthorized) else Pass
  }

  /** The profile fields after an update: each whitelisted key present in
      the body is assigned through its setter, every other field is kept. */
  predicate Applied(before: User, after: User, body: ProfileBody)
    requires before.kind.GeneralKind?
  {
    && after.firstName == (if "firstName" in body.keys then TrimLower(body.firstName) else before.firstName)
    && after.lastName == (if "lastName" in body.keys then TrimLower(body.lastName) else before.lastName)
    && after.phoneNumber == (if "phoneNumber" in body.keys then Trim(body.phoneNumber) else before.phoneNumber)
    && after.kind == GeneralKind(if "address" in body.keys then Cast(body.address) else before.kind.address,
                                 before.kind.alternativePhoneNumber)
    && after.email == before.email
    && after.password == before.password && after.tokens == before.tokens
  }

  /** The document after the body's keys are assigned; None when the address
      sent cannot be cast into the sub-document. */
  function Assigned(u: User, body: ProfileBody): (d: Option<User>)
    requires u.kind.GeneralKind?
    ensures d.Some? <==> "address" !in body.keys || Cast(body.address).Some?
    ensures d.Some? ==> Applied(u, d.value, body)
  {
    var address := if "address" in body.keys then Cast(body.address) else u.kind.address;
    if "address" in body.keys && address.None? then None
    else Some(u.(
      firstName := Pick(body, "firstName", TrimLower(body.firstName), u.firstName),
      lastName := Pick(body, "lastName", TrimLower(body.lastName), u.lastName),
      phoneNumber := Pick(body, "phoneNumber", Trim(body.phoneNumber), u.phoneNumber),
      kind := GeneralKind(address, u.kind.alternativePhoneNumber)))
  }

  /** `PUT /update-profile`. Only a general user passes the gate. A key
      outside the whitelist answers "Invalid updates" with status 200. A
      phone number any other document of the collection holds fails the
      unique index and answers 400. A document that fails validation makes
      the catch block throw, so nothing is answered. */
  function UpdateProfile(users: seq<User>, me: nat, body: ProfileBody): (r: Result<seq<User>>)
    requires me < |users|
    ensures UserType(users[me]) != "GeneralUser" ==> r == Err(401, Unauthorized)
    ensures UserType(users[me]) == "GeneralUser" && !(body.keys <= ProfileKeys) ==> r == Err(200, InvalidUpdates)
    ensures r.Ok? <==> UserType(users[me]) == "GeneralUser" && body.keys <= ProfileKeys
                       && Assigned(users[me], body).Some?
                       && var d := Assigned(users[me], body).value;
                          Valid(d) && forall j :: 0 <= j < |users| && j != me ==> users[j].phoneNumber != d.phoneNumber
    ensures r == Err(NoResponse, ValidationFailed) <==>
              UserType(users[me]) == "GeneralUser" && body.keys <= ProfileKeys
              && (Assigned(users[me], body).None? || !Valid(Assigned(users[me], body).value))
    ensures r == Err(400, PhoneExists) <==>
              UserType(users[me]) == "GeneralUser" && body.keys <= ProfileKeys
              && Assigned(users[me], body).Some?
              && var d := Assigned(users[me], body).value;
                 Valid(d) && exists j :: 0 <= j < |users| && j != me && users[j].phoneNumber == d.phoneNumber
    ensures r.Ok? ==> |r.value| == |users| && body.keys <= ProfileKeys && users[me].kind.GeneralKind?
    ensures r.Ok? ==> Valid(r.value[me]) && Applied(users[me], r.value[me], body)
    ensures r.Ok? ==> forall j :: 0 <= j < |users| && j != me ==> r.value[j] == users[j]
    ensures r.Ok? ==> forall j :: 0 <= j < |users| && j != me ==> users[j].phoneNumber != r.value[me].phoneNumber
    ensures r.Err? ==> r.status in {200, 400, 401, NoResponse}
  {
    match Gate(users[me]).Then(CheckKeys(body, ProfileKeys))
    case Fail(s, m) => Err(s, m)
    case Pass =>
      var doc := Assigned(users[me], body);
      if doc.None? || !Valid(doc.value) then Err(NoResponse, ValidationFailed)
      else if exists j :: 0 <= j < |users| && j != me && users[j].phoneNumber == doc.value.phoneNumber then
        Err(400, PhoneExists)
      else Ok(users[me := doc.value])
  }

  /** The setters keep a stored user normalised. */
  lemma AppliedNormalised(before: User, after: User, body: ProfileBody)
    requires before.kind.GeneralKind? && UserModel.Normalised(before) && Applied(before, after, body)
    ensures UserModel.Normalised(after)
  {
    TrimIdempotent(body.phoneNumber);
  }

  /** A profile update keeps every document sound and the collection's
      contacts unique. */
  lemma UpdateProfileKeepsStored(users: seq<User>, me: nat, body: ProfileBody)
    requires me < |users| && Stored(users)
    ensures var r := UpdateProfile(users, me, body);
            r.Ok? ==> Stored(r.value)
  {
    var r := UpdateProfile(users, me, body);
    if r.Ok? {
      var d := r.value[me];
      assert Sound(users[me]);
      AppliedNormalised(users[me], d, body);
      assert Sound(d);
      ReplaceKeepsStored(users, me, r.value);
    }
  }


  /** `PUT /change-password`: the gate, the shared rule order, then the new
      password is saved and hashed. Sessions survive the change. */
  function ChangePassword(users: seq<User>, me: nat, body: PasswordChange,
                          verify: (string, string) -> bool, hash: string -> string): (r: Result<seq<User>>)
    requires me < |users|
    ensures UserType(users[me]) != "GeneralUser" ==> r == Err(401, Unauthorized)
    ensures r.Ok? <==> UserType(users[me]) == "GeneralUser"
                       && AcceptableChange(body, users[me].password.value, verify) && Valid(users[me])
    ensures UserType(users[me]) == "GeneralUser" && !AcceptableChange(body, users[me].password.value, verify)
            ==> r == Err(400, CheckChange(body, users[me].password.value, verify).message)
    ensures r.Ok? ==> |r.value| == |users| && forall j :: 0 <= j < |users| && j != me ==> r.value[j] == users[j]
    ensures r.Ok? ==> r.value[me] == users[me].(password := Credential(hash(body.newPassword.value), false))
  {
    if Gate(users[me]).Fail? then Err(401, Unauthorized)
    else match Credentials.ChangePassword(users[me].password, body, verify, hash)
      case Err(s, m) => Err(s, m)
      case Ok(c) =>
        if !Valid(users[me]) then Err(500, ValidationFailed)
        else Ok(users[me := users[me].(password := c)])
  }

  /** `POST /logout`: the gate, then the presented token is filtered out of
      the user's tokens; every other token and every other document is kept. */
  function Logout(users: seq<User>, me: nat, token: string): (r: Result<seq<User>>)
    requires me < |users|
    ensures r.Err? <==> UserType(users[me]) != "GeneralUser"
    ensures r.Err? ==> r == Err(401, Unauthorized)
    ensures r.Ok? ==> |r.value| == |users| && forall j :: 0 <= j < |users| && j != me ==> r.value[j] == users[j]
    ensures r.Ok? ==> !Authenticates(r.value[me].tokens, token)
                      && r.value[me] == users[me].(tokens := Revoke(users[me].tokens, token))
  {
    match Gate(users[me])
    case Fail(s, m) => Err(s, m)
    case Pass => Ok(users[me := users[me].(tokens := Revoke(users[me].tokens, token))])
  }

  /** An admin or a vendor document that authenticates on these routes is
      refused by all three and nothing changes. */
  lemma GateRefusesOtherVariants(users: seq<User>, me: nat, profile: ProfileBody, change: PasswordChange,
                                 verify: (string, string) -> bool, hash: string -> string, token: string)
    requires me < |users| && !users[me].kind.GeneralKind?
    ensures UpdateProfile(users, me, profile) == Err(401, Unauthorized)
    ensures ChangePassword(users, me, change, verify, hash) == Err(401, Unauthorized)
    ensures Logout(users, me, token) == Err(401, Unauthorized)
  {
  }
}

=== FILE: vendor_model.dfy ===
/** The vendor collection. Names and the business name are trimmed (their
    case is kept), the email is trimmed and lower-cased, the phone number
    trimmed; email and phone number each carry a unique index; `userType`
    defaults to "vendor" and the address sub-document is optional. */
module VendorModel {
  import opened Wrappers
  import opened Text
  import opened Sessions
  import opened Credentials
  import opened Addresses

  const DefaultUserType: string := "vendor"

  datatype Vendor = Vendor(
    firstName: string,
    lastName: string,
    businessName: string,
    email: string,
    phoneNumber: string,
    userType: string,
    password: Credential,
    address: Option<Address>,
    tokens: seq<string>)

  /** Every path holds what its setters produce. */
  predicate Normalised(v: Vendor) {
    && Trim(v.firstName) == v.firstName
    && Trim(v.lastName) == v.lastName
    && Trim(v.businessName) == v.businessName
    && Canonical(v.email)
    && Trim(v.phoneNumber) == v.phoneNumber
    && (v.address.Some? ==> Addresses.Normalised(v.address.value))
  }

  /** The `required` validators of the text paths. The password's is left
      to the routes, which refuse a blank password before assigning one. */
  predicate Valid(v: Vendor) {
    v.firstName != "" && v.lastName != "" && v.businessName != ""
    && v.email != "" && v.phoneNumber != ""
  }

  /** The two unique indexes of the collection. */
  predicate UniqueContacts(vendors: seq<Vendor>) {
    forall i, j :: 0 <= i < j < |vendors| ==>
      vendors[i].email != vendors[j].email && vendors[i].phoneNumber != vendors[j].phoneNumber
  }

  /** A document a save accepted: valid and normalised. */
  predicate Sound(v: Vendor) {
    Valid(v) && Normalised(v)
  }

  /** What every stored vendor satisfies. */
  predicate Stored(vendors: seq<Vendor>) {
    UniqueContacts(vendors) && forall i {:trigger Sound(vendors[i])} :: 0 <= i < |vendors| ==> Sound(vendors[i])
  }

  /** `new Vendor({...})`: the setters run, `userType` is defaulted, there
      are no tokens yet and the password is still to be hashed. The document
      passes validation exactly when no required text is blank. */
  function New(firstName: string, lastName: string, businessName: string, email: string,
               phoneNumber: string, password: string, address: Option<Address>): (v: Vendor)
    requires address.Some? ==> Addresses.Normalised(address.value)
    ensures Normalised(v)
    ensures v.userType == DefaultUserType && v.tokens == [] && v.password == Assign(password)
    ensures v.address == address
    ensures v.email == TrimLower(email) && v.phoneNumber == Trim(phoneNumber)
    ensures v.firstName == Trim(firstName) && v.lastName == Trim(lastName)
    ensures v.businessName == Trim(businessName)
    ensures Valid(v) <==> !AllSpace(firstName) && !AllSpace(lastName) && !AllSpace(businessName)
                          && !AllSpace(email) && !AllSpace(phoneNumber)
  {
    var first, last, business := Trim(firstName), Trim(lastName), Trim(businessName);
    var mail, phone := TrimLower(email), Trim(phoneNumber);
    TrimIdempotent(firstName);
    TrimIdempotent(lastName);
    TrimIdempotent(businessName);
    TrimIdempotent(phoneNumber);
    assert first == "" <==> AllSpace(firstName);
    assert last == "" <==> AllSpace(lastName);
    assert business == "" <==> AllSpace(businessName);
    assert mail == "" <==> AllSpace(email);
    assert phone == "" <==> AllSpace(phoneNumber);
    Vendor(first, last, business, mail, phone, DefaultUserType, Assign(password), address, [])
  }

  /** Saving runs the password hook. */
  function Save(v: Vendor, hash: string -> string): Vendor
  {
    v.(password := OnSave(v.password, hash))
  }

  /** `generateAuthToken`: the signed token is appended and the document
      saved; when signing or saving throws, the error is logged, nothing is
      stored and `undefined` returned. */
  function GenerateAuthToken(v: Vendor, signed: Option<string>, hash: string -> string): (r: (Vendor, Option<string>))
    ensures r.0 == v.(tokens := r.0.tokens, password := r.0.password)
    ensures signed.None? || !Valid(v) ==> r == (v, None)
    ensures signed.Some? && Valid(v) ==>
              r.1 == signed && Authenticates(r.0.tokens, signed.value)
              && r.0 == v.(tokens := v.tokens + [signed.value], password := OnSave(v.password, hash))
  {
    var (tokens, token) := Issue(v.tokens, signed);
    if token.None? || !Valid(v) then (v, None)
    else (Save(v.(tokens := tokens), hash), token)
  }

  /** Validity and normal form do not depend on the password or the tokens. */
  lemma SoundIgnoresCredentials(v: Vendor, w: Vendor)
    requires Sound(v) && w == v.(tokens := w.tokens, password := w.password)
    ensures Sound(w)
  {
  }

  /** `Vendor.findOne({ email })`. */
  function FindByEmail(vendors: seq<Vendor>, email: string): (r: Option<nat>)
    ensures r.Some? ==> r.value < |vendors| && vendors[r.value].email == email
    ensures r.None? <==> forall k :: 0 <= k < |vendors| ==> vendors[k].email != email
  {
    FindFirst(vendors, (v: Vendor) => v.email == email)
  }

  /** Replacing one document by a sound one that keeps its email and takes
      a phone number no other document holds keeps the collection stored. */
  lemma ReplaceKeepsStored(vendors: seq<Vendor>, me: nat, s: seq<Vendor>)
    requires me < |vendors| == |s| && Stored(vendors) && Sound(s[me])
    requires s[me].email == vendors[me].email
    requires forall j :: 0 <= j < |vendors| && j != me ==> s[j] == vendors[j]
    requires forall j :: 0 <= j < |vendors| && j != me ==> vendors[j].phoneNumber != s[me].phoneNumber
    ensures Stored(s)
  {
    forall i | 0 <= i < |s|
      ensures Sound(s[i])
    {
      if i != me {
        assert s[i] == vendors[i] && Sound(vendors[i]);
      }
    }
    forall i, j | 0 <= i < j < |s|
      ensures s[i].email != s[j].email && s[i].phoneNumber != s[j].phoneNumber
    {
      if i != me && j != me {
        assert s[i] == vendors[i] && s[j] == vendors[j];
      } else if i == me {
        assert s[j] == vendors[j];
      } else {
        assert s[i] == vendors[i];
      }
    }
  }


  /** One more sound document keeps the collection stored when the contacts
      stay unique. */
  lemma AppendKeepsStored(vendors: seq<Vendor>, v: Vendor)
    requires Stored(vendors) && Sound(v) && UniqueContacts(vendors + [v])
    ensures Stored(vendors + [v])
  {
    var s := vendors + [v];
    forall i | 0 <= i < |s|
      ensures Sound(s[i])
    {
      if i < |vendors| {
        assert s[i] == vendors[i] && Sound(vendors[i]);
      }
    }
  }
}

=== FILE: vendor_routes.dfy ===
/** The vendor router: register, login, profile update, password change and
    logout. The three last routes run behind the vendor authentication
    middleware, which hands the handler the authenticated vendor: here the
    position `me` in the collection and the token it presented. */
module VendorRoutes {
  import opened Wrappers
  import opened Text
  import opened Sessions
  import opened Credentials
  import opened Addresses
  import opened Profiles
  import opened Accounts
  import opened VendorModel
  import AdminModel
  import opened Directory

  const BusinessNameRequired: string := "Bussiness name is required"
  const AddressRequired: string := "Address is required"
  const AddressIncomplete: string := "Address is incomplete"
  const InvalidEmail: string := "Invalid email"
  const InvalidPassword: string := "Invalid password"

  /** The keys a vendor may send to the profile route. */
  const ProfileKeys: set<string> := {"firstName", "lastName", "phoneNumber", "address", "businessName"}

  /** What the first four register checks accept: names, email present,
      phone number, business name. */
  predicate ContactsAcceptable(body: Applicant) {
    && NamesAcceptable(body)
    && Given(body.email)
    && PhoneAcceptable(body.phoneNumber)
    && Given(body.businessName)
  }

  /** What the register route's body checks accept, independent of order. */
  predicate Eligible(body: Applicant, isEmail: string -> bool) {
    && NameAcceptable(body.firstName)
    && NameAcceptable(body.lastName)
    && Given(body.email)
    && PhoneAcceptable(body.phoneNumber)
    && Given(body.businessName)
    && body.address.Some? && Complete(body.address.value)
    && isEmail(body.email.value)
  }

  /** The register route's body checks in order: names, email present, phone
      number, business name, address present and complete, email format. The
      email's format is checked last, after the address. */
  function CheckRegistration(body: Applicant, isEmail: string -> bool): (r: Outcome)
    ensures r.Pass? <==> Eligible(body, isEmail)
    ensures r.Fail? ==> r.status == 400
    ensures !ContactsAcceptable(body) ==> r == CheckContacts(body)
    ensures ContactsAcceptable(body) && !(body.address.Some? && Complete(body.address.value))
            ==> r == CheckAddress(body.address)
    ensures ContactsAcceptable(body) && body.address.Some? && Complete(body.address.value)
            && !isEmail(body.email.value)
            ==> r == Fail(400, InvalidEmailAddress)
    ensures r == Fail(400, InvalidEmailAddress)
            ==> Given(body.email) && !isEmail(body.email.value)
                && body.address.Some? && Complete(body.address.value)
    ensures NameAcceptable(body.firstName) && NameAcceptable(body.lastName) && Given(body.email)
            && PhoneAcceptable(body.phoneNumber) && Given(body.businessName) && body.address.None?
            ==> r == Fail(400, AddressRequired)
  {
    CheckContacts(body)
      .Then(CheckAddress(body.address))
      .Then(CheckEmailFormat(TextOf(body.email), isEmail))
  }

  /** The first four checks of the register route: names, email present,
      phone number, business name. */
  function CheckContacts(body: Applicant): (r: Outcome)
    ensures r.Pass? <==> NameAcceptable(body.firstName) && NameAcceptable(body.lastName) && Given(body.email)
                         && PhoneAcceptable(body.phoneNumber) && Given(body.businessName)
    ensures r.Fail? ==> r.status == 400
    ensures !NamesAcceptable(body) ==> r == CheckNames(body.firstName, body.lastName)
    ensures NamesAcceptable(body) && !Given(body.email) ==> r == Fail(400, EmailRequired)
    ensures NamesAcceptable(body) && Given(body.email) && !PhoneAcceptable(body.phoneNumber)
            ==> r == CheckPhone(body.phoneNumber)
    ensures NamesAcceptable(body) && Given(body.email) && PhoneAcceptable(body.phoneNumber)
            && !Given(body.businessName)
            ==> r == Fail(400, BusinessNameRequired)
  {
    CheckNames(body.firstName, body.lastName)
      .Then(CheckEmailGiven(body.email))
      .Then(CheckPhone(body.phoneNumber))
      .Then(if Given(body.businessName) then Pass else Fail(400, BusinessNameRequired))
  }

  /** The address must be present and complete. */
  function CheckAddress(address: Option<AddressInput>): (r: Outcome)
    ensures r.Pass? <==> address.Some? && Complete(address.value)
    ensures address.None? <==> r == Fail(400, AddressRequired)
    ensures address.Some? && !Complete(address.value) <==> r == Fail(400, AddressIncomplete)
    ensures r.Fail? ==> r.status == 400
  {
    if address.None? then Fail(400, AddressRequired)
    else if !Complete(address.value) then Fail(400, AddressIncomplete)
    else Pass
  }

  /** `POST /register`. After the body checks both collections are searched
      for the email, then for the phone number, and only then is the password
      checked. The document is created, a token generated (which saves it) and
      the document saved again; a save that fails validation answers 500. */
  function Register(admins: seq<AdminModel.Admin>, vendors: seq<Vendor>, body: Applicant,
                    isEmail: string -> bool, signed: Option<string>, hash: string -> string)
    : (r: Result<Signed<seq<Vendor>>>)
    ensures r.Ok? <==>
              && Eligible(body, isEmail)
              && !EmailTaken(admins, vendors, TrimLower(body.email.value))
              && !PhoneTaken(admins, vendors, Trim(body.phoneNumber.value))
              && PasswordAcceptable(body.password)
              && Enrolable(body)
    ensures r.Ok? ==> Eligible(body, isEmail) && PasswordAcceptable(body.password)
    ensures r.Ok? ==> !EmailTaken(admins, vendors, TrimLower(body.email.value))
                      && !PhoneTaken(admins, vendors, Trim(body.phoneNumber.value))
    ensures r.Ok? ==> |r.value.store| == |vendors| + 1 && r.value.store[..|vendors|] == vendors
    ensures r.Ok? ==>
              var v := r.value.store[|vendors|];
              && v.firstName == Trim(body.firstName.value) && v.lastName == Trim(body.lastName.value)
              && v.businessName == Trim(body.businessName.value)
              && v.email == TrimLower(body.email.value)
              && v.phoneNumber == Trim(body.phoneNumber.value)
              && v.userType == DefaultUserType
              && v.address == Cast(body.address.value)
              && v.password == Credential(hash(body.password.value), false)
              && v.tokens == (if signed.Some? then [signed.value] else [])
              && r.value.token == signed
              && Sound(v)
    ensures Eligible(body, isEmail) && EmailTaken(admins, vendors, TrimLower(body.email.value))
            ==> r == Err(400, EmailExists)
    ensures Eligible(body, isEmail) && !EmailTaken(admins, vendors, TrimLower(body.email.value))
            && PhoneTaken(admins, vendors, Trim(body.phoneNumber.value))
            ==> r == Err(400, PhoneExists)
    ensures CheckRegistration(body, isEmail).Fail? ==> r == Err(400, CheckRegistration(body, isEmail).message)
    // the password is looked at only for contacts that are free
    ensures Eligible(body, isEmail)
            && !EmailTaken(admins, vendors, TrimLower(body.email.value))
            && !PhoneTaken(admins, vendors, Trim(body.phoneNumber.value))
            && !PasswordAcceptable(body.password)
            ==> r == Err(400, CheckPassword(body.password).message)
    ensures r == Err(400, PasswordRequired) || r == Err(400, LengthMessage)
            ==> Eligible(body, isEmail)
                && !EmailTaken(admins, vendors, TrimLower(body.email.value))
                && !PhoneTaken(admins, vendors, Trim(body.phoneNumber.value))
    ensures r.Err? ==> r.status == 400 || r == Err(500, ValidationFailed)
  {
    match CheckRegistration(body, isEmail)
    case Fail(s, m) => Err(s, m)
    case Pass =>
      var email, phone := TrimLower(body.email.value), Trim(body.phoneNumber.value);
      if EmailTaken(admins, vendors, email) then Err(400, EmailExists)
      else if PhoneTaken(admins, vendors, phone) then Err(400, PhoneExists)
      else match CheckPassword(body.password)
        case Fail(s, m) => Err(s, m)
        case Pass => Enrol(vendors, body, signed, hash)
  }

  /** What the schema asks of a registration body: no required text blank
      after trimming, and an address the sub-schema accepts. */
  predicate Enrolable(body: Applicant) {
    && body.firstName.Some? && !AllSpace(body.firstName.value)
    && body.lastName.Some? && !AllSpace(body.lastName.value)
    && body.businessName.Some? && !AllSpace(body.businessName.value)
    && body.email.Some? && !AllSpace(body.email.value)
    && body.phoneNumber.Some? && !AllSpace(body.phoneNumber.value)
    && body.address.Some? && Cast(body.address.value).Some?
  }

  /** Registration once every check passed: the document is created, a token
      generated (which saves it) and the document saved again. The password
      is hashed on the first save only. A document the schema rejects (a
      blank name after trimming, an address the sub-schema refuses) answers
      500. */
  function Enrol(vendors: seq<Vendor>, body: Applicant, signed: Option<string>, hash: string -> string)
    : (r: Result<Signed<seq<Vendor>>>)
    requires body.firstName.Some? && body.lastName.Some? && body.businessName.Some? && body.email.Some?
    requires body.phoneNumber.Some? && body.password.Some? && body.address.Some?
    ensures r.Ok? <==> Enrolable(body)
    ensures r.Err? ==> r == Err(500, ValidationFailed)
    ensures r.Ok? ==> |r.value.store| == |vendors| + 1 && r.value.store[..|vendors|] == vendors
    ensures r.Ok? ==>
              var v := r.value.store[|vendors|];
              && v.firstName == Trim(body.firstName.value) && v.lastName == Trim(body.lastName.value)
              && v.businessName == Trim(body.businessName.value)
              && v.email == TrimLower(body.email.value)
              && v.phoneNumber == Trim(body.phoneNumber.value)
              && v.userType == DefaultUserType
              && v.address == Cast(body.address.value)
              && v.password == Credential(hash(body.password.value), false)
              && v.tokens == (if signed.Some? then [signed.value] else [])
              && r.value.token == signed
              && Sound(v)
  {
    var address := Cast(body.address.value);
    if address.None? then Err(500, ValidationFailed)
    else
      var doc := New(body.firstName.value, body.lastName.value, body.businessName.value,
                     body.email.value, body.phoneNumber.value, body.password.value, address);
      if !Valid(doc) then Err(500, ValidationFailed)
      else
        var (withToken, token) := GenerateAuthToken(doc, signed, hash);
        var v := Save(withToken, hash);
        SoundIgnoresCredentials(doc, v);
        Ok(Signed(vendors + [v], token))
  }

  /** A registration keeps the contacts of both collections unique. */
  lemma RegisterKeepsContactsUnique(admins: seq<AdminModel.Admin>, vendors: seq<Vendor>, body: Applicant,
                                    isEmail: string -> bool, signed: Option<string>, hash: string -> string)
    requires ContactsUnique(admins, vendors)
    ensures var r := Register(admins, vendors, body, isEmail, signed, hash);
            r.Ok? ==> ContactsUnique(admins, r.value.store)
  {
    var r := Register(admins, vendors, body, isEmail, signed, hash);
    if r.Ok? {
      var v := r.value.store[|vendors|];
      assert r.value.store == vendors + [v];
      AddVendor(admins, vendors, v);
    }
  }

  /** A registration stores only a valid, normalised vendor. */
  lemma RegisterKeepsStored(admins: seq<AdminModel.Admin>, vendors: seq<Vendor>, body: Applicant,
                            isEmail: string -> bool, signed: Option<string>, hash: string -> string)
    requires ContactsUnique(admins, vendors) && Stored(vendors)
    ensures var r := Register(admins, vendors, body, isEmail, signed, hash);
            r.Ok? ==> Stored(r.value.store)
  {
    var r := Register(admins, vendors, body, isEmail, signed, hash);
    if r.Ok? {
      RegisterKeepsContactsUnique(admins, vendors, body, isEmail, signed, hash);
      var v := r.value.store[|vendors|];
      assert r.value.store == vendors + [v];
      AppendKeepsStored(vendors, v);
    }
  }

  /** `POST /login`: presence checks, lookup by the normalised email, password
      comparison, then a token. */
  function Login(vendors: seq<Vendor>, body: SignIn, verify: (string, string) -> bool,
                 signed: Option<string>, hash: string -> string): (r: Result<Signed<seq<Vendor>>>)
    ensures CheckSignIn(body).Fail? ==> r == Err(400, CheckSignIn(body).message)
    ensures Given(body.email) && Given(body.password) && FindByEmail(vendors, TrimLower(body.email.value)).None?
            ==> r == Err(400, InvalidEmail)
    ensures Given(body.email) && Given(body.password)
            ==> var found := FindByEmail(vendors, TrimLower(body.email.value));
                found.Some? && !verify(body.password.value, vendors[found.value].password.value)
                ==> r == Err(400, InvalidPassword)
    ensures r.Ok? <==> Given(body.email) && Given(body.password)
                       && var found := FindByEmail(vendors, TrimLower(body.email.value));
                          found.Some? && verify(body.password.value, vendors[found.value].password.value)
    ensures r.Ok? ==> Given(body.email) && Given(body.password) && |r.value.store| == |vendors|
    ensures r.Ok? ==>
              var found := FindByEmail(vendors, TrimLower(body.email.value));
              && found.Some?
              && verify(body.password.value, vendors[found.value].password.value)
              && (forall k :: 0 <= k < |vendors| && k != found.value ==> r.value.store[k] == vendors[k])
              && (signed.Some? && Valid(vendors[found.value]) ==>
                    r.value.token == signed
                    && r.value.store[found.value].tokens == vendors[found.value].tokens + [signed.value]
                    && r.value.store[found.value]
                       == vendors[found.value].(tokens := vendors[found.value].tokens + [signed.value],
                                            password := OnSave(vendors[found.value].password, hash)))
              // a failed sign or save is swallowed: 200 with no token, nothing stored
              && (signed.None? ==> r.value == Signed(vendors, None))
              && (!Valid(vendors[found.value]) ==> r.value == Signed(vendors, None))
    ensures r.Err? ==> r.status == 400
  {
    match CheckSignIn(body)
    case Fail(s, m) => Err(s, m)
    case Pass =>
      match FindByEmail(vendors, TrimLower(body.email.value))
      case None => Err(400, InvalidEmail)
      case Some(i) =>
        if !verify(body.password.value, vendors[i].password.value) then Err(400, InvalidPassword)
        else
          var (doc, token) := GenerateAuthToken(vendors[i], signed, hash);
          if signed.None? || !Valid(vendors[i]) then
            assert doc == vendors[i] && vendors[i := doc] == vendors;
            Ok(Signed(vendors, None))
          else
            Ok(Signed(vendors[i := doc], token))
  }

  /** The profile fields after an update: each whitelisted key present in
      the body is assigned through its setter, every other field is kept. */
  predicate Applied(before: Vendor, after: Vendor, body: ProfileBody) {
    && after.firstName == (if "firstName" in body.keys then Trim(body.firstName) else before.firstName)
    && after.lastName == (if "lastName" in body.keys then Trim(body.lastName) else before.lastName)
    && after.phoneNumber == (if "phoneNumber" in body.keys then Trim(body.phoneNumber) else before.phoneNumber)
    && after.businessName == (if "businessName" in body.keys then Trim(body.businessName) else before.businessName)
    && after.address == (if "address" in body.keys then Cast(body.address) else before.address)
    && after.email == before.email && after.userType == before.userType
    && after.password == before.password && after.tokens == before.tokens
  }

  /** `PUT /update-profile`. A key outside the whitelist answers "Invalid
      updates" with status 200 and changes nothing. A phone number another
      vendor holds fails the unique index and answers 400. A document that
      fails validation makes the catch block read a field only duplicate-key
      errors have, so the route throws and answers nothing. */
  function UpdateProfile(vendors: seq<Vendor>, me: nat, body: ProfileBody): (r: Result<seq<Vendor>>)
    requires me < |vendors|
    ensures !(body.keys <= ProfileKeys) ==> r == Err(200, InvalidUpdates)
    ensures r.Ok? <==> body.keys <= ProfileKeys && Assigned(vendors[me], body).Some?
                       && var d := Assigned(vendors[me], body).value;
                          Valid(d) && forall j :: 0 <= j < |vendors| && j != me ==> vendors[j].phoneNumber != d.phoneNumber
    ensures r == Err(NoResponse, ValidationFailed) <==>
              body.keys <= ProfileKeys
              && (Assigned(vendors[me], body).None? || !Valid(Assigned(vendors[me], body).value))
    ensures r == Err(400, PhoneExists) <==>
              body.keys <= ProfileKeys && Assigned(vendors[me], body).Some?
              && var d := Assigned(vendors[me], body).value;
                 Valid(d) && exists j :: 0 <= j < |vendors| && j != me && vendors[j].phoneNumber == d.phoneNumber
    ensures r.Ok? ==> |r.value| == |vendors| && body.keys <= ProfileKeys && Valid(r.value[me])
    ensures r.Ok? ==> Applied(vendors[me], r.value[me], body)
    ensures r.Ok? ==> forall j :: 0 <= j < |vendors| && j != me ==> r.value[j] == vendors[j]
    ensures r.Ok? ==> forall j :: 0 <= j < |vendors| && j != me ==> vendors[j].phoneNumber != r.value[me].phoneNumber
    ensures r.Err? && r.status == 400
            ==> r.message == PhoneExists
                && exists j :: 0 <= j < |vendors| && j != me
                     && vendors[j].phoneNumber == Pick(body, "phoneNumber", Trim(body.phoneNumber), vendors[me].phoneNumber)
    ensures r.Err? ==> r.status in {200, 400, NoResponse}
  {
    match CheckKeys(body, ProfileKeys)
    case Fail(s, m) => Err(s, m)
    case Pass =>
      var doc := Assigned(vendors[me], body);
      if doc.None? || !Valid(doc.value) then Err(NoResponse, ValidationFailed)
      else if exists j :: 0 <= j < |vendors| && j != me && vendors[j].phoneNumber == doc.value.phoneNumber then
        Err(400, PhoneExists)
      else Ok(vendors[me := doc.value])
  }

  /** The document after the body's keys are assigned; None when the address
      sent cannot be cast into the sub-document. */
  function Assigned(v: Vendor, body: ProfileBody): (d: Option<Vendor>)
    ensures d.Some? <==> "address" !in body.keys || Cast(body.address).Some?
    ensures d.Some? ==> Applied(v, d.value, body)
  {
    var address := if "address" in body.keys then Cast(body.address) else v.address;
    if "address" in body.keys && address.None? then None
    else Some(v.(
      firstName := Pick(body, "firstName", Trim(body.firstName), v.firstName),
      lastName := Pick(body, "lastName", Trim(body.lastName), v.lastName),
      phoneNumber := Pick(body, "phoneNumber", Trim(body.phoneNumber), v.phoneNumber),
      businessName := Pick(body, "businessName", Trim(body.businessName), v.businessName),
      address := address))
  }

  /** The setters keep a stored vendor normalised. */
  lemma AppliedNormalised(before: Vendor, after: Vendor, body: ProfileBody)
    requires VendorModel.Normalised(before) && Applied(before, after, body)
    ensures VendorModel.Normalised(after)
  {
    TrimIdempotent(body.firstName);
    TrimIdempotent(body.lastName);
    TrimIdempotent(body.phoneNumber);
    TrimIdempotent(body.businessName);
  }

  /** In a collection with unique contacts no other vendor has `me`'s phone number. */
  lemma PhoneHeldOnce(vendors: seq<Vendor>, me: nat)
    requires me < |vendors| && UniqueContacts(vendors)
    ensures forall j :: 0 <= j < |vendors| && j != me ==> vendors[j].phoneNumber != vendors[me].phoneNumber
  {
    forall j | 0 <= j < |vendors| && j != me
      ensures vendors[j].phoneNumber != vendors[me].phoneNumber
    {
      if j < me {
        assert vendors[j].phoneNumber != vendors[me].phoneNumber;
      } else {
        assert vendors[me].phoneNumber != vendors[j].phoneNumber;
      }
    }
  }

  /** A profile update keeps every vendor valid and normalised and the
      vendor collection's contacts unique. */
  lemma UpdateProfileKeepsStored(vendors: seq<Vendor>, me: nat, body: ProfileBody)
    requires me < |vendors| && Stored(vendors)
    ensures var r := UpdateProfile(vendors, me, body);
            r.Ok? ==> Stored(r.value)
  {
    var r := UpdateProfile(vendors, me, body);
    if r.Ok? {
      var d := r.value[me];
      assert Sound(vendors[me]);
      AppliedNormalised(vendors[me], d, body);
      assert Sound(d);
      ReplaceKeepsStored(vendors, me, r.value);
    }
  }


  /** A body with no keys saves the vendor as it is. */
  lemma EmptyUpdateChangesNothing(vendors: seq<Vendor>, me: nat, body: ProfileBody)
    requires me < |vendors| && UniqueContacts(vendors) && Valid(vendors[me]) && body.keys == {}
    ensures UpdateProfile(vendors, me, body) == Ok(vendors)
  {
    var v := vendors[me];
    assert Assigned(v, body) == Some(v);
    PhoneHeldOnce(vendors, me);
    assert vendors[me := v] == vendors;
  }

  /** The profile route only checks the phone number against other vendors:
      a vendor may take over a phone number an admin holds, which the
      register routes keep apart. */
  lemma UpdateCanShareAdminPhone(admins: seq<AdminModel.Admin>, vendors: seq<Vendor>, me: nat, k: nat,
                                 body: ProfileBody)
    requires me < |vendors| && k < |admins|
    requires ContactsUnique(admins, vendors) && Valid(vendors[me]) && AdminModel.Normalised(admins[k])
    requires admins[k].phoneNumber != ""
    requires body.keys == {"phoneNumber"} && body.phoneNumber == admins[k].phoneNumber
    ensures var r := UpdateProfile(vendors, me, body);
            r.Ok? && !ContactsUnique(admins, r.value)
  {
    var p := admins[k].phoneNumber;
    assert Trim(p) == p;
    forall j | 0 <= j < |vendors| && j != me
      ensures vendors[j].phoneNumber != p
    {
      assert admins[k].phoneNumber != vendors[j].phoneNumber;
    }
    UpdateTakesFreePhone(vendors, me, body);
    assert UpdateProfile(vendors, me, body).value[me].phoneNumber == p;
  }

  /** A phone number no other vendor holds is taken as it is sent. */
  lemma UpdateTakesFreePhone(vendors: seq<Vendor>, me: nat, body: ProfileBody)
    requires me < |vendors| && Valid(vendors[me])
    requires body.keys == {"phoneNumber"} && body.phoneNumber != "" && Trim(body.phoneNumber) == body.phoneNumber
    requires forall j :: 0 <= j < |vendors| && j != me ==> vendors[j].phoneNumber != body.phoneNumber
    ensures UpdateProfile(vendors, me, body) == Ok(vendors[me := vendors[me].(phoneNumber := body.phoneNumber)])
  {
    var d := vendors[me].(phoneNumber := body.phoneNumber);
    assert Assigned(vendors[me], body) == Some(d);
    assert Valid(d);
  }

  /** `PUT /change-password`: the shared rule order, then the new password is
      saved and hashed. Sessions survive the change. */
  function ChangePassword(vendors: seq<Vendor>, me: nat, body: PasswordChange,
                          verify: (string, string) -> bool, hash: string -> string): (r: Result<seq<Vendor>>)
    requires me < |vendors|
    ensures r.Ok? <==> AcceptableChange(body, vendors[me].password.value, verify) && Valid(vendors[me])
    ensures !AcceptableChange(body, vendors[me].password.value, verify)
            ==> r == Err(400, CheckChange(body, vendors[me].password.value, verify).message)
    ensures r.Ok? ==> |r.value| == |vendors| && forall j :: 0 <= j < |vendors| && j != me ==> r.value[j] == vendors[j]
    ensures r.Ok? ==> r.value[me] == vendors[me].(password := Credential(hash(body.newPassword.value), false))
    ensures r.Ok? ==> r.value[me].tokens == vendors[me].tokens
    ensures r.Err? ==> r.status in {400, 500}
  {
    match Credentials.ChangePassword(vendors[me].password, body, verify, hash)
    case Err(s, m) => Err(s, m)
    case Ok(c) =>
      if !Valid(vendors[me]) then Err(500, ValidationFailed)
      else Ok(vendors[me := vendors[me].(password := c)])
  }

  /** `POST /logout`: the presented token is filtered out of the vendor's
      tokens; every other token and every other vendor is kept. */
  function Logout(vendors: seq<Vendor>, me: nat, token: string): (r: seq<Vendor>)
    requires me < |vendors|
    ensures |r| == |vendors| && forall j :: 0 <= j < |vendors| && j != me ==> r[j] == vendors[j]
    ensures !Authenticates(r[me].tokens, token)
    ensures forall t :: t != token ==> (Authenticates(r[me].tokens, t) <==> Authenticates(vendors[me].tokens, t))
    ensures r[me].tokens == Revoke(vendors[me].tokens, token)
    ensures r[me] == vendors[me].(tokens := r[me].tokens)
  {
    vendors[me := vendors[me].(tokens := Revoke(vendors[me].tokens, token))]
  }

  /** Logging in and then out with the token just issued leaves the vendor's
      sessions as they were, minus any older copy of that token. */
  lemma LoginThenLogout(vendors: seq<Vendor>, body: SignIn, verify: (string, string) -> bool,
                        token: string, hash: string -> string)
    requires Stored(vendors)
    ensures var r := Login(vendors, body, verify, Some(token), hash);
            r.Ok? ==>
              var i := FindByEmail(vendors, TrimLower(body.email.value)).value;
              Logout(r.value.store, i, token)[i].tokens == Revoke(vendors[i].tokens, token)
  {
    var r := Login(vendors, body, verify, Some(token), hash);
    if r.Ok? {
      var i := FindByEmail(vendors, TrimLower(body.email.value)).value;
      assert Sound(vendors[i]);
      RevokeIssued(vendors[i].tokens, token);
    }
  }
}

=== FILE: wrappers.dfy ===
/** Optional values, handler replies and check outcomes shared by every module.

    Request bodies are JSON: a field is either absent (`undefined`) or present.
    The route handlers test fields with JavaScript truthiness, which this module
    states once for strings and numbers. */
module Wrappers {

  datatype Option<+T> = None | Some(value: T) {
    function GetOr(default: T): T {
      match this
      case Some(v) => v
      case None => default
    }
  }

  /** The answer of a handler whose failures leave every store untouched:
      either the value it produces (a new store or a record it sends back),
      or the HTTP status and message it replies with. */
  datatype Result<+T> = Ok(value: T) | Err(status: nat, message: string)

  /** The outcome of an ordered chain of request checks: Pass, or the reply
      of the first check that failed. */
  datatype Outcome = Pass | Fail(status: nat, message: string) {
    /** Continue with `next` only when this check passed. */
    function Then(next: Outcome): Outcome {
      if Fail? then this else next
    }

    /** Turn a passing chain into a successful result carrying `v`. */
    function Into<T>(v: T): Result<T> {
      match this
      case Pass => Ok(v)
      case Fail(s, m) => Err(s, m)
    }
  }

  /** The answer of a handler whose failure may still leave effects behind
      (uploaded files, documents inserted before the failing one). */
  datatype Reply<+S> = Reply(status: nat, message: string, state: S)

  /** The status used when a handler throws from inside its own `catch`
      block, so that no HTTP reply is ever written. */
  const NoResponse: nat := 0

  /** JavaScript truthiness of an optional string: `undefined` and "" are falsy. */
  predicate Given(s: Option<string>) {
    s.Some? && s.value != ""
  }

  /** JavaScript truthiness of an optional number: `undefined` and 0 are falsy. */
  predicate GivenNum(n: Option<int>) {
    n.Some? && n.value != 0
  }

  /** `findOne` over a collection kept in insertion order: the position of
      the first document the filter matches, None when none does. */
  function FindFirst<T>(docs: seq<T>, matches: T -> bool): (r: Option<nat>)
    ensures r.Some? ==> r.value < |docs| && matches(docs[r.value])
    ensures r.Some? ==> forall k :: 0 <= k < r.value ==> !matches(docs[k])
    ensures r.None? <==> forall k :: 0 <= k < |docs| ==> !matches(docs[k])
  {
    if |docs| == 0 then None
    else if matches(docs[0]) then Some(0)
    else match FindFirst(docs[1..], matches)
      case None => None
      case Some(i) => Some(i + 1)
  }

  /** The text of a field that passed a truthiness test, "" otherwise. */
  function TextOf(s: Option<string>): string {
    s.GetOr("")
  }
}

=== FILE: zone_model.dfy ===
/** The zone collection: four required strings, each lower-cased by its
    setter, with a unique index on the zone name alone. */
module ZoneModel {
  import opened Wrappers
  import opened Text

  datatype Zone = Zone(state: string, district: string, city: string, zoneName: string)

  type Zones = map<string, Zone>

  /** Every path holds what its setter produces. */
  predicate Normalised(z: Zone) {
    IsLower(z.state) && IsLower(z.district) && IsLower(z.city) && IsLower(z.zoneName)
  }

  /** The `required` validators. */
  predicate Valid(z: Zone) {
    z.state != "" && z.district != "" && z.city != "" && z.zoneName != ""
  }

  /** The unique index: no two zones share a name. */
  predicate NamesUnique(zones: Zones) {
    forall a, b :: a in zones && b in zones && a != b ==> zones[a].zoneName != zones[b].zoneName
  }

  /** What the collection holds after any sequence of accepted saves. */
  predicate Stored(zones: Zones) {
    NamesUnique(zones) && forall k :: k in zones ==> Valid(zones[k]) && Normalised(zones[k])
  }

  /** `new Zone({...})` and the same setters applied to a query filter: every
      field is lower-cased, and a non-empty field stays non-empty. */
  function Cast(state: string, district: string, city: string, zoneName: string): (z: Zone)
    ensures z == Zone(Lower(state), Lower(district), Lower(city), Lower(zoneName))
    ensures Normalised(z)
    ensures Valid(z) <==> state != "" && district != "" && city != "" && zoneName != ""
    ensures |z.state| == |state| && |z.district| == |district| && |z.city| == |city|
            && |z.zoneName| == |zoneName|
  {
    LowerIdempotent(state);
    LowerIdempotent(district);
    LowerIdempotent(city);
    LowerIdempotent(zoneName);
    Zone(Lower(state), Lower(district), Lower(city), Lower(zoneName))
  }

  /** Whether some other zone than `except` already holds the name: what the
      unique index refuses on save. */
  predicate NameTaken(zones: Zones, zoneName: string, except: Option<string>) {
    exists k :: k in zones && Some(k) != except && zones[k].zoneName == zoneName
  }

  /** Storing a valid, normalised zone under `id` keeps the collection's
      invariant when no other zone holds its name. */
  lemma PutKeepsStored(zones: Zones, id: string, z: Zone)
    requires Stored(zones)
    requires Valid(z) && Normalised(z)
    requires !NameTaken(zones, z.zoneName, Some(id))
    ensures Stored(zones[id := z])
  {
    var after := zones[id := z];
    forall a, b | a in after && b in after && a != b ensures after[a].zoneName != after[b].zoneName {
      if a == id {
        assert !(b in zones && Some(b) != Some(id) && zones[b].zoneName == z.zoneName);
      } else if b == id {
        assert !(a in zones && Some(a) != Some(id) && zones[a].zoneName == z.zoneName);
      }
    }
  }
}

=== FILE: zone_routes.dfy ===
/** The zone router. Adding, updating and deleting are reserved to callers
    whose `userType` is exactly "Admin"; add and update require all four
    fields and refuse a tuple some zone already has; an update overwrites all
    four fields. Query filters pass through the same lower-casing setters as
    documents. */
module ZoneRoutes {
  import opened Wrappers
  import opened ZoneModel
  import Text
  import UserModel

  const AdminType: string := "Admin"
  const Forbidden: string := "Unauthorized!!! only Admin has the permission"
  const FieldsRequired: string := "All fields are required"
  const ZoneExists: string := "Zone already exists"
  const ZoneNotFound: string := "Zone not found"

  /** The message of the error the unique index on the zone name raises; the
      catch block answers 500 with it. */
  const DuplicateKey: string := "E11000 duplicate key error"

  datatype ZoneBody = ZoneBody(state: Option<string>, district: Option<string>, city: Option<string>,
                               zoneName: Option<string>)

  function Gate(userType: string): (r: Outcome)
    ensures r.Pass? <==> userType == AdminType
    ensures r.Fail? ==> r == Fail(401, Forbidden)
  {
    if userType != AdminType then Fail(401, Forbidden) else Pass
  }

  predicate AllGiven(body: ZoneBody) {
    Given(body.state) && Given(body.district) && Given(body.city) && Given(body.zoneName)
  }

  /** The zone a complete body describes, after the setters. */
  function Requested(body: ZoneBody): (z: Zone)
    requires AllGiven(body)
    ensures z == Zone(Text.Lower(body.state.value), Text.Lower(body.district.value),
                      Text.Lower(body.city.value), Text.Lower(body.zoneName.value))
    ensures Valid(z) && Normalised(z)
  {
    Cast(body.state.value, body.district.value, body.city.value, body.zoneName.value)
  }

  /** `Zone.findOne({ state, district, city, zoneName })`: some zone, whatever
      its id, has the whole tuple. */
  predicate TupleExists(zones: Zones, z: Zone) {
    exists k :: k in zones && zones[k] == z
  }

  /** `POST /`: gate, presence of all four fields, the tuple check, then the
      save, which the unique index may still refuse. */
  function AddZone(zones: Zones, userType: string, id: string, body: ZoneBody): (r: Result<Zones>)
    requires id !in zones
    ensures userType != AdminType ==> r == Err(401, Forbidden)
    ensures userType == AdminType && !AllGiven(body) ==> r == Err(400, FieldsRequired)
    ensures r == Err(400, ZoneExists) <==> userType == AdminType && AllGiven(body) && TupleExists(zones, Requested(body))
    ensures r == Err(500, DuplicateKey) <==>
              userType == AdminType && AllGiven(body) && !TupleExists(zones, Requested(body))
              && NameTaken(zones, Requested(body).zoneName, None)
    ensures r.Ok? <==> userType == AdminType && AllGiven(body) && !NameTaken(zones, Requested(body).zoneName, None)
    ensures r.Ok? ==> r.value.Keys == zones.Keys + {id} && r.value[id] == Requested(body)
    ensures r.Ok? ==> forall k :: k in zones ==> r.value[k] == zones[k]
  {
    match Gate(userType).Then(if AllGiven(body) then Pass else Fail(400, FieldsRequired))
    case Fail(s, m) => Err(s, m)
    case Pass =>
      var z := Requested(body);
      if TupleExists(zones, z) then Err(400, ZoneExists)
      else if NameTaken(zones, z.zoneName, None) then Err(500, DuplicateKey)
      else Ok(zones[id := z])
  }

  /** `GET /:id`. */
  function GetZone(zones: Zones, id: string): (r: Result<Zone>)
    ensures r.Ok? <==> id in zones
    ensures r.Ok? ==> r.value == zones[id]
    ensures r.Err? ==> r == Err(404, ZoneNotFound)
  {
    if id in zones then Ok(zones[id]) else Err(404, ZoneNotFound)
  }

  /** `PUT /:id`: gate, presence, the tuple check over the whole collection
      (the zone being updated included), then the lookup by id, then the
      overwrite of all four fields, which the unique index may refuse. */
  function UpdateZone(zones: Zones, userType: string, id: string, body: ZoneBody): (r: Result<Zones>)
    ensures userType != AdminType ==> r == Err(401, Forbidden)
    ensures userType == AdminType && !AllGiven(body) ==> r == Err(400, FieldsRequired)
    ensures r == Err(400, ZoneExists) <==> userType == AdminType && AllGiven(body) && TupleExists(zones, Requested(body))
    ensures r == Err(404, ZoneNotFound) <==>
              userType == AdminType && AllGiven(body) && !TupleExists(zones, Requested(body)) && id !in zones
    ensures r.Ok? <==>
              userType == AdminType && AllGiven(body) && !TupleExists(zones, Requested(body)) && id in zones
              && !NameTaken(zones, Requested(body).zoneName, Some(id))
    ensures r.Ok? ==> r.value.Keys == zones.Keys && r.value[id] == Requested(body)
    ensures r.Ok? ==> forall k :: k in zones && k != id ==> r.value[k] == zones[k]
  {
    match Gate(userType).Then(if AllGiven(body) then Pass else Fail(400, FieldsRequired))
    case Fail(s, m) => Err(s, m)
    case Pass =>
      var z := Requested(body);
      if TupleExists(zones, z) then Err(400, ZoneExists)
      else if id !in zones then Err(404, ZoneNotFound)
      else if NameTaken(zones, z.zoneName, Some(id)) then Err(500, DuplicateKey)
      else Ok(zones[id := z])
  }

  /** `DELETE /:id`, gated like add and update. */
  function DeleteZone(zones: Zones, userType: string, id: string): (r: Result<Zones>)
    ensures userType != AdminType ==> r == Err(401, Forbidden)
    ensures r.Ok? <==> userType == AdminType && id in zones
    ensures userType == AdminType && id !in zones ==> r == Err(404, ZoneNotFound)
    ensures r.Ok? ==> r.value.Keys == zones.Keys - {id}
    ensures r.Ok? ==> forall k :: k in r.value ==> r.value[k] == zones[k]
  {
    match Gate(userType)
    case Fail(s, m) => Err(s, m)
    case Pass => if id !in zones then Err(404, ZoneNotFound) else Ok(zones - {id})
  }

  // ---------------------------------------------------------------------------
  // Properties
  // ---------------------------------------------------------------------------

  /** Adding keeps the collection's invariant. */
  lemma AddKeepsStored(zones: Zones, userType: string, id: string, body: ZoneBody)
    requires Stored(zones) && id !in zones
    requires AddZone(zones, userType, id, body).Ok?
    ensures Stored(AddZone(zones, userType, id, body).value)
  {
    PutKeepsStored(zones, id, Requested(body));
  }

  /** Updating keeps the collection's invariant. */
  lemma UpdateKeepsStored(zones: Zones, userType: string, id: string, body: ZoneBody)
    requires Stored(zones)
    requires UpdateZone(zones, userType, id, body).Ok?
    ensures Stored(UpdateZone(zones, userType, id, body).value)
  {
    PutKeepsStored(zones, id, Requested(body));
  }

  /** Sending a zone's own current values back is refused as a duplicate. */
  lemma SelfUpdateRefused(zones: Zones, id: string, body: ZoneBody)
    requires id in zones && AllGiven(body)
    requires Requested(body) == zones[id]
    ensures UpdateZone(zones, AdminType, id, body) == Err(400, ZoneExists)
  {
    assert TupleExists(zones, Requested(body));
  }

  /** The tuple check runs before the lookup: a duplicate tuple is reported
      for an id no zone has. */
  lemma DuplicateBeforeMissing(zones: Zones, id: string, body: ZoneBody, other: string)
    requires id !in zones && AllGiven(body)
    requires other in zones && zones[other] == Requested(body)
    ensures UpdateZone(zones, AdminType, id, body) == Err(400, ZoneExists)
  {
    assert TupleExists(zones, Requested(body));
  }

  /** The route compares whole tuples while the index covers the name alone:
      a new tuple reusing a stored name passes the route's check and is
      refused by the index. */
  lemma SameNameOtherPlace(zones: Zones, id: string, body: ZoneBody, other: string)
    requires Stored(zones) && id !in zones && AllGiven(body)
    requires other in zones && zones[other].zoneName == Requested(body).zoneName
    requires zones[other].city != Requested(body).city
    ensures AddZone(zones, AdminType, id, body) == Err(500, DuplicateKey)
  {
    var z := Requested(body);
    forall k | k in zones ensures zones[k] != z {
      if k != other {
        assert zones[k].zoneName != zones[other].zoneName;
      }
    }
    assert NameTaken(zones, z.zoneName, None);
  }

  /** The routes run behind the authentication middleware, which looks the
      caller up in the user collection: the gate sees a user document and
      passes exactly its Admin variant. Vendors and general users are refused
      by add, update and delete alike. */
  lemma GateAdmitsAdminVariant(zones: Zones, u: UserModel.User, id: string, body: ZoneBody)
    requires id !in zones
    ensures Gate(UserModel.UserType(u)).Pass? <==> u.kind.AdminKind?
    ensures !u.kind.AdminKind? ==> AddZone(zones, UserModel.UserType(u), id, body) == Err(401, Forbidden)
    ensures !u.kind.AdminKind? ==> UpdateZone(zones, UserModel.UserType(u), id, body) == Err(401, Forbidden)
    ensures !u.kind.AdminKind? ==> DeleteZone(zones, UserModel.UserType(u), id) == Err(401, Forbidden)
  {
  }

  /** The zone an add stores is read back by its id, with its setters
      applied. */
  lemma GetAfterAdd(zones: Zones, userType: string, id: string, body: ZoneBody)
    requires id !in zones && AddZone(zones, userType, id, body).Ok?
    ensures GetZone(AddZone(zones, userType, id, body).value, id) == Ok(Requested(body))
  {
  }

  /** Deleting the zone an add just stored gives back the collection as it
      was before the add. */
  lemma DeleteUndoesAdd(zones: Zones, id: string, body: ZoneBody)
    requires id !in zones && AddZone(zones, AdminType, id, body).Ok?
    ensures DeleteZone(AddZone(zones, AdminType, id, body).value, AdminType, id) == Ok(zones)
  {
    var added := AddZone(zones, AdminType, id, body).value;
    assert added - {id} == zones;
  }
}
